=== FILE: README.md ===
# siam-notaria dashboard — a Dafny model of its data handling

siam-notaria is a React dashboard that notaries use to look up a taxpayer's
municipal records. A user signs in and searches a taxpayer by DNI or RUC. The
results grid lists the municipalities where the taxpayer is registered, with
the debt in each. From a row, the user opens modals that list:

- cash receipts (recibos de caja), grouped by receipt group;
- sworn declarations (DDJJ);
- vehicle-tax records;
- cadastral documents, which open in a PDF viewer that shows digital-signature details.

Administrators also manage notary users, grouped by notary office.

This project models the logic of those screens as pure functions over decoded
JSON values:

- **Lookups.** The case-insensitive field lookups used on API rows.
- **Lists and totals.** The filters, groupings and totals the modals compute.
- **Payloads and URLs.** The payloads and report URLs sent to the API.
- **Expand/collapse state.** The expand/collapse and one-download-at-a-time state of the modals.
- **Auth forms.** The login, recovery, reset and change-password forms.
- **Password alert.** The password-age alert.
- **Session.** Session storage, the protected routes and the layout's user header.

JavaScript semantics that matter to the results are written out:

- truthiness, `String(v)`, `parseFloat` and `Number`;
- `==` versus `===` against `1`;
- property order of object spread;
- a callback that throws inside `filter` or `map`, modelled as `None`.

The network, the JSON parser, the clock, locale formatting and the browser's
storage are not modelled. Each appears as a parameter (a reply, a `parse` or
`serialize` function, a `now`, a `localeDate`) or as a plain map (`Storage.Store`).

Modules follow the source files:

- `Json` and `Numbers`: JavaScript values and numeric conversions.
- `Text` and `Lists`: string and array operations.
- `Lookup`: the `getValue` helpers.
- `Storage`: `localStorage`.
- `Auth`: the shared reply handling of `authService`.
- `Recibos`, `Users`, `ResultsGrid`, `Ddjj`, `Vehicular`, `Consulta`, `Catastro`, `PdfViewer`: one module per component.
- `Report`: the report-URL services.
- `Search`: the search form and its service.
- `Passwords`: the change-password form, the reset form and the password alert.
- `Session`: login, the guard and routes, the layout and the dashboard.

## Model

| member | source | states |
|---|---|---|
| Lookup.CIValue | src/components/Dashboard/ResultsGrid_cnt_en_municipalidades.jsx:28-32 | The case-insensitive `find` yields the value of the FIRST field whose name equals the key ignoring case; no match (or a non-object) yields nothing. |
| Lookup.GetCI | src/components/Dashboard/ResultsGrid_cnt_en_municipalidades.jsx:28-32 | The grid's `getValue`: `null` for a falsy row, otherwise the first case-insensitive match or `null`. |
| Lookup.GetPreferExact | src/services/ddjjService.js:52-58 | The services' `getValue`: an own property with the exact name wins even when it is `null`; otherwise the case-insensitive match. |
| Lookup.GetOrDash | src/components/Dashboard/ListarImpuestoVehicular.jsx:11-21 | The vehicle-tax lookup never yields `null`: exact non-null key, else first case-insensitive match if non-null, else '-'. |
| Lookup.GetCaseInsensitive | src/components/Dashboard/ConsultaModal_x_cnt.jsx:36-41 | '' for a falsy entity, '-' when no field matches, the first match otherwise. |
| Lookup.PreferExactAgreesWithoutExactKey | src/services/alcabalaService.js:35-41 | Without an exact own property, the services' lookup and the grid's lookup return the same value. |
| Lookup.PreferExactDiffersOnCaseVariants | src/services/ddjjService.js:52-58 | With `IDE_DEC` before `ide_dec`, the grid's lookup returns the first and the services' lookup the exact one. |
| Lookup.GetOrDashViaGetCI | src/components/Dashboard/ListarImpuestoVehicular.jsx:11-21 | The vehicle-tax lookup equals the grid's lookup with the exact key tried first and `null` shown as '-'. |
| Lookup.GetOrDashStopsAtFirstMatch | src/components/Dashboard/ListarImpuestoVehicular.jsx:16-20 | A `null` in the first case-insensitive match hides a later non-null variant. |
| Lookup.CaseInsensitiveDashIffNoField | src/components/Dashboard/ConsultaModal_x_cnt.jsx:36-41 | For a truthy entity, '-' comes out exactly when no field name matches. |
| Lists.Filter | src/components/Dashboard/ListarRecibosCaja.jsx:110-126 | `filter` keeps the elements passing the test and no others, in their order (a subsequence); how often each is kept is stated by Lists.FilterCounts. |
| Lists.FilterCounts | src/components/Dashboard/ListarRecibosCaja.jsx:110-126 | `filter` keeps each passing element as many times as it occurs in the input, and no failing one. |
| Lists.MapFilter | src/components/Dashboard/ListarRecibosCaja.jsx:145-153 | Filtering groups and then taking their rows equals taking the rows and filtering them with the matching test. |
| Lists.FilterIdempotent | src/components/Dashboard/ResultsGrid_cnt_en_municipalidades.jsx:35-49 | Filtering twice with the same test equals filtering once. |
| Lists.FilterTry | src/components/Dashboard/ListarRecibosCaja.jsx:110-126 | `filter` whose test may throw: throws exactly when the test throws on some element; otherwise keeps the passing elements and no others, in order (counts in Lists.FilterTryCounts). |
| Lists.FilterTryCounts | src/components/Dashboard/ListarRecibosCaja.jsx:110-126 | When no test throws, each passing element is kept as many times as it occurs, and no failing one. |
| Lists.MapTry | src/components/Dashboard/ListarRecibosCaja.jsx:129-142 | `map` whose callback may throw: throws exactly when the callback throws on some element; otherwise maps every element. |
| Lists.Toggle | src/components/Dashboard/ListarRecibosCaja.jsx:156-161 | The `includes`/`filter`/append update flips membership of the toggled id and leaves every other id's membership alone. |
| Lists.ToggleTwice | src/components/Dashboard/ListarRecibosCaja.jsx:163-169 | Toggling the same id twice restores which ids are expanded. |
| Lists.ToggleCommutes | src/components/Dashboard/ListarRecibosCaja.jsx:156-169 | Toggling two ids in either order gives the same expanded set. |
| Lists.SumOfAppend | src/components/Dashboard/ListarImpuestoVehicular.jsx:50-64 | A `reduce` sum over two blocks of rows is the sum of the blocks' sums. |
| Numbers.SumNumSpec | src/components/Dashboard/ListarDDJJ.jsx:111-118 | A sum of `parseFloat` values is `NaN` exactly when one summand is, and otherwise the exact sum of the finite values. |
| Numbers.IntRoundTrip | src/components/Dashboard/ListarDDJJ.jsx:111-118 | `parseFloat(String(n))` and `Number(String(n))` give back the integer `n`. |
| Numbers.ParseDecimalNoStart | src/components/Dashboard/ListarImpuestoVehicular.jsx:23-28 | `parseFloat` of text whose first character is not whitespace, a digit, a sign or '.' (a letter, say) is `NaN`. |
| Numbers.ParseDecimalLoneSign | src/components/Dashboard/ListarImpuestoVehicular.jsx:23-28 | `parseFloat('-')`, the vehicle-tax placeholder, is `NaN`. |
| Numbers.ToNumber | src/components/Dashboard/ListarDDJJ.jsx:259-260 | `Number(s)`, the coercion behind `== 1`: blank text reads as 0. |
| Numbers.NumberAgreesWithParseFloat | src/components/Dashboard/ListarDDJJ.jsx:111-118 | `Number` and `parseFloat` agree on every non-blank text `Number` reads as finite; on blank text `Number` gives 0 and `parseFloat` `NaN`. |
| Json.ParseFloat | src/components/Dashboard/ListarImpuestoVehicular.jsx:53-56 | `parseFloat` of `null`, a boolean, an object, `''` or `[]` is `NaN`. |
| Json.TruthyForms | src/components/Dashboard/ListarRecibosCaja.jsx:107 | Every array and object is truthy, even empty; a string is truthy exactly when non-empty, so '0' and 'false' are; 0, `null` and `false` are falsy. |
| Json.JsToStringForms | src/components/Dashboard/ListarRecibosCaja.jsx:379 | `String([x])` is `String(x)` ('' for `null`), `String([])` is '', `String([1, 2])` is "1,2", and every object prints as "[object Object]". |
| Json.LooseEqOneForms | src/components/Dashboard/ListarRecibosCaja.jsx:379 | `== 1` accepts `true`, '1' and `[1]` but not `null`, `false` or ''; whatever loosely equals 1 is truthy, and `=== 1` implies `== 1`. |
| Json.StrictEqLaws | src/components/Admin/UserManagement.jsx:62 | `===` never coerces ('1', `true` and 1 differ), is symmetric and transitive, and relates scalars only, each non-`NaN` scalar to itself. |
| Json.SetField | src/components/Profile/ChangePassword.jsx:66-71 | Object spread with one field: that field gets the new value, every other property reads as before, and no key is lost. |
| Json.IsOneMeans | src/components/Layout/MainLayout.jsx:115 | `v === 1` holds exactly for a JSON number equal to 1. |
| Storage.GetItem | src/components/Layout/ProtectedRoute.jsx:7-13 | `getItem` returns the stored string exactly when the key is present. |
| Storage.SetItem | src/components/Login/LoginForm.jsx:33-35 | After `setItem`, the key reads the new value and every other key reads as before. |
| Storage.RemoveItem | src/components/Layout/MainLayout.jsx:12-16 | After `removeItem`, the key is absent and every other key reads as before. |
| Storage.SetThenRemove | src/components/Layout/MainLayout.jsx:12-16 | Removing a key that was just set on a store without it restores the store. |
| Storage.TokenText | src/services/reportService.js:19-23 | A missing token is interpolated into URLs as the text "null". |
| Text.Tokens | src/components/Dashboard/ListarRecibosCaja.jsx:118-126 | `split(/\s+/).filter(Boolean)` yields non-empty, whitespace-free tokens. |
| Text.TokensEmptyIffAllSpace | src/components/Dashboard/ListarRecibosCaja.jsx:118-126 | A memo filter yields no tokens exactly when it is blank. |
| Text.TokensOccur | src/components/Dashboard/ListarRecibosCaja.jsx:118-126 | Every token occurs in the filter text it came from. |
| Text.JoinSplit | src/components/Dashboard/ListarRecibosCaja.jsx:175-182 | Joining the pieces of `split(sep)` with `sep` gives back the text. |
| Text.SplitThree | src/components/Dashboard/ListarRecibosCaja.jsx:175-182 | Splitting `a-b-c` with separator-free parts gives exactly `[a, b, c]`. |
| Text.Utf16Length | src/components/Profile/ChangePassword.jsx:33-37 | JavaScript's `length` counts UTF-16 units: at least the number of characters, and equal to it for text in the Basic Multilingual Plane. |
| Text.Utf16Append | src/components/Dashboard/ListarRecibosCaja.jsx:135 | The UTF-16 length of a concatenation is the sum of the parts' lengths. |
| Text.Utf16Take | src/components/Dashboard/ListarRecibosCaja.jsx:135 | `substring(0, n)`: the longest prefix of whole characters that fits in `n` UTF-16 units; the whole text when it fits. |
| Text.Utf16TakeBmp | src/components/Dashboard/ListarDocumentosCatastrales.jsx:119-130 | On text inside the Basic Multilingual Plane the UTF-16 cut is the plain cut of `n` characters. |
| Text.DigitsFitUtf16 | src/components/Dashboard/ListarDocumentosCatastrales.jsx:119-130 | A digit run of at most `n` characters survives a cut to `n` UTF-16 units whole. |
| Text.TrimEmptyIffAllSpace | src/components/Dashboard/ListarDDJJ.jsx:64-71 | `trim()` is empty exactly when the text is all whitespace. |
| Text.LowerIdempotent | src/components/Dashboard/ResultsGrid_cnt_en_municipalidades.jsx:35-49 | Lower-casing twice equals lower-casing once. |
| Text.Lower | src/components/Dashboard/ResultsGrid_cnt_en_municipalidades.jsx:43 | `toLowerCase` keeps the length, leaves no capital letter, and changes no character that is not a capital. |
| Text.TrimShape | src/components/Dashboard/ListarRecibosCaja.jsx:344 | `trim()` returns a run of the text that neither starts nor ends with whitespace, with only whitespace removed before and after it. |
| Text.Split | src/components/Dashboard/ListarDocumentosCatastrales.jsx:128 | `split(sep)` gives at least one part and no part holds the separator. |
| Text.SplitCount | src/components/Dashboard/ListarRecibosCaja.jsx:178 | `split(sep)` gives exactly one more part than the text has separators. |
| Text.Includes | src/components/Dashboard/ResultsGrid_cnt_en_municipalidades.jsx:43 | `includes` holds exactly when the needle occurs at some index of the text. |
| Auth.Call | src/services/authService.js:10-34 | The shared reply handling: an OK body is returned; a failure rejects with the server's truthy `message`, else the operation's default text; a `null` failure body or an unparsable body rejects with the engine's error. |
| Auth.FailureFallsBackToDefault | src/services/authService.js:22-25 | A failure without a truthy `message` rejects with the operation's default text. |
| Auth.FailureUsesServerText | src/services/authService.js:22-25 | A failure carrying a non-empty `message` rejects with that text. |
| Recibos.Unwrap | src/components/Dashboard/ListarRecibosCaja.jsx:51-71 | A one-element array holding an array is unwrapped once; JSON text (bare, or alone in an array) is parsed when it parses; anything else is kept. |
| Recibos.UnwrapOneLevel | src/components/Dashboard/ListarRecibosCaja.jsx:51-71 | `[[x]]` becomes `[x]`; a triple nesting needs two passes. |
| Recibos.UnwrapChanges | src/components/Dashboard/ListarRecibosCaja.jsx:51-71 | The unwrapping changes a result only when it is a one-element array or a string. |
| Recibos.NumberMatches | src/components/Dashboard/ListarRecibosCaja.jsx:110-115 | The receipt-number test throws on a `null` receipt or a truthy non-string `nro_rec`; it passes exactly when `nro_rec` is a string containing the filter, ignoring case. |
| Recibos.MemoMatches | src/components/Dashboard/ListarRecibosCaja.jsx:118-126 | The memo test throws on a `null` receipt or a truthy non-string `gls_rec`; it passes only on a non-empty memo containing every filter token, ignoring case. |
| Recibos.MemoTokens | src/components/Dashboard/ListarRecibosCaja.jsx:118-126 | The memo filter is lower-cased and split into non-empty, whitespace-free tokens. |
| Recibos.BlankMemoFilterKeepsAllMemos | src/components/Dashboard/ListarRecibosCaja.jsx:118-126 | A blank memo filter keeps every receipt that has a non-empty memo. |
| Recibos.MissingAmountIsZero | src/components/Dashboard/ListarRecibosCaja.jsx:131 | A detail line without a truthy `val_tot` adds 0 to the receipt total. |
| Recibos.Shorten | src/components/Dashboard/ListarRecibosCaja.jsx:135 | Text of at most 100 UTF-16 units is kept; longer text becomes its longest prefix fitting in 100 units plus "...", at most 103 units in all. |
| Recibos.Enrich | src/components/Dashboard/ListarRecibosCaja.jsx:129-142 | Enriching throws on a `null` receipt or a truthy non-array `detalle`; otherwise it keeps the receipt and adds the sum of its detail amounts. |
| Recibos.ReceiptTotalSpec | src/components/Dashboard/ListarRecibosCaja.jsx:131 | A receipt total is `NaN` exactly when some line amount is, and otherwise the exact sum of the line amounts. |
| Recibos.NoDetailsTotalsZero | src/components/Dashboard/ListarRecibosCaja.jsx:129-142 | A receipt without details totals 0 with an empty preview. |
| Recibos.Receipts | src/components/Dashboard/ListarRecibosCaja.jsx:107 | A group's receipts are its truthy `recibos` field; a missing or falsy one reads as no receipts. |
| Recibos.Details | src/components/Dashboard/ListarRecibosCaja.jsx:131-134 | A receipt's lines are its truthy `detalle` field; a missing or falsy one reads as no lines. |
| Recibos.ByNumber | src/components/Dashboard/ListarRecibosCaja.jsx:110-115 | An empty filter keeps every receipt; an active one throws exactly when its test throws on some receipt, and otherwise keeps, in order, exactly the receipts whose number matches, each as often as it occurs. |
| Recibos.ByMemo | src/components/Dashboard/ListarRecibosCaja.jsx:118-126 | An empty filter keeps every receipt; an active one throws exactly when its test throws on some receipt, and otherwise keeps, in order, exactly the receipts whose memo matches, each as often as it occurs. |
| Recibos.ProcessGroup | src/components/Dashboard/ListarRecibosCaja.jsx:102-153 | Processing throws exactly on a `null` group, a truthy non-array `recibos`, or a receipt that throws at a stage it reaches (number test, memo test after passing the number test, enrichment after passing both); otherwise the group keeps, in order, exactly the receipts passing both filters, each as often as it occurs, each enriched, and totals their totals. |
| Recibos.ProcessGroups | src/components/Dashboard/ListarRecibosCaja.jsx:102-153 | A non-array list shows no groups; a throwing group aborts; otherwise the shown groups are, in order, exactly the input groups with at least one matching receipt, each as often as it occurs. |
| Recibos.ShownReceiptsMatch | src/components/Dashboard/ListarRecibosCaja.jsx:102-153 | Every receipt shown passes both filters, belongs to its group, and the group total sums the shown receipts. |
| Recibos.NoFilterKeepsAll | src/components/Dashboard/ListarRecibosCaja.jsx:107-126 | Without filters a group shows all of its receipts, in order. |
| Recibos.Open | src/components/Dashboard/ListarRecibosCaja.jsx:27-37 | Opening the modal clears the list, error, year, both filters and both expanded sets. |
| Recibos.Payload | src/components/Dashboard/ListarRecibosCaja.jsx:43-47 | The request carries `pide_cnt` exactly when the row has an exact-case `ide_cnt`, with its value, likewise `ide_bde`, and always `pano_eje`: the year as text, or `null` when none is chosen; nothing else. |
| Recibos.StartFetch | src/components/Dashboard/ListarRecibosCaja.jsx:39-41 | A fetch starts loading and clears the error, keeping the list. |
| Recibos.FinishFetch | src/components/Dashboard/ListarRecibosCaja.jsx:51-79 | Success stores the unwrapped result; failure keeps the list and shows the error or the default text; loading always ends. |
| Recibos.RowKey | src/components/Dashboard/ListarRecibosCaja.jsx:323 | A row's key is its truthy id, else a prefix and the row index. |
| Recibos.ToggleGroup | src/components/Dashboard/ListarRecibosCaja.jsx:156-161 | Expanding a group flips only that group and leaves receipts and the list alone. |
| Recibos.ToggleReceipt | src/components/Dashboard/ListarRecibosCaja.jsx:163-169 | Expanding a receipt flips only that receipt and leaves groups and the list alone. |
| Recibos.FormatDate | src/components/Dashboard/ListarRecibosCaja.jsx:175-182 | A falsy date shows ''; an ISO `YYYY-MM-DD` date shows `DD/MM/YYYY`; anything else goes to the locale formatter. |
| Recibos.DateParts | src/components/Dashboard/ListarRecibosCaja.jsx:175-182 | An ISO date splits at '-' into year, month and day. |
| Recibos.FormatDateRoundTrip | src/components/Dashboard/ListarRecibosCaja.jsx:175-182 | Splitting a formatted ISO date at '/' gives back day, month and year. |
| Users.GroupKey | src/components/Admin/UserManagement.jsx:131-141 | A user's group key is `String(ide_not_sol_ser)` ("undefined" when missing); reading it from `null` throws. |
| Users.GroupName | src/components/Admin/UserManagement.jsx:131-141 | A group's display name is always truthy (fallback text). |
| Users.Members | src/components/Admin/UserManagement.jsx:131-141 | The members of a key are exactly the users with that key, in order. |
| Users.GroupUsers | src/components/Admin/UserManagement.jsx:131-141 | Grouping throws exactly when a user is `null`. |
| Users.GroupUsersSpec | src/components/Admin/UserManagement.jsx:131-141 | A key has a group exactly when some user has it; the group lists those users in order and is named after the first. |
| Users.GroupsPartitionUsers | src/components/Admin/UserManagement.jsx:131-141 | The groups' sizes add up to the number of users: every user is in exactly one group. |
| Users.SizeSumCountsEveryone | src/components/Admin/UserManagement.jsx:131-141 | Counting members over a duplicate-free list of keys covering every user counts every user once. |
| Users.FetchUsers | src/components/Admin/UserManagement.jsx:26-48 | Success stores the body; when its `length` is positive only the group of `data[0]` is expanded. A `null` body, or an `undefined` or `null` first element, throws after the store and shows the connection error. A failure or exception keeps the users and sets the server message or the connection error. |
| Users.FirstGroupIsShown | src/components/Admin/UserManagement.jsx:37-39 | After loading, exactly the first user's group is expanded. |
| Users.ToggleGroup | src/components/Admin/UserManagement.jsx:123-128 | Toggling a group flips only that group's expansion. |
| Users.ToggleGroupTwice | src/components/Admin/UserManagement.jsx:123-128 | Toggling a group twice restores every group's expansion. |
| Users.NewStatus | src/components/Admin/UserManagement.jsx:51 | The new status is 0 exactly when the current one is strictly `1`, and 1 otherwise. |
| Users.NewStatusInvolutive | src/components/Admin/UserManagement.jsx:51 | Applying the status switch twice to 0 or 1 gives the original status. |
| Users.ToggleStatus | src/components/Admin/UserManagement.jsx:50-69 | Success changes the status of exactly the users with the given id; a failure reply keeps the users and shows the update error; an exception, or an OK reply whose `users.map` throws (non-array list or a `null` user), keeps the users and shows the connection error. |
| Users.ToggleAllOrNothing | src/components/Admin/UserManagement.jsx:50-69 | A toggle either applies to the whole list with the error left alone, or keeps every user and shows one of the two error messages. |
| Users.ToggleKeepsAdmins | src/components/Admin/UserManagement.jsx:282 | Switching a status never changes which users' switches are disabled (administrators). |
| ResultsGrid.Normalize | src/components/Dashboard/ResultsGrid_cnt_en_municipalidades.jsx:13-25 | An array is used as is; an object's `result` array is used; any other object with at least one field becomes a one-row list; anything else gives no rows. |
| ResultsGrid.NormalizeEmpty | src/components/Dashboard/ResultsGrid_cnt_en_municipalidades.jsx:13-25 | `null` and `{}` give no rows. |
| ResultsGrid.NameMatches | src/components/Dashboard/ResultsGrid_cnt_en_municipalidades.jsx:35-49 | The name test throws exactly on a truthy non-string `nom_eje`; it passes exactly when the name contains the filter, ignoring case. |
| ResultsGrid.FilterRows | src/components/Dashboard/ResultsGrid_cnt_en_municipalidades.jsx:35-49 | An empty filter keeps all rows; otherwise exactly the rows whose name contains the filter are kept, in order and each as often as it occurs; a throwing test leaves no rows. |
| ResultsGrid.FilterRowsIdempotent | src/components/Dashboard/ResultsGrid_cnt_en_municipalidades.jsx:35-49 | Applying the name filter to its own output changes nothing. |
| ResultsGrid.MissingOrNonNumericDebtIsZero | src/components/Dashboard/ResultsGrid_cnt_en_municipalidades.jsx:75-78 | A missing or non-numeric debt adds 0 to the total. |
| ResultsGrid.TotalDebt | src/components/Dashboard/ResultsGrid_cnt_en_municipalidades.jsx:75-78 | The total debt is the sum over the shown rows of each row's debt. |
| ResultsGrid.TotalDebtAppend | src/components/Dashboard/ResultsGrid_cnt_en_municipalidades.jsx:75-78 | The total over two blocks of rows is the sum of the blocks' totals. |
| ResultsGrid.Render | src/components/Dashboard/ResultsGrid_cnt_en_municipalidades.jsx:55-78 | The empty state shows exactly when the normalised rows are empty; otherwise the table shows the filtered rows and their total. |
| ResultsGrid.CurrencyText | src/components/Dashboard/ResultsGrid_cnt_en_municipalidades.jsx:68-72 | A non-numeric amount shows "S/ 0.00"; a number goes to the locale formatter. |
| Ddjj.IsSiam | src/components/Dashboard/ListarDDJJ.jsx:45-49 | The SIAM test throws on a truthy non-string `dbName`; it holds exactly when the lower-cased name contains "siam". |
| Ddjj.BuildPayload | src/components/Dashboard/ListarDDJJ.jsx:45-58 | The payload keeps every field of the connection, `ide_cnt` included, adds `pide_cnt` as a copy of `ide_cnt` (absent when that is), sets `ide_bde` to `null` for a SIAM database, and keeps it otherwise. |
| Ddjj.Remove | src/components/Dashboard/ListarDDJJ.jsx:54-58 | An `undefined` `pide_cnt` or `ide_bde` is left out of the serialised payload; dropping a field removes only that field. |
| Ddjj.BdeOverrideIffSiam | src/components/Dashboard/ListarDDJJ.jsx:45-58 | A non-null `ide_bde` is replaced by `null` exactly when the database is SIAM. |
| Ddjj.FilterByYear | src/components/Dashboard/ListarDDJJ.jsx:64-71 | An inactive filter keeps the result; an active one throws on a non-array result and otherwise keeps, in order and each as often as it occurs, exactly the rows whose year matches. |
| Ddjj.PaddedYearMatchesNothing | src/components/Dashboard/ListarDDJJ.jsx:64-71 | A year filter with surrounding spaces is active but matches no row, because the comparison uses the untrimmed text. |
| Ddjj.Amounts | src/components/Dashboard/ListarDDJJ.jsx:111-118 | A row whose field is missing or falsy contributes 0; any other value is parsed as it stands. |
| Ddjj.SumTotals | src/components/Dashboard/ListarDDJJ.jsx:111-118 | The three totals are the `NaN`-propagating sums of the rows' `val_tot`, `imp_pag` and `imp_sld`. |
| Ddjj.Fold | src/components/Dashboard/ListarDDJJ.jsx:111-118 | The `reduce` accumulator after any prefix of rows holds that prefix's three `NaN`-propagating column sums. |
| Ddjj.ColumnSpec | src/components/Dashboard/ListarDDJJ.jsx:111-118 | Any column total is `NaN` exactly when some row's amount is, otherwise the exact sum; a row without the field adds 0. |
| Ddjj.TotalsSpec | src/components/Dashboard/ListarDDJJ.jsx:111-118 | A total is `NaN` exactly when some row's amount is, otherwise the exact sum; a missing amount counts as 0. |
| Ddjj.AnnulledIsLooseOne | src/components/Dashboard/ListarDDJJ.jsx:259-260 | The annulled test is exactly loose equality with 1. |
| Ddjj.AnnulledCoercions | src/components/Dashboard/ListarDDJJ.jsx:259-260 | The loose test also marks `[1]` as annulled, never `false`, and every annulled flag is truthy. |
| Ddjj.AnnulledForms | src/components/Dashboard/ListarDDJJ.jsx:259-260 | `true` and `1` mark a declaration annulled. |
| Ddjj.ZeroNotAnnulled | src/components/Dashboard/ListarDDJJ.jsx:259-260 | `0` does not mark a declaration annulled. |
| Ddjj.EmptyNotAnnulled | src/components/Dashboard/ListarDDJJ.jsx:259-260 | `''` and `null` do not mark a declaration annulled. |
| Ddjj.Fetch | src/components/Dashboard/ListarDDJJ.jsx:41-80 | A payload that cannot be built, a failing call, or an active year filter meeting a non-array result (whose `filter` throws) keeps the list and shows the error or the default text; otherwise the year-filtered result is stored; loading always ends. |
| Ddjj.Open | src/components/Dashboard/ListarDDJJ.jsx:25-32 | Opening clears the year and loads; a failing load leaves an empty list. |
| Vehicular.DashAmountIsZero | src/components/Dashboard/ListarImpuestoVehicular.jsx:50-64 | A '-' placeholder contributes 0 to the totals. |
| Vehicular.Amount | src/components/Dashboard/ListarImpuestoVehicular.jsx:53-56 | `parseFloat` with 0 as the fallback: a value that does not parse counts 0, and any non-zero amount is exactly the parsed value. |
| Vehicular.SumTotals | src/components/Dashboard/ListarImpuestoVehicular.jsx:50-64 | The four totals are the column sums of `imp_imp`, `imp_deu`, `imp_pag` and `imp_sld`; a non-array list totals 0. |
| Vehicular.Fold | src/components/Dashboard/ListarImpuestoVehicular.jsx:50-64 | The `reduce` accumulator after any prefix of rows holds that prefix's four column sums. |
| Vehicular.ColumnSumAppend | src/components/Dashboard/ListarImpuestoVehicular.jsx:50-64 | A column sum over two blocks is the sum of the blocks' column sums. |
| Vehicular.CurrencyText | src/components/Dashboard/ListarImpuestoVehicular.jsx:23-28 | A missing, `null`, '-' or non-numeric amount shows "S/ 0.00"; a number goes to the locale formatter. |
| Vehicular.NonNumericPlaceholders | src/components/Dashboard/ListarImpuestoVehicular.jsx:23-28 | '-' and `null` do not parse as numbers. |
| Vehicular.Payload | src/components/Dashboard/ListarImpuestoVehicular.jsx:75-80 | The object built for the request holds exactly `pide_cnt` (from `ide_cnt`) and `ide_bde`. |
| Vehicular.Fetch | src/components/Dashboard/ListarImpuestoVehicular.jsx:71-96 | Success stores the result when it is an array and `[]` otherwise. A failure keeps the list and shows an error, and so does a result whose logging throws: a `null` result, or one with a positive `length` whose `result[0]` is `undefined` or `null`. Loading always ends. |
| Vehicular.FetchStoresArray | src/components/Dashboard/ListarImpuestoVehicular.jsx:89 | The stored list stays an array. |
| Vehicular.Open | src/components/Dashboard/ListarImpuestoVehicular.jsx:98-104 | Opening resets the list and loads; the list is always an array and is empty after a failed load. |
| Consulta.ConnectionField | src/components/Dashboard/ConsultaModal_x_cnt.jsx:44-47 | A field of the connection data is the entity's case-insensitive value, with '-' turned into `null`. |
| Consulta.ConnectionData | src/components/Dashboard/ConsultaModal_x_cnt.jsx:44-47 | The connection data holds exactly `ide_cnt` and `ide_bde`. |
| Consulta.DashIsNull | src/components/Dashboard/ConsultaModal_x_cnt.jsx:44-47 | A missing field or a literal '-' both reach the child modals as `null`. |
| Consulta.ConnectionNeverSiam | src/components/Dashboard/ConsultaModal_x_cnt.jsx:44-47 | The DDJJ payload built from the connection data never applies the SIAM override, because it carries no `dbName`. |
| Consulta.Debt | src/components/Dashboard/ConsultaModal_x_cnt.jsx:49-50 | The entity's debt is `parseFloat` of its case-insensitive `imp_deu`, and 0 when the field is missing. |
| Consulta.MissingDebtIsZero | src/components/Dashboard/ConsultaModal_x_cnt.jsx:49-50 | An entity without an `imp_deu` field has debt 0. |
| Consulta.Reset | src/components/Dashboard/ConsultaModal_x_cnt.jsx:21-30 | Opening closes every child modal and resets the year to the current one; closing changes nothing. |
| Consulta.Press | src/components/Dashboard/ConsultaModal_x_cnt.jsx:150-183 | A button opens its child modal and leaves the others and the year alone. |
| Catastro.ApiQr | src/config.js:13-15 | The QR API base is the environment's non-empty value, else the default host. |
| Catastro.SignedNumberOne | src/components/Dashboard/ListarDocumentosCatastrales.jsx:162 | A document whose `flg_cer_fir` is the number 1 is signed. |
| Catastro.IsSignedIff | src/components/Dashboard/ListarDocumentosCatastrales.jsx:162 | A document is signed exactly when its `flg_cer_fir` is present and is the number 1 or the text '1'. |
| Catastro.SignedStringOne | src/components/Dashboard/ListarDocumentosCatastrales.jsx:162 | A document whose `flg_cer_fir` is the string '1' is signed. |
| Catastro.UnsignedForms | src/components/Dashboard/ListarDocumentosCatastrales.jsx:162 | `true`, '01' and a missing flag do not mark a document signed, although `true == 1`. |
| Catastro.SignedUrl | src/components/Dashboard/ListarDocumentosCatastrales.jsx:169 | The signed-document URL starts with the API base, contains the document's `url_q_r` and ends with the token. |
| Catastro.SignatureOf | src/components/Dashboard/ListarDocumentosCatastrales.jsx:172-192 | A successful extraction with a truthy signature yields `[signature]`; any failure yields `null`. |
| Catastro.Begin | src/components/Dashboard/ListarDocumentosCatastrales.jsx:151-158 | Starting a download marks the row in flight and clears the previous signature. |
| Catastro.Complete | src/components/Dashboard/ListarDocumentosCatastrales.jsx:160-240 | A finished download always clears the in-flight row; an abandoned one leaves the viewer alone; otherwise the viewer opens on the signed URL or on the converted document. |
| Catastro.Latest | src/components/Dashboard/ListarDocumentosCatastrales.jsx:182-187 | A found signature replaces the previous one; none keeps it. |
| Catastro.Click | src/components/Dashboard/ListarDocumentosCatastrales.jsx:149-241 | A click while a row downloads changes nothing; otherwise the download completes and the lock is released. |
| Catastro.OneRowInFlight | src/components/Dashboard/ListarDocumentosCatastrales.jsx:151 | While one row downloads, a click on any row keeps that row as the one in flight. |
| Catastro.ExtractionFailureStillOpens | src/components/Dashboard/ListarDocumentosCatastrales.jsx:172-192 | A failed signature extraction still opens the signed document, with no signature. |
| Catastro.NoStaleSignature | src/components/Dashboard/ListarDocumentosCatastrales.jsx:158 | After a click the signature shown is exactly the one extracted by this click. |
| Catastro.UnsignedOpensIffConverted | src/components/Dashboard/ListarDocumentosCatastrales.jsx:198-234 | An unsigned document opens exactly when it has a `doc_sin_fir` and conversion returns a URL. |
| Catastro.DatePart | src/components/Dashboard/ListarDocumentosCatastrales.jsx:119-130 | A missing date part reads "undefined"; a present one is cut to four UTF-16 units. |
| Catastro.FormatDocDate | src/components/Dashboard/ListarDocumentosCatastrales.jsx:119-130 | A falsy date shows '-'; a date with 'T' goes to the locale formatter; otherwise its '-' parts are shown as `DD/MM/YYYY`; a truthy non-string throws. |
| Catastro.IsoDateAgreesWithReceipts | src/components/Dashboard/ListarDocumentosCatastrales.jsx:119-130 | On an ISO date the document date format agrees with the receipts' one. |
| Catastro.NoDashesLeaveUndefined | src/components/Dashboard/ListarDocumentosCatastrales.jsx:119-130 | A date text without '-' shows "undefined/undefined/" before its first four UTF-16 units. |
| Report.SetDefined | src/services/reportService.js:18 | Spreading defined options over defaults sets exactly the given key when it is defined. |
| Report.Params | src/services/reportService.js:25-29 | The report parameters hold exactly `arr_ide_dec`, `cod_pro` (default "SIAM_DEC_CAB") and `ide_eje`. |
| Report.ParamsKeyOrder | src/services/reportService.js:25-29 | The parameters serialise in the order `arr_ide_dec`, `cod_pro`, `ide_eje`. |
| Report.ReportUrl | src/services/reportService.js:37 | The URL starts with the reports endpoint and the serialised parameters, carries the token, and ends with `ide_bde`. |
| Report.QueryParts | src/services/reportService.js:37 | Splitting the URL at '&' gives exactly the data, token and `ide_bde` parts. |
| Report.DdjjRequest | src/services/ddjjService.js:60-70 | A declaration's report asks for its `ide_dec` and `ide_eje` under process "SIAM_DEC_CAB". |
| Report.AlcabalaRequest | src/services/alcabalaService.js:43-51 | An alcabala report asks for its `ide_alc` and `ano_eje` under process "SIAM_ALC_CAB". |
| Report.DdjjReportUrl | src/services/ddjjService.js:60-70 | The declaration URL carries that request's parameters, the token and the `ide_bde`. |
| Report.AlcabalaReportUrl | src/services/alcabalaService.js:43-51 | The alcabala URL carries that request's parameters, the token and the `ide_bde`. |
| Report.AlcabalaIgnoresDeclarationKeys | src/services/alcabalaService.js:43-44 | A row with only declaration keys yields `null` identifiers for an alcabala report. |
| Report.ListErrorMessage | src/services/ddjjService.js:17-23 | A failed list call reports the server's truthy `message`, else the default text. |
| Report.ListErrorUsesServerText | src/services/alcabalaService.js:16-22 | A non-empty server message is what the list error shows. |
| Search.FailureMessage | src/services/searchService.js:18-33 | 401 and 403 mean an expired session; otherwise the server's message, else the status text, else the default. |
| Search.SearchByDocument | src/services/searchService.js:3-41 | A successful reply yields its body; a failure yields the failure message; an exception propagates its message. |
| Search.AuthFailureIgnoresBody | src/services/searchService.js:28-30 | On 401 or 403 the message does not depend on the body or the status text. |
| Search.FailureMessageNonEmptyForText | src/services/searchService.js:18-33 | Whenever the message is not taken from a non-string server value, it is non-empty. |
| Search.Update | src/components/Dashboard/SearchForm_x_dni_ruc.jsx:42-44 | Editing a field sets that field and leaves the others. |
| Search.HandleChange | src/components/Dashboard/SearchForm_x_dni_ruc.jsx:29-46 | Every edit hides the results and clears the error; the document number changes only to empty text or at most 11 digits (or backspaces). |
| Search.AcceptsDocumentForms | src/components/Dashboard/SearchForm_x_dni_ruc.jsx:36-38 | The document test accepts '' and eleven digits, refuses twelve digits or a letter, and still accepts any prefix of an accepted value. |
| Search.HandleChangeKeepsDocumentValid | src/components/Dashboard/SearchForm_x_dni_ruc.jsx:35-41 | Edits keep the document number acceptable. |
| Search.HandleTypeChange | src/components/Dashboard/SearchForm_x_dni_ruc.jsx:17-27 | Changing the search type blanks the form, the error and the results. |
| Search.HandleSubmit | src/components/Dashboard/SearchForm_x_dni_ruc.jsx:48-91 | A request is made exactly for a document search with at least 8 characters; otherwise the form shows the short-document or name-search notice. |
| Search.SubmitOutcomes | src/components/Dashboard/SearchForm_x_dni_ruc.jsx:58-81 | Results are shown; an empty array shows the no-information notice; a failure shows an error and empty results. |
| Search.ShortDocumentNeverAsks | src/components/Dashboard/SearchForm_x_dni_ruc.jsx:53-56 | A short document number never reaches the service. |
| Search.ExpiredSessionShownInForm | src/components/Dashboard/SearchForm_x_dni_ruc.jsx:78-81 | A 401 reply ends in the form showing the expired-session message. |
| Passwords.Check | src/components/Profile/ChangePassword.jsx:29-37 | A mismatch is reported first; then a password under 6 UTF-16 units; the check passes exactly when both hold. |
| Passwords.MismatchReportedFirst | src/components/Login/ResetPasswordForm.jsx:22-30 | A short mismatched password reports the mismatch. |
| Passwords.Put | src/components/Profile/ChangePassword.jsx:18-24 | Editing one password field leaves the others. |
| Passwords.EditChange | src/components/Profile/ChangePassword.jsx:18-24 | An edit sets the field and clears the error, leaving success and loading. |
| Passwords.Patch | src/components/Profile/ChangePassword.jsx:66-71 | The stored user gets `flg_cam_psw` 1 and the change time; every other property is kept. |
| Passwords.SubmitChange | src/components/Profile/ChangePassword.jsx:26-82 | A request is made exactly when the check passes and the user is known; success patches the stored user, failure keeps the store and shows the error. |
| Passwords.RefusedChangeKeepsStore | src/components/Profile/ChangePassword.jsx:29-37 | A refused change does not depend on the server and writes nothing. |
| Passwords.EditReset | src/components/Login/ResetPasswordForm.jsx:14-17 | A reset-form edit sets the field and clears the error. |
| Passwords.SubmitReset | src/components/Login/ResetPasswordForm.jsx:19-47 | A request is made exactly when the check passes; success shows the server's message and keeps the error; a failure shows its message or, when that is empty, the default reset error, and a `null` reply shows the engine's message or that default; the success notice is unchanged on failure. |
| Passwords.ResetFailureShowsError | src/components/Login/ResetPasswordForm.jsx:43-44 | Whatever the form held before, a submitted reset that fails ends with a non-empty error. |
| Passwords.SuccessKeepsResetDisabled | src/components/Login/ResetPasswordForm.jsx:116 | Once a reset succeeded, the submit button stays disabled through later edits. |
| Passwords.ResetFailureFallback | src/components/Login/ResetPasswordForm.jsx:43-44 | An exception without a message shows the default reset error. |
| Passwords.CeilDiv | src/components/Dashboard/PasswordAlert.jsx:14-22 | `Math.ceil(a / d)` is the least multiple count covering `a`. |
| Passwords.AgeExceedsIff | src/components/Dashboard/PasswordAlert.jsx:14-22 | The age in days exceeds 60 exactly when the time difference exceeds 60 days of milliseconds. |
| Passwords.LastChangeAge | src/components/Dashboard/PasswordAlert.jsx:14-22 | The age is known exactly when the change date is truthy and parses. |
| Passwords.AlertFor | src/components/Dashboard/PasswordAlert.jsx:8-24 | No user, no alert; a first-change flag gives the first-change alert; otherwise a periodic alert appears exactly when the last change is over 60 days old. |
| Passwords.TextZeroIsNotFirstChange | src/components/Dashboard/PasswordAlert.jsx:10 | A flag of '0' (text) does not ask for a first change. |
| Passwords.MissingFlagIsNotFirstChange | src/components/Dashboard/PasswordAlert.jsx:10 | A missing flag does not ask for a first change. |
| Passwords.NumberZeroIsFirstChange | src/components/Dashboard/PasswordAlert.jsx:10 | A flag of the number 0 asks for a first change. |
| Passwords.AgeIsSymmetric | src/components/Dashboard/PasswordAlert.jsx:14-22 | The age uses the absolute difference of the two times. |
| Passwords.NoAlertAfterChange | src/components/Dashboard/PasswordAlert.jsx:8-24 | A user just patched by a password change gets no alert. |
| Session.EditLogin | src/components/Login/LoginForm.jsx:15-19 | An edit changes only the named field and clears the error. |
| Session.Cancel | src/components/Login/LoginForm.jsx:66-70 | Cancelling blanks both fields, the error and the success notice. |
| Session.StoredUser | src/components/Login/LoginForm.jsx:33 | A missing user is stored as the text "undefined". |
| Session.HandleLogin | src/components/Login/LoginForm.jsx:25-47 | A failure shows its message and writes nothing; success stores user and token and navigates to "/dashboard" when the user is readable. |
| Session.ReplyWithoutUserStillWrites | src/components/Login/LoginForm.jsx:33-41 | A reply without a user stores "undefined", shows an error and does not navigate. |
| Session.LoginOpensDashboard | src/components/Login/LoginForm.jsx:33-41 | A login navigates exactly when the reply carries a non-`null` user; a non-empty stored user then opens the dashboard route. |
| Session.HandleRecovery | src/components/Login/LoginForm.jsx:49-64 | An empty email asks for one and sends nothing. Otherwise an OK reply shows its `message` as the success notice and clears the error; a `null` reply shows the engine's error and a failure shows its own message, both leaving the success notice as it was. |
| Session.GuardIgnoresToken | src/components/Layout/ProtectedRoute.jsx:7-13 | The guard looks only at the stored user, never at the token. |
| Session.GuardAcceptsAnyText | src/components/Layout/ProtectedRoute.jsx:7-11 | Any non-empty stored user text passes the guard, "undefined" and "null" included; a missing or empty one does not. |
| Session.Route | src/App.jsx:16-37 | "/" shows the login page; `/reset-password/:token` shows the reset page with that token; a guarded page shows only when the guard passes, otherwise it redirects to "/"; every other path redirects to "/". |
| Session.PublicRoutes | src/App.jsx:16-25 | Login and password-reset pages show without a session. |
| Session.AdminNeedsOnlySession | src/App.jsx:32 | The user administration page shows to any signed-in user. |
| Session.NoSessionRedirects | src/App.jsx:28-37 | Without a session every guarded page redirects to "/". |
| Session.LayoutUser | src/components/Layout/MainLayout.jsx:8 | The layout parses the stored user, or "{}" when nothing usable is stored. |
| Session.DisplayName | src/components/Layout/MainLayout.jsx:70 | The shown name is the truthy `nom_com`, else "Usuario". |
| Session.Initial | src/components/Layout/MainLayout.jsx:90 | The avatar letter is the upper-cased first letter of the name, "U" without a name; a truthy non-string name throws. |
| Session.Location | src/components/Layout/MainLayout.jsx:75 | The location shows "district, province" ("undefined" for a missing province), else "Sin ubicación". |
| Session.DistrictWithoutProvince | src/components/Layout/MainLayout.jsx:75 | A district without a province shows ", undefined". |
| Session.Address | src/components/Layout/MainLayout.jsx:73 | The address is the truthy `dir_not`, else the placeholder. |
| Session.AdminFlagIsStrict | src/components/Layout/MainLayout.jsx:115 | The admin link needs `flg_adm === 1`: the string '1' does not show it. |
| Session.AdminLinkIff | src/components/Layout/MainLayout.jsx:115 | The admin link shows exactly when `flg_adm` is present and is the number 1. |
| Session.Logout | src/components/Layout/MainLayout.jsx:12-16 | Logout removes exactly the user and token and navigates to "/". |
| Session.LogoutLocksGuardedPages | src/components/Layout/MainLayout.jsx:12-16 | After logout every guarded page redirects to "/". |
| Session.LoginThenLogout | src/components/Layout/MainLayout.jsx:12-16 | Logging out after a login on a store without a session restores the store. |
| Session.DashboardUser | src/components/Dashboard/Dashboard.jsx:8-14 | The dashboard reads the stored user, falling back to `{}` when it does not parse. |
| Session.UnreadableUserRaisesNoAlert | src/components/Dashboard/Dashboard.jsx:8-23 | An unreadable stored user raises no password alert. |
| Session.SearchEditsHideResults | src/components/Dashboard/Dashboard.jsx:15-32 | Any search-form edit hides the results; an empty result array is still shown. |
| PdfViewer.SigInfo | src/components/Dashboard/PdfViewerModal.jsx:21-24 | The signature described is the first element of a non-empty array, else none. |
| PdfViewer.OnOpen | src/components/Dashboard/PdfViewerModal.jsx:9-14 | Opening with a URL shows the spinner and hides the panel; otherwise nothing changes. |
| PdfViewer.OnLoad | src/components/Dashboard/PdfViewerModal.jsx:16-18 | Loading hides the spinner and keeps the panel. |
| PdfViewer.ToggleSigInfo | src/components/Dashboard/PdfViewerModal.jsx:54-56 | The panel toggles only when there is a signature. |
| PdfViewer.ToggleTwice | src/components/Dashboard/PdfViewerModal.jsx:54-56 | Toggling the panel twice restores the state. |
| PdfViewer.FirstTruthy | src/components/Dashboard/PdfViewerModal.jsx:157-173 | A panel field is the first truthy candidate property, else the placeholder. |
| PdfViewer.PanelOf | src/components/Dashboard/PdfViewerModal.jsx:149-173 | Every panel field shows something; a signer without names shows "No especificado". |
| PdfViewer.Render | src/components/Dashboard/PdfViewerModal.jsx:26-149 | Nothing renders while closed; badge and toggle appear exactly with a signature; the panel exactly when toggled on with one; the title is never empty. |
| PdfViewer.ReopenHidesPanel | src/components/Dashboard/PdfViewerModal.jsx:9-14 | Reopening with a URL hides the panel and shows the spinner. |
| PdfViewer.ExtractedSignatureIsDescribed | src/components/Dashboard/PdfViewerModal.jsx:21-24 | The viewer describes the signature a cadastral extraction found. |
| PdfViewer.FailedExtractionHasNoSignature | src/components/Dashboard/PdfViewerModal.jsx:21-24 | A failed extraction leaves the viewer without a signature. |
| PdfViewer.SignerFallsThrough | src/components/Dashboard/PdfViewerModal.jsx:157 | An empty `Nombre_2` falls through to `Nom_fir`. |

## Notes on the code

Where the code does something a reader of its documentation might not expect,
the model follows the code:

- The vehicle-tax `getValue` stops at the first case-insensitive match (`Lookup.GetOrDashStopsAtFirstMatch`).
- A `null` vehicle-tax result makes the logging step throw; the list is kept and an error is shown.
- The DDJJ year filter compares the untrimmed filter text, so " 2024" matches nothing (`Ddjj.PaddedYearMatchesNothing`).
- The DDJJ annulled test's extra `=== '1'` check adds nothing to `== 1` (`Ddjj.AnnulledIsLooseOne`).
- The per-entity modal's connection data carries no `dbName`, so the DDJJ SIAM override never applies to it (`Consulta.ConnectionNeverSiam`).
- The results-grid filter throws, leaving no rows, when one row's name is a truthy non-string.
- The search form's document regex also accepts a backspace character.
- All cadastral print buttons are disabled while any row downloads.
- In user management, `setUsers` runs before the first user's group key is read, so a `null` first user keeps the new list and shows the connection error.
- The same ordering holds for an OK body of `null`: it is stored, and reading its `length` then throws into the connection error (`Users.FetchUsers`).
- A successful password change does not clear an earlier error, and a change failure without a message shows an empty error.
- A login reply without a user stores "undefined", which the route guard then accepts (`Session.ReplyWithoutUserStillWrites`, `Session.GuardIgnoresToken`).
- The layout parses the stored user without a fallback, while the dashboard falls back to `{}` (`Session.DashboardUser`).

## Left out

- Network calls, JSON parsing, the clock, timers and locale formatting are parameters; their behaviour is not modelled.
- Rendering beyond the values the components compute (markup, styles, icons) is not modelled.
- `handleCreateUser` and `handleSearchDni` in user management are not part of this model.
- ListarAlcabala.jsx is not part of this model; only the alcabala report and list-error services are.
- The DDJJ and vehicle-tax modals' own date formatting is not modelled; the receipts' and the cadastral documents' are.
- Dashboard's `handleSearchResults` only stores its argument and has no row of its own.
- Numbers.ParseDecimal: exponents (`1e3`), `Infinity` and hexadecimal literals are not recognised, and amounts are exact reals rather than floating point.
- Numbers.ToNumber: shares the scanner of `Numbers.ParseDecimal`, so the hexadecimal, exponent and `Infinity` texts that `Number` accepts read as `NaN` here.
- Text.Lower: lower-casing and `UpperChar` cover Latin-1 only; other Unicode case mappings are not modelled.
- Session.Initial: `charAt(0)` is taken on characters, not UTF-16 units, so a name starting outside the Basic Multilingual Plane is not modelled faithfully.
- Session.Route: assumes the router matches paths case-insensitively and ignores trailing slashes; URL-decoding of the reset token is not modelled.
- Session.LayoutUser: a stored user of JSON `null` makes the real layout throw on property access; the model reads the properties of `null` as missing.
- Users.ToggleStatus: ids are taken to be scalars; an array or object id, which JavaScript would match against the very value read from `users`, matches nothing here.
- Users.FetchUsers: an object body's `length` field is compared with 0 through `Numbers.ToNumber`, so exponent and hexadecimal forms share that function's limits; the same holds for Vehicular.Fetch.
- Catastro.DatePart: a surrogate pair split by the four-unit cut loses its lone first half, as in Recibos.Shorten.
- Recibos.Shorten: when the 100th UTF-16 unit is the first half of a surrogate pair, JavaScript keeps that lone half; the model drops the whole character, since a lone surrogate is not a character here.
- Session.HandleLogin: the redirect delay is not modelled; navigation is immediate.
- Json.Keys: JavaScript lists integer-like keys first; the model keeps insertion order, which is what the objects built here use.
- Report.Params: `undefined` and `null` option values are not told apart where `PropOrNull` reads them.
- Concurrency (overlapping requests, unmounting during a request) is not modelled.

=== FILE: auth.dfy ===
/**
 * The authentication requests (`login`, `recoverPassword`, `resetPassword`) and
 * the inline password-change request share one shape: read the body as JSON,
 * then throw `new Error(data.message || <default>)` on a non-OK status.
 */
module Auth {
  import opened Wrappers
  import opened Json

  const LoginError: string := "Error al iniciar sesión"
  const RecoverError: string := "Error al solicitar recuperación"
  const ResetError: string := "Error al restablecer"
  const ChangeError: string := "Error al cambiar la contraseña"

  /** What `fetch` gave: it threw with a message, or a response whose body is `None` when it is not JSON. */
  datatype Reply = Threw(message: string) | Responded(ok: bool, body: Option<JValue>)

  /**
   * The messages of errors the JavaScript engine raises itself: parsing a body
   * that is not JSON, and reading a property of `null`.
   */
  datatype Engine = Engine(syntaxError: string, nullRead: string)

  /**
   * The request's result: the parsed body of an OK reply, unchanged; otherwise
   * the message of what it throws. On a non-OK reply that is the body's truthy
   * `message` as `new Error` converts it, else `default`.
   */
  function Call(r: Reply, default: string, engine: Engine): (res: Result<JValue>)
    ensures r.Threw? ==> res == Err(r.message)
    ensures r.Responded? && r.body.None? ==> res == Err(engine.syntaxError)
    ensures r.Responded? && r.body.Some? && r.ok ==> res == Ok(r.body.value)
    ensures r.Responded? && r.body.Some? && !r.ok && r.body.value == JNull ==> res == Err(engine.nullRead)
    ensures r.Responded? && r.body.Some? && !r.ok && r.body.value != JNull ==>
              res == Err(if Truthy(PropOrNull(r.body.value, "message")) then JsToString(PropOrNull(r.body.value, "message")) else default)
  {
    match r
    case Threw(m) => Err(m)
    case Responded(ok, body) =>
      if body.None? then Err(engine.syntaxError)
      else if ok then Ok(body.value)
      else if body.value == JNull then Err(engine.nullRead)
      else
        var msg := PropOrNull(body.value, "message");
        Err(if Truthy(msg) then JsToString(msg) else default)
  }

  /** A non-OK reply whose body has no usable message yields the request's own default. */
  lemma FailureFallsBackToDefault(ok: bool, body: JValue, default: string, engine: Engine)
    requires !ok && body != JNull && !Truthy(PropOrNull(body, "message"))
    ensures Call(Responded(ok, Some(body)), default, engine) == Err(default)
  {
  }

  /** The server's text message is passed through verbatim. */
  lemma FailureUsesServerText(text: string, default: string, engine: Engine)
    requires text != ""
    ensures Call(Responded(false, Some(JObj([("message", JStr(text))]))), default, engine) == Err(text)
  {
    PropOfLiteral([("message", JStr(text))], 0);
  }
}

=== FILE: catastro.dfy ===
/**
 * The cadastral-documents modal: which way a document is opened (signed PDF
 * from the QR server, or an unsigned ZIP converted by the back end), when the
 * attempt is abandoned, the single-download lock, and the date column.
 */
module Catastro {
  import opened Wrappers
  import opened Text
  import opened Numbers
  import opened Json
  import Recibos
  import opened Storage

  /** Default of the QR server's base URL when the environment does not set one. */
  const DefaultApiQr: string := "https://apis.siamsoft.gobiernodigitalperu.com"

  /** `import.meta.env.VITE_API_QR || <default>`. */
  function ApiQr(env: Option<string>): (base: string)
    ensures env.Some? && env.value != "" ==> base == env.value
    ensures env.None? || env.value == "" ==> base == DefaultApiQr
  {
    if env.Some? && env.value != "" then env.value else DefaultApiQr
  }

  /** `item.flg_cer_fir === 1 || item.flg_cer_fir === '1'`. */
  predicate IsSigned(item: JValue) {
    IsOne(PropOrNull(item, "flg_cer_fir")) || PropOrNull(item, "flg_cer_fir") == JStr("1")
  }

  /** A document is signed exactly when its `flg_cer_fir` is the number 1 or the text '1'. */
  lemma IsSignedIff(item: JValue)
    ensures IsSigned(item) <==>
              Prop(item, "flg_cer_fir").Some? &&
              ((Prop(item, "flg_cer_fir").value.JNum? && ToNumber(Prop(item, "flg_cer_fir").value.text) == Fin(1.0))
               || Prop(item, "flg_cer_fir").value == JStr("1"))
  {
    IsOneMeans(PropOrNull(item, "flg_cer_fir"));
  }

  /** The number 1 marks a signed document. */
  lemma SignedNumberOne()
    ensures IsSigned(JObj([("flg_cer_fir", Int(1))]))
  {
    PropOfLiteral([("flg_cer_fir", Int(1))], 0);
    assert IsOne(Int(1)) by {
      IsOneMeans(Int(1));
      IntRoundTrip(1);
    }
  }

  /** The string '1' marks a signed document. */
  lemma SignedStringOne()
    ensures IsSigned(JObj([("flg_cer_fir", JStr("1"))]))
  {
    PropOfLiteral([("flg_cer_fir", JStr("1"))], 0);
  }

  /** `true`, '01' and a missing flag do not mark a signed document, although `true == 1` loosely. */
  lemma UnsignedForms()
    ensures !IsSigned(JObj([("flg_cer_fir", JBool(true))])) && LooseEqOne(JBool(true))
    ensures !IsSigned(JObj([("flg_cer_fir", JStr("01"))]))
    ensures !IsSigned(JObj([]))
  {
    PropOfLiteral([("flg_cer_fir", JBool(true))], 0);
    PropOfLiteral([("flg_cer_fir", JStr("01"))], 0);
    assert JStr("01") != JStr("1") by { assert |"01"| != |"1"|; }
  }

  /** `${API_QR}${item.url_q_r}&token=${token}`, with no encoding. */
  function SignedUrl(apiQr: string, item: JValue, token: Option<string>): (u: string)
    ensures |u| >= |apiQr| && u[..|apiQr|] == apiQr
    ensures |u| >= |"&token=" + TokenText(token)| && u[|u| - |"&token=" + TokenText(token)|..] == "&token=" + TokenText(token)
    ensures Includes(u, JsToString(PropOrNull(item, "url_q_r")))
  {
    var q := JsToString(PropOrNull(item, "url_q_r"));
    IncludesInConcat(apiQr, q, "&token=" + TokenText(token));
    apiQr + q + ("&token=" + TokenText(token))
  }

  /** What the signature-extraction request gave: a thrown request, or a response. */
  datatype Extraction = ExtractThrew | ExtractReply(ok: bool, body: JValue)

  /** What the ZIP-to-PDF request gave: the object URL of the returned PDF, or a failure. */
  datatype Conversion = ConvertFailed | Converted(objectUrl: string)

  /**
   * The signature data handed to the viewer: `[data.signature]` when the reply is
   * OK and carries a truthy `signature`. A thrown request, a non-OK status and a
   * `null` body (whose property read throws and is caught) all leave it `null`.
   */
  function SignatureOf(e: Extraction): (sig: JValue)
    ensures sig == JNull || (e.ExtractReply? && e.ok && sig == JArr([PropOrNull(e.body, "signature")]))
    ensures e.ExtractReply? && e.ok && Truthy(PropOrNull(e.body, "signature")) ==> sig != JNull
  {
    if e.ExtractReply? && e.ok && e.body != JNull && Truthy(PropOrNull(e.body, "signature")) then
      JArr([PropOrNull(e.body, "signature")])
    else JNull
  }

  /** The modal's viewer state: the URL and visibility of the PDF viewer, the signature data, the row being fetched. */
  datatype Viewer = Viewer(pdfUrl: string, pdfOpen: bool, signature: JValue, downloading: Option<nat>)

  /**
   * The attempt is abandoned before the viewer opens: a `null` row (whose property
   * read throws into the outer `catch`), a signed row without `url_q_r`, an unsigned
   * row without `doc_sin_fir`, or a failed conversion.
   */
  predicate Abandons(item: JValue, conv: Conversion) {
    item == JNull
    || (IsSigned(item) && !Truthy(PropOrNull(item, "url_q_r")))
    || (!IsSigned(item) && (!Truthy(PropOrNull(item, "doc_sin_fir")) || conv.ConvertFailed?))
  }

  /** The synchronous start of `handlePrintRow`: lock the row and clear the previous signature data. */
  function Begin(v: Viewer, idx: nat): (w: Viewer)
    ensures w.downloading == Some(idx) && w.signature == JNull
    ensures w.pdfUrl == v.pdfUrl && w.pdfOpen == v.pdfOpen
  {
    v.(downloading := Some(idx), signature := JNull)
  }

  /**
   * The rest of `handlePrintRow` once the requests have answered. Every exit
   * releases the lock; an abandoned attempt leaves the viewer as it was.
   */
  function Complete(v: Viewer, item: JValue, apiQr: string, token: Option<string>, ext: Extraction, conv: Conversion): (w: Viewer)
    ensures w.downloading.None?
    ensures Abandons(item, conv) ==> w.pdfUrl == v.pdfUrl && w.pdfOpen == v.pdfOpen && w.signature == v.signature
    ensures !Abandons(item, conv) && IsSigned(item) ==>
              w.pdfOpen && w.pdfUrl == SignedUrl(apiQr, item, token) && w.signature == Latest(v.signature, SignatureOf(ext))
    ensures !Abandons(item, conv) && !IsSigned(item) ==>
              w.pdfOpen && w.pdfUrl == conv.objectUrl && w.signature == v.signature
  {
    if Abandons(item, conv) then v.(downloading := None)
    else if IsSigned(item) then
      Viewer(SignedUrl(apiQr, item, token), true, Latest(v.signature, SignatureOf(ext)), None)
    else Viewer(conv.objectUrl, true, v.signature, None)
  }

  /** The signature slot after an extraction: the new data when there is some, else what was there. */
  function Latest(before: JValue, found: JValue): (r: JValue)
    ensures found != JNull ==> r == found
    ensures found == JNull ==> r == before
  {
    if found != JNull then found else before
  }

  /**
   * A click on a row's button. Every row's button is disabled while any row is
   * being fetched, so a click then does nothing.
   */
  function Click(v: Viewer, item: JValue, idx: nat, apiQr: string, token: Option<string>, ext: Extraction, conv: Conversion): (w: Viewer)
    ensures v.downloading.Some? ==> w == v
    ensures v.downloading.None? ==> w.downloading.None?
  {
    if v.downloading.Some? then v
    else Complete(Begin(v, idx), item, apiQr, token, ext, conv)
  }

  /** While one row is being fetched no other click starts a second fetch: at most one row is in flight. */
  lemma OneRowInFlight(v: Viewer, idx: nat, item: JValue, idx': nat, apiQr: string, token: Option<string>, ext: Extraction, conv: Conversion)
    ensures Click(Begin(v, idx), item, idx', apiQr, token, ext, conv).downloading == Some(idx)
  {
  }

  /** A signed row with a QR link always opens the viewer, whatever the extraction request does. */
  lemma ExtractionFailureStillOpens(v: Viewer, item: JValue, idx: nat, apiQr: string, token: Option<string>, conv: Conversion)
    requires v.downloading.None?
    requires item != JNull && IsSigned(item) && Truthy(PropOrNull(item, "url_q_r"))
    ensures Click(v, item, idx, apiQr, token, ExtractThrew, conv).pdfOpen
    ensures Click(v, item, idx, apiQr, token, ExtractThrew, conv).pdfUrl == SignedUrl(apiQr, item, token)
    ensures Click(v, item, idx, apiQr, token, ExtractThrew, conv).signature == JNull
  {
  }

  /** Signature data from an earlier document is never shown with a later one. */
  lemma NoStaleSignature(v: Viewer, item: JValue, idx: nat, apiQr: string, token: Option<string>, ext: Extraction, conv: Conversion)
    requires v.downloading.None?
    ensures Click(v, item, idx, apiQr, token, ext, conv).signature == SignatureOf(ext)
         || Click(v, item, idx, apiQr, token, ext, conv).signature == JNull
  {
  }

  /** An unsigned row opens the viewer exactly when it has a file and the conversion succeeds. */
  lemma UnsignedOpensIffConverted(v: Viewer, item: JValue, idx: nat, apiQr: string, token: Option<string>, ext: Extraction, conv: Conversion)
    requires v.downloading.None? && item != JNull && !IsSigned(item)
    ensures Click(v, item, idx, apiQr, token, ext, conv).pdfOpen && !v.pdfOpen
            <==> !v.pdfOpen && Truthy(PropOrNull(item, "doc_sin_fir")) && conv.Converted?
  {
  }

  // ---------------------------------------------------------------------------
  // Date column
  // ---------------------------------------------------------------------------

  /**
   * `part` `i` of the destructured split, cut by `slice(0, 4)` to four UTF-16
   * code units; a missing part prints as 'undefined'.
   */
  function DatePart(parts: seq<string>, i: nat): (p: string)
    ensures i < |parts| ==> p == Utf16Take(parts[i], 4)
    ensures i >= |parts| ==> p == "undefined"
  {
    if i < |parts| then Utf16Take(parts[i], 4) else "undefined"
  }

  /**
   * `formatDate` of the cadastral table: '-' for a falsy value; a string holding
   * a 'T' goes to the locale formatter; any other string is split on '-' into
   * year, month and day (each cut to four characters) and printed `day/month/year`.
   * A truthy non-string throws while rendering (`None`), except an array that
   * holds the element 'T', which `includes` accepts.
   */
  function FormatDocDate(v: JValue, localeDate: JValue -> string): (r: Option<string>)
    ensures !Truthy(v) ==> r == Some("-")
    ensures Truthy(v) && v.JStr? && 'T' in v.s ==> r == Some(localeDate(v))
    ensures Truthy(v) && v.JStr? && 'T' !in v.s ==>
              r == Some(DatePart(Split(v.s, '-'), 2) + "/" + DatePart(Split(v.s, '-'), 1) + "/" + DatePart(Split(v.s, '-'), 0))
    ensures r.None? <==> Truthy(v) && !v.JStr? && !(v.JArr? && JStr("T") in v.items)
  {
    if !Truthy(v) then Some("-")
    else if v.JStr? then
      if 'T' in v.s then Some(localeDate(v))
      else
        var parts := Split(v.s, '-');
        Some(DatePart(parts, 2) + "/" + DatePart(parts, 1) + "/" + DatePart(parts, 0))
    else if v.JArr? && JStr("T") in v.items then Some(localeDate(v))
    else None
  }

  /** The three date parts of a `YYYY-MM-DD` string survive the four-unit cut whole. */
  lemma IsoDateParts(s: string)
    requires Recibos.IsIsoDate(s)
    ensures DatePart(Split(s, '-'), 0) == s[..4]
    ensures DatePart(Split(s, '-'), 1) == s[5..7]
    ensures DatePart(Split(s, '-'), 2) == s[8..]
  {
    Recibos.DateParts(s);
    DigitsFitUtf16(s[..4], 4);
    DigitsFitUtf16(s[5..7], 4);
    DigitsFitUtf16(s[8..], 4);
  }

  /** A `YYYY-MM-DD` string holds no 'T'. */
  lemma IsoDateHasNoT(s: string)
    requires Recibos.IsIsoDate(s)
    ensures 'T' !in s
  {
    assert forall i :: 0 <= i < 10 ==> s[i] == '-' || IsDigit(s[i]) by {
      assert forall i :: 0 <= i < 4 ==> s[i] == s[..4][i];
      assert forall i :: 5 <= i < 7 ==> s[i] == s[5..7][i - 5];
      assert forall i :: 8 <= i < 10 ==> s[i] == s[8..][i - 8];
    }
  }

  /** On a `YYYY-MM-DD` string the cadastral and the receipts date columns print the same. */
  lemma IsoDateAgreesWithReceipts(s: string, localeDate: JValue -> string)
    requires Recibos.IsIsoDate(s)
    ensures FormatDocDate(JStr(s), localeDate) == Some(Recibos.FormatDate(JStr(s), localeDate))
    ensures FormatDocDate(JStr(s), localeDate) == Some(s[8..] + "/" + s[5..7] + "/" + s[..4])
  {
    IsoDateHasNoT(s);
    IsoDateParts(s);
  }

  /** A string with neither '-' nor 'T' prints as `undefined/undefined/` and its first four code units. */
  lemma NoDashesLeaveUndefined(s: string, localeDate: JValue -> string)
    requires s != "" && '-' !in s && 'T' !in s
    ensures FormatDocDate(JStr(s), localeDate) == Some("undefined/undefined/" + Utf16Take(s, 4))
  {
    SplitNone(s, '-');
    assert DatePart(Split(s, '-'), 0) == Utf16Take(s, 4);
    assert "undefined" + "/" + "undefined" + "/" + Utf16Take(s, 4) == "undefined/undefined/" + Utf16Take(s, 4);
  }
}

=== FILE: consulta.dfy ===
/**
 * The per-entity modal opened from a results row: the connection data handed
 * to the drill-down modals, the displayed debt, and the five drill-down flags.
 */
module Consulta {
  import opened Wrappers
  import opened Numbers
  import opened Json
  import opened Lookup
  import Ddjj

  /** `getCaseInsensitive(data, key) !== '-' ? getCaseInsensitive(data, key) : null`. */
  function ConnectionField(data: JValue, key: string): (v: JValue)
    ensures GetCaseInsensitive(data, key) == JStr("-") ==> v == JNull
    ensures GetCaseInsensitive(data, key) != JStr("-") ==> v == GetCaseInsensitive(data, key)
  {
    var g := GetCaseInsensitive(data, key);
    if g == JStr("-") then JNull else g
  }

  /** `connectionData`: only `ide_cnt` and `ide_bde`, each `null` when the lookup gives '-'. */
  function ConnectionData(data: JValue): (c: JValue)
    ensures Prop(c, "ide_cnt") == Some(ConnectionField(data, "ide_cnt"))
    ensures Prop(c, "ide_bde") == Some(ConnectionField(data, "ide_bde"))
    ensures forall k :: k != "ide_cnt" && k != "ide_bde" ==> Prop(c, k).None?
  {
    var fs := [("ide_cnt", ConnectionField(data, "ide_cnt")), ("ide_bde", ConnectionField(data, "ide_bde"))];
    PropOfLiteral(fs, 0);
    PropOfLiteral(fs, 1);
    assert forall k :: HasKey(fs, k) ==> k == "ide_cnt" || k == "ide_bde";
    JObj(fs)
  }

  /** A field that is missing, and a field stored as the literal '-', are both sent as `null`. */
  lemma DashIsNull(data: JValue, key: string)
    requires Truthy(data)
    ensures CIValue(data, key).None? ==> ConnectionField(data, key) == JNull
    ensures CIValue(data, key) == Some(JStr("-")) ==> ConnectionField(data, key) == JNull
  {
  }

  /**
   * The connection data built here carries no `dbName`, so the declarations
   * modal never applies its SIAM override: `ide_bde` reaches the request as looked up.
   */
  lemma ConnectionNeverSiam(data: JValue)
    ensures Ddjj.BuildPayload(ConnectionData(data)).Some?
    ensures Prop(Ddjj.BuildPayload(ConnectionData(data)).value, "ide_bde") == Some(ConnectionField(data, "ide_bde"))
    ensures Prop(Ddjj.BuildPayload(ConnectionData(data)).value, "pide_cnt") == Some(ConnectionField(data, "ide_cnt"))
  {
    assert PropOrNull(ConnectionData(data), "dbName") == JNull;
  }

  /** `parseFloat(rawDebt === '-' ? 0 : rawDebt)`: the displayed debt. */
  function Debt(data: JValue): (n: Num)
    ensures GetCaseInsensitive(data, "imp_deu") == JStr("-") ==> n == Fin(0.0)
    ensures GetCaseInsensitive(data, "imp_deu") != JStr("-") ==> n == ParseFloat(GetCaseInsensitive(data, "imp_deu"))
  {
    var raw := GetCaseInsensitive(data, "imp_deu");
    if raw == JStr("-") then ParseFloatInt(0); ParseFloat(Int(0)) else ParseFloat(raw)
  }

  /** A row without a debt field shows a debt of 0. */
  lemma MissingDebtIsZero(data: JValue)
    requires Truthy(data) && CIValue(data, "imp_deu").None?
    ensures Debt(data) == Fin(0.0)
  {
  }

  // ---------------------------------------------------------------------------
  // Drill-down flags
  // ---------------------------------------------------------------------------

  /** The five drill-down modals the entity modal can open. */
  datatype Child = DdjjList | Receipts | Alcabala | Cadastral | VehicleTax

  /** Which drill-down modals are open, and the selected year. */
  datatype State = State(open: set<Child>, year: int)

  /** The effect on `[isOpen, data]`: when open, the year is reset to the current one and every child is closed. */
  function Reset(s: State, isOpen: bool, currentYear: int): (t: State)
    ensures isOpen ==> t.open == {} && t.year == currentYear
    ensures !isOpen ==> t == s
  {
    if isOpen then State({}, currentYear) else s
  }

  /** A drill-down button opens its own child modal and touches no other flag. */
  function Press(s: State, c: Child): (t: State)
    ensures c in t.open
    ensures forall d :: d != c ==> (d in t.open <==> d in s.open)
    ensures t.year == s.year
  {
    s.(open := s.open + {c})
  }

  /** Nothing is rendered when the modal is closed or there is no row. */
  predicate Renders(isOpen: bool, data: JValue) {
    isOpen && Truthy(data)
  }
}

=== FILE: ddjj.dfy ===
/**
 * The sworn-declaration (DDJJ) modal: the list request is built from the
 * connection data, the response is optionally filtered by year, three totals
 * are accumulated, and annulled rows are flagged.
 */
module Ddjj {
  import opened Wrappers
  import opened Text
  import opened Numbers
  import opened Json
  import opened Lists
  import opened Lookup

  // ---------------------------------------------------------------------------
  // Request payload
  // ---------------------------------------------------------------------------

  /**
   * `dbName && dbName.toLowerCase().includes('siam')`: whether the connection is
   * the SIAM database, whose `ide_bde` is sent as `null`. `None` when `dbName`
   * is a truthy non-string and `toLowerCase` throws.
   */
  function IsSiam(dbName: JValue): (r: Option<bool>)
    ensures r.None? <==> Truthy(dbName) && !dbName.JStr?
    ensures r == Some(true) <==> dbName.JStr? && Occurs(Lower(dbName.s), "siam")
  {
    if !Truthy(dbName) then
      assert dbName.JStr? ==> dbName.s == "" && !At(Lower(dbName.s), "siam", 0);
      Some(false)
    else if dbName.JStr? then Some(Includes(Lower(dbName.s), "siam"))
    else None
  }

  /**
   * `{...connectionData, pide_cnt: ide_cnt, ide_bde: finalIdeBde}` as it is
   * serialised: a property whose value is `undefined` is not sent. `None` when
   * destructuring `null` connection data, or the `dbName` test, throws.
   */
  function BuildPayload(conn: JValue): (r: Option<JValue>)
    ensures r.None? <==> conn.JNull? || IsSiam(PropOrNull(conn, "dbName")).None?
    ensures r.Some? ==> Prop(r.value, "pide_cnt") == Prop(conn, "ide_cnt")
    ensures r.Some? && IsSiam(PropOrNull(conn, "dbName")) == Some(true) ==> Prop(r.value, "ide_bde") == Some(JNull)
    ensures r.Some? && IsSiam(PropOrNull(conn, "dbName")) == Some(false) ==> Prop(r.value, "ide_bde") == Prop(conn, "ide_bde")
    ensures r.Some? && conn.JObj? ==>
              forall k :: k != "pide_cnt" && k != "ide_bde" ==> Prop(r.value, k) == Prop(conn, k)
  {
    if conn.JNull? then None
    else match IsSiam(PropOrNull(conn, "dbName"))
      case None => None
      case Some(siam) =>
        var base := if conn.JObj? then conn else JObj([]);
        var p1 := match Prop(conn, "ide_cnt")
                  case Some(v) => SetField(base, "pide_cnt", v)
                  case None => Remove(base, "pide_cnt");
        var finalBde := if siam then Some(JNull) else Prop(conn, "ide_bde");
        match finalBde
        case Some(v) => Some(SetField(p1, "ide_bde", v))
        case None => Some(Remove(p1, "ide_bde"))
  }

  /** An object without field `k` (the field serialised from an `undefined` value). */
  function Remove(v: JValue, k: string): (r: JValue)
    requires v.JObj?
    ensures r.JObj?
    ensures Prop(r, k).None?
    ensures forall k' :: k' != k ==> Prop(r, k') == Prop(v, k')
  {
    var fs := Filter(KeyIsNot(k), v.fields);
    assert forall j :: 0 <= j < |fs| ==> fs[j] in fs;
    assert !HasKey(fs, k);
    forall k' | k' != k ensures Prop(JObj(fs), k') == Prop(v, k') {
      RemoveKeepsProp(v.fields, k, k');
    }
    JObj(fs)
  }

  function KeyIsNot(k: string): ((string, JValue)) -> bool {
    (f: (string, JValue)) => f.0 != k
  }

  lemma {:induction false} RemoveKeepsProp(fs: seq<(string, JValue)>, k: string, k': string)
    requires k' != k
    ensures Prop(JObj(Filter(KeyIsNot(k), fs)), k') == Prop(JObj(fs), k')
    decreases |fs|
  {
    if fs != [] {
      RemoveKeepsProp(fs[1..], k, k');
      var rest := Filter(KeyIsNot(k), fs[1..]);
      if fs[0].0 != k {
        assert Filter(KeyIsNot(k), fs) == [fs[0]] + rest;
        assert ([fs[0]] + rest)[1..] == rest;
      } else {
        assert Filter(KeyIsNot(k), fs) == rest;
      }
    }
  }

  /** `ide_bde` is sent as `null` exactly for a SIAM connection, and otherwise as given. */
  lemma BdeOverrideIffSiam(conn: JValue)
    requires BuildPayload(conn).Some?
    requires Prop(conn, "ide_bde").Some? && Prop(conn, "ide_bde").value != JNull
    ensures Prop(BuildPayload(conn).value, "ide_bde") == Some(JNull) <==>
              PropOrNull(conn, "dbName").JStr? && Occurs(Lower(PropOrNull(conn, "dbName").s), "siam")
  {
  }

  // ---------------------------------------------------------------------------
  // Year filter
  // ---------------------------------------------------------------------------

  /** `yearFilter && yearFilter.toString().trim() !== ''`; `None` stands for `null`. */
  predicate YearFilterActive(yearFilter: Option<string>) {
    yearFilter.Some? && Trim(yearFilter.value) != ""
  }

  /** `yearVal && yearVal.toString() === filterStr`, comparing with the untrimmed filter text. */
  predicate YearMatches(filterStr: string, item: JValue) {
    var y := GetCI(item, "ano_eje");
    Truthy(y) && JsToString(y) == filterStr
  }

  /**
   * The year filter applied to the response. `None` when a filter is active and
   * the response is not an array, whose `filter` throws.
   */
  function FilterByYear(result: JValue, yearFilter: Option<string>): (r: Option<JValue>)
    ensures !YearFilterActive(yearFilter) ==> r == Some(result)
    ensures YearFilterActive(yearFilter) ==> (r.None? <==> !result.JArr?)
    ensures YearFilterActive(yearFilter) && r.Some? ==>
              r.value.JArr? && Subseq(r.value.items, result.items)
              && forall x :: x in r.value.items <==> x in result.items && YearMatches(yearFilter.value, x)
    ensures YearFilterActive(yearFilter) && r.Some? ==>
              forall x :: multiset(r.value.items)[x] == if YearMatches(yearFilter.value, x) then multiset(result.items)[x] else 0
  {
    if !YearFilterActive(yearFilter) then Some(result)
    else if !result.JArr? then None
    else
      var p := item => YearMatches(yearFilter.value, item);
      FilterCounts(p, result.items);
      Some(JArr(Filter(p, result.items)))
  }

  /**
   * A filter typed with a leading space is active, but the comparison uses the
   * untrimmed text, so a row of that year no longer matches.
   */
  lemma PaddedYearMatchesNothing(item: JValue)
    requires GetCI(item, "ano_eje") == JStr("2024")
    ensures YearFilterActive(Some(" 2024"))
    ensures YearMatches("2024", item) && !YearMatches(" 2024", item)
  {
    assert Trim(" 2024") != "" by {
      assert IsSpace(" 2024"[0]) && !IsSpace(" 2024"[1]);
      assert TrimStart(" 2024") == "2024";
    }
    assert !YearMatches(" 2024", item) by {
      assert |JsToString(JStr("2024"))| == 4;
    }
  }

  // ---------------------------------------------------------------------------
  // Totals and flags
  // ---------------------------------------------------------------------------

  /**
   * `parseFloat(getValue(item, key) || 0)` for every row: a row whose field is
   * missing or falsy counts 0, any other value is parsed as it stands.
   */
  function Amounts(items: seq<JValue>, key: string): (ns: seq<Num>)
    ensures |ns| == |items|
    ensures forall i :: 0 <= i < |items| && !Truthy(GetCI(items[i], key)) ==> ns[i] == Fin(0.0)
    ensures forall i :: 0 <= i < |items| && Truthy(GetCI(items[i], key)) ==> ns[i] == ParseFloat(GetCI(items[i], key))
  {
    seq(|items|, i requires 0 <= i < |items| => Amount(items[i], key))
  }

  function Amount(item: JValue, key: string): (n: Num)
    ensures !Truthy(GetCI(item, key)) ==> n == Fin(0.0)
    ensures Truthy(GetCI(item, key)) ==> n == ParseFloat(GetCI(item, key))
  {
    ParseFloatInt(0);
    ParseFloat(Or(GetCI(item, key), Int(0)))
  }

  lemma AmountsInit(items: seq<JValue>, key: string)
    requires items != []
    ensures Amounts(items, key)[..|items| - 1] == Amounts(items[..|items| - 1], key)
  {
  }

  datatype Totals = Totals(deuda: Num, pagado: Num, saldo: Num)

  /**
   * `totals`: the single `reduce` that adds the three amounts of each row into
   * an accumulator starting at zero. A non-numeric amount makes its total `NaN`.
   */
  function SumTotals(items: seq<JValue>): (t: Totals)
    ensures t.deuda == SumNum(Amounts(items, "val_tot"))
    ensures t.pagado == SumNum(Amounts(items, "imp_pag"))
    ensures t.saldo == SumNum(Amounts(items, "imp_sld"))
  {
    Fold(items, "val_tot", "imp_pag", "imp_sld")
  }

  /** The accumulator after the first `|items|` rows, for the columns `kd`, `kp` and `ks`. */
  function Fold(items: seq<JValue>, kd: string, kp: string, ks: string): (t: Totals)
    ensures t == Totals(SumNum(Amounts(items, kd)), SumNum(Amounts(items, kp)), SumNum(Amounts(items, ks)))
    decreases |items|
  {
    if items == [] then Totals(Fin(0.0), Fin(0.0), Fin(0.0))
    else
      var item := items[|items| - 1];
      var acc := Fold(items[..|items| - 1], kd, kp, ks);
      AmountsInit(items, kd);
      AmountsInit(items, kp);
      AmountsInit(items, ks);
      Totals(Plus(acc.deuda, ParseFloat(Or(GetCI(item, kd), Int(0)))),
             Plus(acc.pagado, ParseFloat(Or(GetCI(item, kp), Int(0)))),
             Plus(acc.saldo, ParseFloat(Or(GetCI(item, ks), Int(0)))))
  }

  /** A column total is `NaN` iff some row's amount does not parse; rows without the field add 0. */
  lemma ColumnSpec(items: seq<JValue>, key: string)
    ensures SumNum(Amounts(items, key)).NaN? <==> exists i :: 0 <= i < |items| && Amounts(items, key)[i].NaN?
    ensures SumNum(Amounts(items, key)).Fin? ==> SumNum(Amounts(items, key)).r == SumReal(Reals(Amounts(items, key)))
    ensures forall i :: 0 <= i < |items| && GetCI(items[i], key) == JNull ==> Amounts(items, key)[i] == Fin(0.0)
  {
    SumNumSpec(Amounts(items, key));
    ParseFloatInt(0);
  }

  /** The declared-debt total is `NaN` iff some row's amount does not parse; rows without the field add 0. */
  lemma TotalsSpec(items: seq<JValue>)
    ensures SumTotals(items).deuda.NaN? <==> exists i :: 0 <= i < |items| && Amounts(items, "val_tot")[i].NaN?
    ensures SumTotals(items).deuda.Fin? ==> SumTotals(items).deuda.r == SumReal(Reals(Amounts(items, "val_tot")))
    ensures forall i :: 0 <= i < |items| && GetCI(items[i], "val_tot") == JNull ==> Amounts(items, "val_tot")[i] == Fin(0.0)
  {
    ColumnSpec(items, "val_tot");
  }

  /** `flgAnu == 1 || flgAnu === '1'`. */
  predicate IsAnnulled(flg: JValue) {
    LooseEqOne(flg) || flg == JStr("1")
  }

  /** The strict comparison with '1' adds nothing: loose equality with 1 already accepts it. */
  lemma AnnulledIsLooseOne(flg: JValue)
    ensures IsAnnulled(flg) <==> LooseEqOne(flg)
  {
    if flg == JStr("1") {
      OneText();
      assert JsToString(flg) == "1";
    }
  }

  /**
   * The loose comparison also accepts the array `[1]`, and
   * every annulled flag is truthy.
   */
  lemma AnnulledCoercions(flg: JValue)
    ensures IsAnnulled(flg) ==> Truthy(flg)
    ensures IsAnnulled(JArr([Int(1)])) && !IsAnnulled(JBool(false))
  {
    LooseEqOneForms(flg);
    AnnulledIsLooseOne(flg);
  }

  /** Besides 1 and '1', the boolean `true` also marks a row as annulled. */
  lemma AnnulledForms()
    ensures IsAnnulled(JBool(true)) && IsAnnulled(Int(1))
  {
    assert LooseEqOne(JBool(true));
    IntRoundTrip(1);
    assert ToNumber(IntToString(1)) == Fin(1.0);
    assert LooseEqOne(JNum(IntToString(1)));
  }

  /** 0 does not mark a row as annulled. */
  lemma ZeroNotAnnulled()
    ensures !IsAnnulled(Int(0))
  {
    IntRoundTrip(0);
    assert Int(0) == JNum(IntToString(0));
    assert !LooseEqOne(JNum(IntToString(0)));
  }

  /** Neither do '' and `null`. */
  lemma EmptyNotAnnulled()
    ensures !IsAnnulled(JStr("")) && !IsAnnulled(JNull)
  {
    assert ToNumber("") == Fin(0.0);
  }

  // ---------------------------------------------------------------------------
  // Modal state
  // ---------------------------------------------------------------------------

  const LoadError := "Error al cargar las DDJJ"

  datatype State = State(list: JValue, error: string, year: string, loading: bool)

  /**
   * `fetchDDJJ`. `call` is the list request for a payload; `engineMessage` is
   * the message of a `TypeError` thrown while building the payload or filtering.
   */
  function Fetch(s: State, conn: JValue, yearFilter: Option<string>,
                 call: JValue -> Result<JValue>, engineMessage: string): (t: State)
    ensures !t.loading && t.year == s.year
    ensures BuildPayload(conn).None? ==> t.list == s.list && t.error == (if engineMessage != "" then engineMessage else LoadError)
    ensures BuildPayload(conn).Some? && call(BuildPayload(conn).value).Err? ==>
              t.list == s.list && t.error == (var m := call(BuildPayload(conn).value).message; if m != "" then m else LoadError)
    ensures BuildPayload(conn).Some? && call(BuildPayload(conn).value).Ok?
            && FilterByYear(call(BuildPayload(conn).value).value, yearFilter).Some? ==>
              t.list == FilterByYear(call(BuildPayload(conn).value).value, yearFilter).value && t.error == ""
    ensures BuildPayload(conn).Some? && call(BuildPayload(conn).value).Ok?
            && FilterByYear(call(BuildPayload(conn).value).value, yearFilter).None? ==>
              t.list == s.list && t.error == (if engineMessage != "" then engineMessage else LoadError)
  {
    var s0 := s.(loading := true, error := "");
    var failed := (m: string) => s0.(error := if m != "" then m else LoadError, loading := false);
    match BuildPayload(conn)
    case None => failed(engineMessage)
    case Some(payload) =>
      match call(payload)
      case Err(m) => failed(m)
      case Ok(result) =>
        match FilterByYear(result, yearFilter)
        case None => failed(engineMessage)
        case Some(list) => s0.(list := list, loading := false)
  }

  /** Opening the modal clears the list, the error and the year, then fetches with no year filter. */
  function Open(s: State, conn: JValue, call: JValue -> Result<JValue>, engineMessage: string): (t: State)
    ensures t.year == ""
    ensures BuildPayload(conn).Some? && call(BuildPayload(conn).value).Ok? ==>
              t.list == call(BuildPayload(conn).value).value && t.error == ""
    ensures BuildPayload(conn).Some? && call(BuildPayload(conn).value).Err? ==> t.list == JArr([])
  {
    Fetch(State(JArr([]), "", "", s.loading), conn, None, call, engineMessage)
  }
}

=== FILE: json.dfy ===
/**
 * JSON values as the dashboard receives them from the API and from browser
 * storage, with the JavaScript operations the components apply to them:
 * truthiness, `String(v)`, `parseFloat(v)`, loose and strict comparison with
 * `1`, property access and object spread.
 */
module Json {
  import opened Wrappers
  import opened Text
  import opened Numbers

  /**
   * A decoded JSON value. A number carries its JavaScript string form
   * (`String(n)`), from which its value is read back with `ToNumber`.
   * Object fields keep their order; a parsed object has distinct keys.
   */
  datatype JValue =
    | JNull
    | JBool(b: bool)
    | JNum(text: string)
    | JStr(s: string)
    | JArr(items: seq<JValue>)
    | JObj(fields: seq<(string, JValue)>)

  /** The number `n` of JavaScript, for an integer `n`. */
  function Int(n: int): JValue {
    JNum(IntToString(n))
  }

  /** JavaScript truthiness: `null`, `false`, `0`, `NaN` and `''` are falsy. */
  predicate Truthy(v: JValue) {
    match v
    case JNull => false
    case JBool(b) => b
    case JNum(t) => ToNumber(t).Fin? && ToNumber(t).r != 0.0
    case JStr(s) => s != ""
    case JArr(_) => true
    case JObj(_) => true
  }

  /**
   * The falsy values of JavaScript that trip readers: every array and object is
   * truthy, even an empty one; a string is truthy exactly when it is not empty,
   * so '0' and 'false' are; the number 0 is not.
   */
  lemma TruthyForms(v: JValue)
    ensures v.JArr? || v.JObj? ==> Truthy(v)
    ensures v.JStr? ==> (Truthy(v) <==> v.s != "")
    ensures Truthy(JStr("0")) && Truthy(JStr("false")) && Truthy(JArr([])) && Truthy(JObj([]))
    ensures !Truthy(Int(0)) && !Truthy(JNull) && !Truthy(JBool(false))
  {
    assert !Truthy(Int(0)) by { IntRoundTrip(0); }
  }

  /** `a || b`. */
  function Or(a: JValue, b: JValue): (r: JValue)
    ensures Truthy(a) ==> r == a
    ensures !Truthy(a) ==> r == b
  {
    if Truthy(a) then a else b
  }

  /** `String(v)`; arrays join their elements with ',', rendering `null` elements as ''. */
  function JsToString(v: JValue): string
    decreases v
  {
    match v
    case JNull => "null"
    case JBool(b) => if b then "true" else "false"
    case JNum(t) => t
    case JStr(s) => s
    case JArr(items) =>
      Join(seq(|items|, k requires 0 <= k < |items| =>
             if items[k].JNull? then "" else JsToString(items[k])), ",")
    case JObj(_) => "[object Object]"
  }

  /** `String(x)` (or `${x}`) of a value that may be `undefined`. */
  function JsString(x: Option<JValue>): (t: string)
    ensures x.None? ==> t == "undefined"
    ensures x.Some? ==> t == JsToString(x.value)
  {
    if x.Some? then JsToString(x.value) else "undefined"
  }

  /**
   * `parseFloat(v)`: JavaScript converts the argument to a string first, so
   * `null`, booleans, objects, `''` and `[]` all read as `NaN`.
   */
  function ParseFloat(v: JValue): (r: Num)
    ensures v.JNull? || v.JBool? || v.JObj? ==> r == NaN
    ensures v == JStr("") || v == JArr([]) ==> r == NaN
  {
    var t := JsToString(v);
    if v.JNull? || v.JBool? || v.JObj? then
      ParseDecimalNoStart(t);
      ParseDecimal(t)
    else
      assert v == JStr("") || v == JArr([]) ==> t == "" && TrimStart(t) == "" && ScanUnsigned("") == None;
      ParseDecimal(t)
  }

  /** `parseFloat` of an integer number gives back the integer. */
  lemma ParseFloatInt(n: int)
    ensures ParseFloat(Int(n)) == Fin(n as real)
  {
    assert JsToString(Int(n)) == IntToString(n);
    IntRoundTrip(n);
  }

  /**
   * `String([x])` is `String(x)` for a one-element array, and `String([])` is
   * `''`: this is how `[1] == 1` comes to hold.
   */
  lemma JsToStringForms(x: JValue, fs: seq<(string, JValue)>)
    ensures JsToString(JArr([x])) == (if x.JNull? then "" else JsToString(x))
    ensures JsToString(JArr([])) == "" && JsToString(JArr([JNull])) == ""
    ensures JsToString(JObj(fs)) == "[object Object]" && JsToString(JNull) == "null"
    ensures JsToString(JArr([Int(1), Int(2)])) == "1,2"
  {
    assert IntToString(1) == "1" && IntToString(2) == "2";
    var items := [Int(1), Int(2)];
    assert seq(|items|, k requires 0 <= k < |items| => if items[k].JNull? then "" else JsToString(items[k])) == ["1", "2"];
    assert Join(["1", "2"], ",") == "1" + "," + Join(["2"], ",");
  }

  /** `v == 1` under JavaScript's loose equality. */
  predicate LooseEqOne(v: JValue) {
    match v
    case JNull => false
    case JBool(b) => b
    case JNum(t) => ToNumber(t) == Fin(1.0)
    case _ => ToNumber(JsToString(v)) == Fin(1.0)
  }

  /**
   * `a === b` for scalar values read from JSON. Arrays and objects compare by
   * reference in JavaScript, which a value model cannot see; they are taken
   * never to be strictly equal, which holds for two values decoded separately
   * but not for a value compared with itself.
   */
  predicate StrictEq(a: JValue, b: JValue) {
    match (a, b)
    case (JNull, JNull) => true
    case (JBool(x), JBool(y)) => x == y
    case (JNum(x), JNum(y)) => ToNumber(x).Fin? && ToNumber(x) == ToNumber(y)
    case (JStr(x), JStr(y)) => x == y
    case _ => false
  }

  /**
   * Loose equality with 1 coerces: `true`, '1' and `[1]` all equal 1,
   * while `null`, `false` and `''` do not. Whatever loosely equals 1 is truthy,
   * and whatever strictly equals 1 also loosely equals it.
   */
  lemma LooseEqOneForms(v: JValue)
    ensures LooseEqOne(v) ==> Truthy(v)
    ensures IsOne(v) ==> LooseEqOne(v)
    ensures LooseEqOne(JBool(true)) && LooseEqOne(JStr("1")) && LooseEqOne(JArr([Int(1)]))
    ensures !LooseEqOne(JNull) && !LooseEqOne(JBool(false)) && !LooseEqOne(JStr(""))
  {
    LooseEqOneTruthy(v);
    IsOneMeans(v);
    LooseEqOneText();
  }

  lemma LooseEqOneTruthy(v: JValue)
    ensures LooseEqOne(v) ==> Truthy(v)
  {
    NumberAgreesWithParseFloat("");
  }

  /** The text '1' and the array `[1]` both read as the number 1. */
  lemma LooseEqOneText()
    ensures LooseEqOne(JStr("1")) && LooseEqOne(JArr([Int(1)]))
    ensures !LooseEqOne(JStr(""))
  {
    assert LooseEqOne(JStr("1")) by { OneText(); }
    assert LooseEqOne(JArr([Int(1)])) by { LooseEqOneSingleton(); }
    assert !LooseEqOne(JStr("")) by {
      assert JsToString(JStr("")) == "";
      NumberAgreesWithParseFloat("");
    }
  }

  lemma LooseEqOneSingleton()
    ensures LooseEqOne(JArr([Int(1)]))
  {
    OneText();
    JsToStringForms(Int(1), []);
    assert JsToString(JArr([Int(1)])) == "1";
  }

  /**
   * Strict equality never coerces ('1', `true` and 1 are pairwise different),
   * holds only between scalars, is symmetric and transitive, and relates every
   * scalar other than a `NaN` number to itself.
   */
  lemma StrictEqLaws(a: JValue, b: JValue, c: JValue)
    ensures StrictEq(a, b) <==> StrictEq(b, a)
    ensures StrictEq(a, b) && StrictEq(b, c) ==> StrictEq(a, c)
    ensures StrictEq(a, b) ==> !a.JArr? && !a.JObj? && !b.JArr? && !b.JObj?
    ensures (a.JNull? || a.JBool? || a.JStr? || (a.JNum? && ToNumber(a.text).Fin?)) ==> StrictEq(a, a)
    ensures !StrictEq(JStr("1"), Int(1)) && !StrictEq(JBool(true), Int(1)) && !StrictEq(JNull, JStr(""))
  {
  }

  /** `v === 1`. */
  predicate IsOne(v: JValue) {
    StrictEq(v, Int(1))
  }

  lemma IsOneMeans(v: JValue)
    ensures IsOne(v) <==> v.JNum? && ToNumber(v.text) == Fin(1.0)
  {
    IntRoundTrip(1);
  }

  // ---------------------------------------------------------------------------
  // Objects
  // ---------------------------------------------------------------------------

  /** Index of the first field named `k`, or `|fs|`. */
  function KeyIndex(fs: seq<(string, JValue)>, k: string): (i: nat)
    ensures i <= |fs|
    ensures forall j :: 0 <= j < i ==> fs[j].0 != k
    ensures i < |fs| ==> fs[i].0 == k
    decreases |fs|
  {
    if fs == [] then 0 else if fs[0].0 == k then 0 else 1 + KeyIndex(fs[1..], k)
  }

  predicate HasKey(fs: seq<(string, JValue)>, k: string) {
    exists j :: 0 <= j < |fs| && fs[j].0 == k
  }

  /**
   * `v[k]`: the value of own property `k`, `None` for `undefined`. Values that
   * are not objects have no properties the dashboard asks for.
   */
  function Prop(v: JValue, k: string): (r: Option<JValue>)
    ensures r.Some? <==> v.JObj? && HasKey(v.fields, k)
    ensures r.Some? ==> exists j :: 0 <= j < |v.fields| && v.fields[j] == (k, r.value)
  {
    if v.JObj? then
      var i := KeyIndex(v.fields, k);
      if i < |v.fields| then Some(v.fields[i].1) else None
    else None
  }

  /** `v[k]` where `undefined` and `null` are not told apart. */
  function PropOrNull(v: JValue, k: string): JValue {
    Prop(v, k).GetOr(JNull)
  }

  /**
   * `{...v, [k]: x}`: an existing field is overwritten in place, a new one is
   * appended. Spreading a value that is not an object contributes no fields.
   */
  function SetField(v: JValue, k: string, x: JValue): (r: JValue)
    ensures r.JObj?
    ensures Prop(r, k) == Some(x)
    ensures v.JObj? ==> forall k' :: k' != k ==> Prop(r, k') == Prop(v, k')
    ensures v.JObj? ==> forall k' :: HasKey(v.fields, k') ==> HasKey(r.fields, k')
  {
    if v.JObj? then
      var fs := v.fields;
      var i := KeyIndex(fs, k);
      if i < |fs| then
        var r := JObj(fs[i := (k, x)]);
        KeyIndexUnique(r.fields, k, i);
        assert forall k' :: k' != k ==> KeyIndex(r.fields, k') == KeyIndex(fs, k') by {
          forall k' | k' != k ensures KeyIndex(r.fields, k') == KeyIndex(fs, k') {
            KeyIndexUpdate(fs, i, k, x, k');
          }
        }
        forall k' | HasKey(fs, k') ensures HasKey(r.fields, k') {
          var j :| 0 <= j < |fs| && fs[j].0 == k';
          assert r.fields[j].0 == k';
        }
        r
      else
        var r := JObj(fs + [(k, x)]);
        assert forall k' :: k' != k ==> Prop(r, k') == Prop(v, k') by {
          forall k' | k' != k ensures Prop(r, k') == Prop(v, k') {
            KeyIndexAppend(fs, k, x, k');
          }
        }
        KeyIndexAppend(fs, k, x, k);
        forall k' | HasKey(fs, k') ensures HasKey(r.fields, k') {
          var j :| 0 <= j < |fs| && fs[j].0 == k';
          assert r.fields[j].0 == k';
        }
        r
    else
      assert KeyIndex([(k, x)], k) == 0;
      JObj([(k, x)])
  }

  /** Setting a field the object does not have appends it at the end. */
  lemma SetFieldAppends(fs: seq<(string, JValue)>, k: string, x: JValue)
    requires forall j :: 0 <= j < |fs| ==> fs[j].0 != k
    ensures SetField(JObj(fs), k, x) == JObj(fs + [(k, x)])
  {
    KeyIndexUnique(fs, k, |fs|);
  }

  /** `KeyIndex` is characterised by its postconditions. */
  lemma {:induction false} KeyIndexUnique(fs: seq<(string, JValue)>, k: string, i: nat)
    requires i <= |fs|
    requires forall j :: 0 <= j < i ==> fs[j].0 != k
    requires i < |fs| ==> fs[i].0 == k
    ensures KeyIndex(fs, k) == i
    decreases |fs|
  {
    if fs != [] && i > 0 {
      KeyIndexUnique(fs[1..], k, i - 1);
    }
  }

  lemma KeyIndexUpdate(fs: seq<(string, JValue)>, i: nat, k: string, x: JValue, k': string)
    requires i < |fs| && fs[i].0 == k && k' != k
    ensures KeyIndex(fs[i := (k, x)], k') == KeyIndex(fs, k')
  {
    var m := KeyIndex(fs, k');
    KeyIndexUnique(fs[i := (k, x)], k', m);
  }

  lemma KeyIndexAppend(fs: seq<(string, JValue)>, k: string, x: JValue, k': string)
    requires KeyIndex(fs, k) == |fs|
    ensures k' != k && KeyIndex(fs, k') < |fs| ==> KeyIndex(fs + [(k, x)], k') == KeyIndex(fs, k')
    ensures k' != k && KeyIndex(fs, k') == |fs| ==> KeyIndex(fs + [(k, x)], k') == |fs| + 1
    ensures KeyIndex(fs + [(k, x)], k) == |fs|
  {
    KeyIndexUnique(fs + [(k, x)], k, |fs|);
    if k' != k {
      var m := KeyIndex(fs, k');
      if m < |fs| {
        KeyIndexUnique(fs + [(k, x)], k', m);
      } else {
        KeyIndexUnique(fs + [(k, x)], k', |fs| + 1);
      }
    }
  }

  /** In an object written out field by field, a field not preceded by its own name is what `Prop` finds. */
  lemma PropOfLiteral(fs: seq<(string, JValue)>, i: nat)
    requires i < |fs|
    requires forall j :: 0 <= j < i ==> fs[j].0 != fs[i].0
    ensures Prop(JObj(fs), fs[i].0) == Some(fs[i].1)
  {
    KeyIndexUnique(fs, fs[i].0, i);
  }

  /** The names of an object's fields in order (`Object.keys`). */
  function Keys(v: JValue): (ks: seq<string>)
    ensures v.JObj? ==> |ks| == |v.fields|
    ensures forall j :: 0 <= j < |ks| ==> v.JObj? && j < |v.fields| && ks[j] == v.fields[j].0
  {
    if v.JObj? then seq(|v.fields|, j requires 0 <= j < |v.fields| => v.fields[j].0) else []
  }

  /** `x > 0` for a field value read from a body, `undefined` being `None`. */
  predicate GreaterThanZero(x: Option<JValue>) {
    match x
    case None => false
    case Some(JNull) => false
    case Some(JBool(b)) => b
    case Some(v) => ToNumber(JsToString(v)).Fin? && ToNumber(JsToString(v)).r > 0.0
  }

  /** `data.length > 0` for a value that is not `null`: numbers and booleans have no `length`. */
  predicate HasFirst(data: JValue) {
    match data
    case JArr(items) => |items| > 0
    case JStr(s) => s != ""
    case JObj(_) => GreaterThanZero(Prop(data, "length"))
    case _ => false
  }

  /** `data[0]`, `None` standing for `undefined`. */
  function First(data: JValue): (r: Option<JValue>)
    requires HasFirst(data)
    ensures data.JArr? ==> r == Some(data.items[0])
    ensures data.JStr? ==> r.Some? && r.value.JStr?
    ensures data.JObj? ==> r == Prop(data, "0")
  {
    match data
    case JArr(items) => Some(items[0])
    case JStr(s) => Some(JStr([s[0]]))
    case JObj(_) => Prop(data, "0")
  }
}

=== FILE: lists.dfy ===
/**
 * The array operations the components chain together — `filter`, `map`,
 * `includes`-based toggling — including the variants whose callback may throw.
 */
module Lists {
  import opened Wrappers

  /** `xs` is `ys` with some elements deleted: what is kept keeps its order. */
  predicate Subseq<T(==)>(xs: seq<T>, ys: seq<T>)
    decreases |ys|
  {
    if xs == [] then true
    else if ys == [] then false
    else (xs[0] == ys[0] && Subseq(xs[1..], ys[1..])) || Subseq(xs, ys[1..])
  }

  lemma {:induction false} SubseqRefl<T(!new)>(xs: seq<T>)
    ensures Subseq(xs, xs)
    decreases |xs|
  {
    if xs != [] {
      SubseqRefl(xs[1..]);
    }
  }

  lemma {:induction false} SubseqTrans<T(!new)>(xs: seq<T>, ys: seq<T>, zs: seq<T>)
    requires Subseq(xs, ys) && Subseq(ys, zs)
    ensures Subseq(xs, zs)
    decreases |zs|
  {
    if xs != [] {
      if Subseq(ys, zs[1..]) {
        SubseqTrans(xs, ys, zs[1..]);
      } else if xs[0] == ys[0] && Subseq(xs[1..], ys[1..]) {
        SubseqTrans(xs[1..], ys[1..], zs[1..]);
      } else {
        SubseqTrans(xs, ys[1..], zs[1..]);
      }
    }
  }

  /** `xs.map(f)`. */
  function Map<T, U>(f: T -> U, xs: seq<T>): (r: seq<U>)
    ensures |r| == |xs|
    ensures forall i :: 0 <= i < |xs| ==> r[i] == f(xs[i])
  {
    seq(|xs|, i requires 0 <= i < |xs| => f(xs[i]))
  }

  /** Mapping two blocks is mapping each block. */
  lemma MapAppend<T, U>(f: T -> U, xs: seq<T>, ys: seq<T>)
    ensures Map(f, xs + ys) == Map(f, xs) + Map(f, ys)
  {
    var l := Map(f, xs + ys);
    var r := Map(f, xs) + Map(f, ys);
    assert |l| == |r|;
    forall i | 0 <= i < |l| ensures l[i] == r[i] {
      if i < |xs| {
        assert (xs + ys)[i] == xs[i];
      } else {
        assert (xs + ys)[i] == ys[i - |xs|];
      }
    }
  }

  /** `xs.reduce((sum, x) => sum + f(x), 0)`, added left to right. */
  function SumOf<T>(f: T -> real, xs: seq<T>): real
    decreases |xs|
  {
    if xs == [] then 0.0 else SumOf(f, xs[..|xs| - 1]) + f(xs[|xs| - 1])
  }

  /** A sum over two blocks is the sum of the blocks' sums. */
  lemma {:induction false} SumOfAppend<T>(f: T -> real, xs: seq<T>, ys: seq<T>)
    ensures SumOf(f, xs + ys) == SumOf(f, xs) + SumOf(f, ys)
    decreases |ys|
  {
    if ys == [] {
      assert xs + ys == xs;
    } else {
      var zs := xs + ys;
      assert zs[..|zs| - 1] == xs + ys[..|ys| - 1];
      assert zs[|zs| - 1] == ys[|ys| - 1];
      SumOfAppend(f, xs, ys[..|ys| - 1]);
    }
  }

  /** Mapping both sides of a subsequence keeps it a subsequence. */
  lemma {:induction false} SubseqMap<T, U>(f: T -> U, xs: seq<T>, ys: seq<T>)
    requires Subseq(xs, ys)
    ensures Subseq(Map(f, xs), Map(f, ys))
    decreases |ys|
  {
    if xs != [] {
      assert Map(f, xs)[1..] == Map(f, xs[1..]);
      assert Map(f, ys)[1..] == Map(f, ys[1..]);
      if xs[0] == ys[0] && Subseq(xs[1..], ys[1..]) {
        SubseqMap(f, xs[1..], ys[1..]);
      } else {
        SubseqMap(f, xs, ys[1..]);
      }
    }
  }

  /**
   * `xs.filter(p)`: exactly the elements satisfying `p`, each as often as it
   * occurs in `xs`, in their order.
   */
  function Filter<T(!new)>(p: T -> bool, xs: seq<T>): (r: seq<T>)
    ensures |r| <= |xs|
    ensures forall x :: x in r <==> x in xs && p(x)
    ensures Subseq(r, xs)
    decreases |xs|
  {
    if xs == [] then []
    else
      var rest := Filter(p, xs[1..]);
      assert forall x :: x in xs <==> x == xs[0] || x in xs[1..];
      if p(xs[0]) then [xs[0]] + rest else rest
  }

  /** `Filter` keeps every passing element as often as it occurs, and no other. */
  lemma {:induction false} FilterCounts<T(!new)>(p: T -> bool, xs: seq<T>)
    ensures forall x :: multiset(Filter(p, xs))[x] == if p(x) then multiset(xs)[x] else 0
    decreases |xs|
  {
    if xs != [] {
      FilterCounts(p, xs[1..]);
      var rest := Filter(p, xs[1..]);
      assert xs == [xs[0]] + xs[1..];
      assert multiset(xs) == multiset{xs[0]} + multiset(xs[1..]);
      if p(xs[0]) {
        assert multiset([xs[0]] + rest) == multiset{xs[0]} + multiset(rest);
      }
    }
  }

  /** Filtering before mapping is filtering the mapped sequence with the matching test. */
  lemma {:induction false} MapFilter<T(!new), U(!new)>(f: T -> U, p: T -> bool, q: U -> bool, xs: seq<T>)
    requires forall i :: 0 <= i < |xs| ==> p(xs[i]) == q(f(xs[i]))
    ensures Map(f, Filter(p, xs)) == Filter(q, Map(f, xs))
    decreases |xs|
  {
    if xs != [] {
      MapFilter(f, p, q, xs[1..]);
      assert Map(f, xs)[1..] == Map(f, xs[1..]);
      var rest := Filter(p, xs[1..]);
      if p(xs[0]) {
        assert Map(f, [xs[0]] + rest) == [f(xs[0])] + Map(f, rest);
      }
    }
  }

  /** Filtering an extended sequence extends the filtered one by the new element when it passes. */
  lemma {:induction false} FilterAppendOne<T(!new)>(p: T -> bool, xs: seq<T>, x: T)
    ensures Filter(p, xs + [x]) == Filter(p, xs) + (if p(x) then [x] else [])
    decreases |xs|
  {
    if xs == [] {
      assert [] + [x] == [x];
    } else {
      assert (xs + [x])[1..] == xs[1..] + [x];
      FilterAppendOne(p, xs[1..], x);
    }
  }

  /** Filtering twice with the same test changes nothing more. */
  lemma {:induction false} FilterIdempotent<T(!new)>(p: T -> bool, xs: seq<T>)
    ensures Filter(p, Filter(p, xs)) == Filter(p, xs)
    decreases |xs|
  {
    if xs != [] {
      FilterIdempotent(p, xs[1..]);
      var rest := Filter(p, xs[1..]);
      if p(xs[0]) {
        assert ([xs[0]] + rest)[1..] == rest;
      }
    }
  }

  /**
   * `xs.filter(p)` where `p` may throw: `None` exactly when the test throws on
   * some element, otherwise the elements the test accepts, in order.
   */
  function FilterTry<T(!new)>(p: T -> Option<bool>, xs: seq<T>): (r: Option<seq<T>>)
    ensures r.None? <==> exists i :: 0 <= i < |xs| && p(xs[i]).None?
    ensures r.Some? ==> forall x :: x in r.value <==> x in xs && p(x) == Some(true)
    ensures r.Some? ==> Subseq(r.value, xs)
    decreases |xs|
  {
    if xs == [] then Some([])
    else
      assert forall x :: x in xs <==> x == xs[0] || x in xs[1..];
      match p(xs[0])
      case None => None
      case Some(keep) =>
        match FilterTry(p, xs[1..])
        case None =>
          assert exists i :: 0 <= i < |xs| && p(xs[i]).None? by {
            var i :| 0 <= i < |xs[1..]| && p(xs[1..][i]).None?;
            assert p(xs[i + 1]).None?;
          }
          None
        case Some(rest) =>
          assert forall i :: 0 < i < |xs| ==> p(xs[i]).Some? by {
            forall i | 0 < i < |xs| ensures p(xs[i]).Some? {
              assert xs[i] == xs[1..][i - 1];
            }
          }
          if keep then Some([xs[0]] + rest) else Some(rest)
  }

  /** When no test throws, `FilterTry` keeps every accepted element as often as it occurs, and no other. */
  lemma {:induction false} FilterTryCounts<T(!new)>(p: T -> Option<bool>, xs: seq<T>)
    requires FilterTry(p, xs).Some?
    ensures forall x :: multiset(FilterTry(p, xs).value)[x] == if p(x) == Some(true) then multiset(xs)[x] else 0
    decreases |xs|
  {
    if xs != [] {
      FilterTryCounts(p, xs[1..]);
      var rest := FilterTry(p, xs[1..]).value;
      assert xs == [xs[0]] + xs[1..];
      assert multiset(xs) == multiset{xs[0]} + multiset(xs[1..]);
      if p(xs[0]) == Some(true) {
        assert multiset([xs[0]] + rest) == multiset{xs[0]} + multiset(rest);
      }
    }
  }

  /** A test that accepts every element keeps the whole sequence. */
  lemma {:induction false} FilterTryAllTrue<T(!new)>(p: T -> Option<bool>, xs: seq<T>)
    requires forall i :: 0 <= i < |xs| ==> p(xs[i]) == Some(true)
    ensures FilterTry(p, xs) == Some(xs)
    decreases |xs|
  {
    if xs != [] {
      FilterTryAllTrue(p, xs[1..]);
      assert [xs[0]] + xs[1..] == xs;
    }
  }

  /** `xs.map(f)` where `f` may throw: `None` exactly when `f` throws on some element. */
  function MapTry<T, U>(f: T -> Option<U>, xs: seq<T>): (r: Option<seq<U>>)
    ensures r.None? <==> exists i :: 0 <= i < |xs| && f(xs[i]).None?
    ensures r.Some? ==> |r.value| == |xs| && forall i :: 0 <= i < |xs| ==> f(xs[i]) == Some(r.value[i])
  {
    if forall i :: 0 <= i < |xs| ==> f(xs[i]).Some? then
      Some(seq(|xs|, i requires 0 <= i < |xs| => f(xs[i]).value))
    else None
  }

  /**
   * The expand/collapse update: remove every occurrence of `x` when present,
   * append it when absent.
   */
  function Toggle<T(==,!new)>(xs: seq<T>, x: T): (r: seq<T>)
    ensures x in xs <==> x !in r
    ensures forall y :: y != x ==> (y in r <==> y in xs)
  {
    if x in xs then Filter(y => y != x, xs) else xs + [x]
  }

  /** Toggling the same id twice restores which ids are present. */
  lemma ToggleTwice<T(!new)>(xs: seq<T>, x: T)
    ensures forall y :: y in Toggle(Toggle(xs, x), x) <==> y in xs
  {
  }

  /** Toggling different ids commutes as far as membership is concerned. */
  lemma ToggleCommutes<T(!new)>(xs: seq<T>, x: T, y: T)
    ensures forall z :: z in Toggle(Toggle(xs, x), y) <==> z in Toggle(Toggle(xs, y), x)
  {
  }
}

=== FILE: lookup.dfy ===
/**
 * The case-insensitive field lookups the components use on API rows whose
 * field names come back in inconsistent case. All of them are built on
 * `Object.keys(obj).find(k => k.toLowerCase() === key.toLowerCase())`; they
 * differ in whether an exact key wins first and in what they return when
 * nothing is found.
 */
module Lookup {
  import opened Wrappers
  import opened Text
  import opened Json

  /** Field `j` is the first whose name equals `key` ignoring case. */
  predicate FirstCIMatch(fs: seq<(string, JValue)>, key: string, j: int) {
    0 <= j < |fs| && Lower(fs[j].0) == Lower(key)
    && forall j' :: 0 <= j' < j ==> Lower(fs[j'].0) != Lower(key)
  }

  predicate NoCIMatch(fs: seq<(string, JValue)>, key: string) {
    forall j :: 0 <= j < |fs| ==> Lower(fs[j].0) != Lower(key)
  }

  /** Index of the first field matching `key` ignoring case, or `|fs|`. */
  function CIIndex(fs: seq<(string, JValue)>, key: string): (i: nat)
    ensures i <= |fs|
    ensures i < |fs| ==> FirstCIMatch(fs, key, i)
    ensures i == |fs| ==> NoCIMatch(fs, key)
    decreases |fs|
  {
    if fs == [] then 0
    else if Lower(fs[0].0) == Lower(key) then 0
    else 1 + CIIndex(fs[1..], key)
  }

  /**
   * `found ? obj[found] : <absent>` after the case-insensitive `find`: the value of
   * the first matching field, absent when no field matches or the matching name is
   * the (falsy) empty string.
   */
  function CIValue(obj: JValue, key: string): (r: Option<JValue>)
    ensures r.Some? ==> obj.JObj? && exists j :: FirstCIMatch(obj.fields, key, j) && obj.fields[j].1 == r.value
    ensures forall j :: obj.JObj? && FirstCIMatch(obj.fields, key, j) && obj.fields[j].0 != "" ==> r == Some(obj.fields[j].1)
    ensures !obj.JObj? || NoCIMatch(obj.fields, key) ==> r.None?
  {
    if obj.JObj? then
      var i := CIIndex(obj.fields, key);
      if i < |obj.fields| && obj.fields[i].0 != "" then Some(obj.fields[i].1) else None
    else None
  }

  /**
   * `getValue` of the results grid and of the sworn-declaration modal:
   * no preference for the exact key, `null` for a falsy object or no match.
   */
  function GetCI(obj: JValue, key: string): (r: JValue)
    ensures !Truthy(obj) ==> r == JNull
    ensures Truthy(obj) ==> r == CIValue(obj, key).GetOr(JNull)
  {
    if !Truthy(obj) then JNull else CIValue(obj, key).GetOr(JNull)
  }

  /**
   * `getValue` of the report-URL services: an own property `key` that is not
   * `undefined` wins, even when it is `null`; otherwise the case-insensitive
   * match; otherwise `null`.
   */
  function GetPreferExact(obj: JValue, key: string): (r: JValue)
    ensures !Truthy(obj) ==> r == JNull
    ensures Truthy(obj) && Prop(obj, key).Some? ==> r == Prop(obj, key).value
    ensures Truthy(obj) && Prop(obj, key).None? ==> r == CIValue(obj, key).GetOr(JNull)
  {
    if !Truthy(obj) then JNull
    else if Prop(obj, key).Some? then Prop(obj, key).value
    else CIValue(obj, key).GetOr(JNull)
  }

  /**
   * `getValue` of the vehicle-tax modal: the exact key when its value is neither
   * `undefined` nor `null`; otherwise the FIRST case-insensitive match, only if
   * its value is not `null`; otherwise the placeholder '-'.
   */
  function GetOrDash(obj: JValue, key: string): (r: JValue)
    ensures r != JNull
    ensures !Truthy(obj) ==> r == JStr("-")
    ensures Truthy(obj) && Prop(obj, key).Some? && Prop(obj, key).value != JNull ==> r == Prop(obj, key).value
  {
    if !Truthy(obj) then JStr("-")
    else if Prop(obj, key).Some? && Prop(obj, key).value != JNull then Prop(obj, key).value
    else
      var m := CIValue(obj, key);
      if m.Some? && m.value != JNull then m.value else JStr("-")
  }

  /** `getCaseInsensitive` of the per-entity modal: '' for a falsy object, '-' when no field matches. */
  function GetCaseInsensitive(obj: JValue, key: string): (r: JValue)
    ensures !Truthy(obj) ==> r == JStr("")
    ensures Truthy(obj) && CIValue(obj, key).None? ==> r == JStr("-")
    ensures Truthy(obj) && CIValue(obj, key).Some? ==> r == CIValue(obj, key).value
  {
    if !Truthy(obj) then JStr("") else CIValue(obj, key).GetOr(JStr("-"))
  }

  // ---------------------------------------------------------------------------
  // How the helpers relate
  // ---------------------------------------------------------------------------

  /** Without an exact own property the services' lookup and the grid's lookup agree. */
  lemma PreferExactAgreesWithoutExactKey(obj: JValue, key: string)
    requires Prop(obj, key).None?
    ensures GetPreferExact(obj, key) == GetCI(obj, key)
  {
  }

  /**
   * When two fields differ only in case, the grid's lookup returns the earlier one
   * while the services' lookup returns the exact one.
   */
  lemma PreferExactDiffersOnCaseVariants(a: JValue, b: JValue)
    requires a != b
    ensures GetCI(JObj([("IDE_DEC", a), ("ide_dec", b)]), "ide_dec") == a
    ensures GetPreferExact(JObj([("IDE_DEC", a), ("ide_dec", b)]), "ide_dec") == b
  {
    var fs := [("IDE_DEC", a), ("ide_dec", b)];
    assert Lower("IDE_DEC") == "ide_dec";
    assert Lower("ide_dec") == "ide_dec";
    assert FirstCIMatch(fs, "ide_dec", 0);
    assert KeyIndex(fs, "ide_dec") == 1;
  }

  /** The vehicle-tax lookup is the grid's lookup with the exact key first and '-' for `null`. */
  lemma GetOrDashViaGetCI(obj: JValue, key: string)
    requires Truthy(obj)
    ensures Prop(obj, key).Some? && Prop(obj, key).value != JNull ==> GetOrDash(obj, key) == Prop(obj, key).value
    ensures !(Prop(obj, key).Some? && Prop(obj, key).value != JNull) ==>
              GetOrDash(obj, key) == (if GetCI(obj, key) != JNull then GetCI(obj, key) else JStr("-"))
  {
  }

  /**
   * The vehicle-tax lookup does not search past the first case-insensitive match:
   * a `null` there hides a later non-null variant.
   */
  lemma GetOrDashStopsAtFirstMatch(x: JValue)
    requires x != JNull
    ensures GetOrDash(JObj([("imp_deu", JNull), ("IMP_DEU", x)]), "imp_deu") == JStr("-")
    ensures GetOrDash(JObj([("IMP_DEU", x), ("imp_deu", JNull)]), "imp_deu") == x
  {
    var f1 := [("imp_deu", JNull), ("IMP_DEU", x)];
    var f2 := [("IMP_DEU", x), ("imp_deu", JNull)];
    assert Lower("IMP_DEU") == "imp_deu";
    assert Lower("imp_deu") == "imp_deu";
    assert FirstCIMatch(f1, "imp_deu", 0);
    assert FirstCIMatch(f2, "imp_deu", 0);
    assert KeyIndex(f2, "imp_deu") == 1;
  }

  /** The per-entity lookup reports '-' exactly when the grid's lookup finds no field. */
  lemma CaseInsensitiveDashIffNoField(obj: JValue, key: string)
    requires Truthy(obj)
    ensures CIValue(obj, key).None? ==> GetCaseInsensitive(obj, key) == JStr("-")
    ensures CIValue(obj, key).Some? ==> GetCaseInsensitive(obj, key) == GetCI(obj, key)
  {
  }
}

=== FILE: numbers.dfy ===
/**
 * Numeric conversions of the JavaScript runtime used on amounts and flags.
 * Amounts are exact reals; `NaN` is kept as a value of its own because the
 * totals of some modals propagate it and others map it to zero.
 */
module Numbers {
  import opened Wrappers
  import opened Text

  /** A JavaScript number as the dashboard can observe it: finite, or `NaN`. */
  datatype Num = Fin(r: real) | NaN

  /** `a + b` with `NaN` absorbing. */
  function Plus(a: Num, b: Num): (r: Num)
    ensures r.NaN? <==> a.NaN? || b.NaN?
  {
    if a.Fin? && b.Fin? then Fin(a.r + b.r) else NaN
  }

  /** `x || 0` applied to a number: `NaN` and `0` both become `0`. */
  function OrZero(x: Num): (r: real)
    ensures x.Fin? ==> r == x.r
    ensures x.NaN? ==> r == 0.0
  {
    if x.Fin? then x.r else 0.0
  }

  /** `xs.reduce((s, x) => s + x, 0)` over reals, folded from the left as `reduce` does. */
  function SumReal(xs: seq<real>): real
    decreases |xs|
  {
    if xs == [] then 0.0 else SumReal(xs[..|xs| - 1]) + xs[|xs| - 1]
  }

  lemma {:induction false} SumRealAppend(xs: seq<real>, ys: seq<real>)
    ensures SumReal(xs + ys) == SumReal(xs) + SumReal(ys)
    decreases |ys|
  {
    if ys != [] {
      var zs := xs + ys;
      assert zs[..|zs| - 1] == xs + ys[..|ys| - 1];
      assert zs[|zs| - 1] == ys[|ys| - 1];
      SumRealAppend(xs, ys[..|ys| - 1]);
    } else {
      assert xs + ys == xs;
    }
  }

  /** `xs.reduce((s, x) => s + x, 0)` over numbers that may be `NaN`. */
  function SumNum(xs: seq<Num>): Num
    decreases |xs|
  {
    if xs == [] then Fin(0.0) else Plus(SumNum(xs[..|xs| - 1]), xs[|xs| - 1])
  }

  /** The finite parts of a sequence of numbers. */
  function Reals(xs: seq<Num>): (rs: seq<real>)
    ensures |rs| == |xs|
    ensures forall i :: 0 <= i < |xs| ==> rs[i] == OrZero(xs[i])
  {
    seq(|xs|, i requires 0 <= i < |xs| => OrZero(xs[i]))
  }

  /** A `NaN`-propagating sum is `NaN` exactly when one summand is, and otherwise the plain sum. */
  lemma {:induction false} SumNumSpec(xs: seq<Num>)
    ensures SumNum(xs).NaN? <==> exists i :: 0 <= i < |xs| && xs[i].NaN?
    ensures SumNum(xs).Fin? ==> SumNum(xs).r == SumReal(Reals(xs))
    decreases |xs|
  {
    if xs != [] {
      var init := xs[..|xs| - 1];
      SumNumSpec(init);
      assert Reals(xs)[..|xs| - 1] == Reals(init);
      if exists i :: 0 <= i < |init| && init[i].NaN? {
        var i :| 0 <= i < |init| && init[i].NaN?;
        assert xs[i].NaN?;
      }
      if exists i :: 0 <= i < |xs| && xs[i].NaN? {
        var i :| 0 <= i < |xs| && xs[i].NaN?;
        if i < |init| { assert init[i].NaN?; }
      }
    }
  }

  // ---------------------------------------------------------------------------
  // Decimal literals
  // ---------------------------------------------------------------------------

  function DigitVal(c: char): (d: nat)
    requires IsDigit(c)
    ensures d < 10
  {
    c as int - '0' as int
  }

  function DigitChar(d: nat): (c: char)
    requires d < 10
    ensures IsDigit(c) && DigitVal(c) == d
  {
    ('0' as int + d) as char
  }

  /** The value of a string of decimal digits, most significant first. */
  function DigitsValue(s: string): nat
    requires AllDigits(s)
    decreases |s|
  {
    if s == [] then 0 else DigitsValue(s[..|s| - 1]) * 10 + DigitVal(s[|s| - 1])
  }

  /** The length of the longest all-digit prefix. */
  function LeadingDigits(s: string): (k: nat)
    ensures k <= |s| && AllDigits(s[..k])
    ensures k < |s| ==> !IsDigit(s[k])
    decreases |s|
  {
    if s == [] || !IsDigit(s[0]) then 0
    else
      var k := 1 + LeadingDigits(s[1..]);
      assert s[..k] == [s[0]] + s[1..][..k - 1];
      k
  }

  function Pow10(n: nat): (p: nat)
    ensures p >= 1
  {
    if n == 0 then 1 else 10 * Pow10(n - 1)
  }

  /**
   * The longest prefix of `s` of the form `digits [. digits]` with at least one
   * digit: its value and its length. `None` when `s` does not start with one.
   * Exponents (`1e3`) and `Infinity` are not recognised.
   */
  function ScanUnsigned(s: string): (r: Option<(real, nat)>)
    ensures r.Some? ==> 0 < r.value.1 <= |s| && r.value.0 >= 0.0
    ensures r.None? <==> (LeadingDigits(s) == 0 && (|s| < 2 || s[0] != '.' || !IsDigit(s[1])))
  {
    var n1 := LeadingDigits(s);
    if n1 < |s| && s[n1] == '.' then
      var rest := s[n1 + 1..];
      var n2 := LeadingDigits(rest);
      if n1 + n2 == 0 then None
      else Some((DigitsValue(s[..n1]) as real + DigitsValue(rest[..n2]) as real / Pow10(n2) as real, n1 + 1 + n2))
    else if n1 == 0 then None
    else Some((DigitsValue(s[..n1]) as real, n1))
  }

  /** An optionally signed decimal prefix: its value and its length. */
  function ScanSigned(s: string): (r: Option<(real, nat)>)
    ensures r.Some? ==> 0 < r.value.1 <= |s|
  {
    if s != [] && (s[0] == '-' || s[0] == '+') then
      match ScanUnsigned(s[1..])
      case None => None
      case Some((v, n)) => Some((if s[0] == '-' then -v else v, n + 1))
    else ScanUnsigned(s)
  }

  /** `parseFloat(s)`: skip leading whitespace, read the longest decimal prefix, ignore the rest. */
  function ParseDecimal(s: string): (r: Num)
  {
    match ScanSigned(TrimStart(s))
    case None => NaN
    case Some((v, _)) => Fin(v)
  }

  /** A string starting with a character that cannot begin a number does not parse. */
  lemma ParseDecimalNoStart(s: string)
    requires s != [] && !IsSpace(s[0]) && !IsDigit(s[0]) && s[0] != '.' && s[0] != '-' && s[0] != '+'
    ensures ParseDecimal(s) == NaN
  {
    assert TrimStart(s) == s;
    assert LeadingDigits(s) == 0;
    assert ScanUnsigned(s) == None;
  }

  /** A lone sign does not parse. */
  lemma ParseDecimalLoneSign(c: char)
    requires c == '-' || c == '+'
    ensures ParseDecimal([c]) == NaN
  {
    assert !IsSpace(c);
    assert TrimStart([c]) == [c];
    assert [c][1..] == [];
    assert ScanUnsigned([]) == None;
  }

  /** `Number(s)`: the whole trimmed string must be a decimal literal; the empty string is `0`. */
  function ToNumber(s: string): (r: Num)
    ensures Trim(s) == [] ==> r == Fin(0.0)
  {
    var t := Trim(s);
    if t == [] then Fin(0.0)
    else match ScanSigned(t)
      case Some((v, n)) => if n == |t| then Fin(v) else NaN
      case None => NaN
  }

  // ---------------------------------------------------------------------------
  // Integers printed as JavaScript prints them, and read back
  // ---------------------------------------------------------------------------

  function NatToString(n: nat): (s: string)
    ensures |s| >= 1 && AllDigits(s)
    decreases n
  {
    if n < 10 then [DigitChar(n)] else NatToString(n / 10) + [DigitChar(n % 10)]
  }

  /** `String(n)` for an integer `n`. */
  function IntToString(n: int): string {
    if n < 0 then "-" + NatToString(-n) else NatToString(n)
  }

  lemma {:induction false} NatToStringValue(n: nat)
    ensures DigitsValue(NatToString(n)) == n
    decreases n
  {
    if n >= 10 {
      var s := NatToString(n);
      NatToStringValue(n / 10);
      assert s[..|s| - 1] == NatToString(n / 10);
    }
  }

  lemma ScanAllDigits(s: string)
    requires |s| >= 1 && AllDigits(s)
    ensures ScanUnsigned(s) == Some((DigitsValue(s) as real, |s|))
  {
    assert LeadingDigits(s) == |s|;
    assert s[..|s|] == s;
  }

  /** `parseFloat(String(n))` and `Number(String(n))` give back the integer `n`. */
  lemma IntRoundTrip(n: int)
    ensures ParseDecimal(IntToString(n)) == Fin(n as real)
    ensures ToNumber(IntToString(n)) == Fin(n as real)
  {
    var s := IntToString(n);
    var m: nat := if n < 0 then -n else n;
    var d := NatToString(m);
    NatToStringValue(m);
    ScanAllDigits(d);
    assert !IsSpace(s[0]);
    assert !IsSpace(s[|s| - 1]) by {
      assert s[|s| - 1] == d[|d| - 1];
    }
    assert TrimStart(s) == s;
    assert TrimEnd(s) == s;
    if n < 0 {
      assert s[1..] == d;
    } else {
      assert s[0] != '-' && s[0] != '+';
    }
  }

  /** The text '1' reads as 1 under both `Number` and `parseFloat`. */
  lemma OneText()
    ensures IntToString(1) == "1"
    ensures ToNumber("1") == Fin(1.0) && ParseDecimal("1") == Fin(1.0)
  {
    IntRoundTrip(1);
  }

  /** Digits stop at a character that is not a digit, whatever follows it. */
  lemma {:induction false} LeadingDigitsAppend(t: string, w: string)
    requires w == [] || !IsDigit(w[0])
    ensures LeadingDigits(t + w) == LeadingDigits(t)
    decreases |t|
  {
    if t != [] && IsDigit(t[0]) {
      assert (t + w)[1..] == t[1..] + w;
      LeadingDigitsAppend(t[1..], w);
    }
  }

  lemma SpaceEndsLiteral(w: string)
    requires w == [] || IsSpace(w[0])
    ensures w == [] || (!IsDigit(w[0]) && w[0] != '.')
  {
  }

  /** A decimal literal that fills `t` still reads the same when whitespace follows it. */
  lemma ScanUnsignedAppend(t: string, w: string)
    requires ScanUnsigned(t).Some? && ScanUnsigned(t).value.1 == |t|
    requires w == [] || IsSpace(w[0])
    ensures ScanUnsigned(t + w) == ScanUnsigned(t)
  {
    SpaceEndsLiteral(w);
    var u := t + w;
    LeadingDigitsAppend(t, w);
    var n1 := LeadingDigits(t);
    assert u[..n1] == t[..n1];
    if n1 < |t| && t[n1] == '.' {
      ScanUnsignedDot(t, w, n1);
    } else {
      assert n1 == |t|;
      assert n1 < |u| ==> u[n1] == w[0];
    }
  }

  lemma ScanUnsignedDot(t: string, w: string, n1: nat)
    requires n1 == LeadingDigits(t) && n1 < |t| && t[n1] == '.'
    requires LeadingDigits(t + w) == n1
    requires ScanUnsigned(t).Some?
    requires w == [] || !IsDigit(w[0])
    ensures ScanUnsigned(t + w) == ScanUnsigned(t)
  {
    var u := t + w;
    var n2 := LeadingDigits(t[n1 + 1..]);
    FractionAppend(t, w, n1);
    assert u[..n1] == t[..n1] && u[n1] == '.';
    SameDotLiteral(t, u, n1, n2);
  }

  /** The fraction digits after the '.' at `n1` are unchanged by appending `w`. */
  lemma FractionAppend(t: string, w: string, n1: nat)
    requires n1 < |t|
    requires w == [] || !IsDigit(w[0])
    ensures LeadingDigits((t + w)[n1 + 1..]) == LeadingDigits(t[n1 + 1..])
    ensures (t + w)[n1 + 1..][..LeadingDigits(t[n1 + 1..])] == t[n1 + 1..][..LeadingDigits(t[n1 + 1..])]
  {
    var rest := t[n1 + 1..];
    assert (t + w)[n1 + 1..] == rest + w;
    LeadingDigitsAppend(rest, w);
    var n2 := LeadingDigits(rest);
    assert (rest + w)[..n2] == rest[..n2];
  }

  /** Two texts with the same integer digits, a '.', and the same fraction digits read alike. */
  lemma SameDotLiteral(t: string, u: string, n1: nat, n2: nat)
    requires n1 == LeadingDigits(t) == LeadingDigits(u) && n1 < |t| && n1 < |u| && t[n1] == '.' && u[n1] == '.'
    requires n2 == LeadingDigits(t[n1 + 1..]) == LeadingDigits(u[n1 + 1..])
    requires t[..n1] == u[..n1] && t[n1 + 1..][..n2] == u[n1 + 1..][..n2]
    ensures ScanUnsigned(t) == ScanUnsigned(u)
  {
  }

  lemma ScanSignedAppend(t: string, w: string)
    requires ScanSigned(t).Some? && ScanSigned(t).value.1 == |t|
    requires w == [] || IsSpace(w[0])
    ensures ScanSigned(t + w) == ScanSigned(t)
  {
    var u := t + w;
    assert u[0] == t[0];
    if t[0] == '-' || t[0] == '+' {
      assert u[1..] == t[1..] + w;
      ScanUnsignedAppend(t[1..], w);
      assert ScanUnsigned(u[1..]) == ScanUnsigned(t[1..]);
    } else {
      ScanUnsignedAppend(t, w);
    }
  }

  /**
   * `Number(s)` and `parseFloat(s)` agree on every text that `Number` reads as a
   * finite value, except blank text, which `Number` reads as 0 and `parseFloat`
   * as `NaN`; `parseFloat` alone accepts trailing junk ('1x').
   */
  lemma {:induction false} NumberAgreesWithParseFloat(s: string)
    ensures ToNumber(s).Fin? && Trim(s) != [] ==> ParseDecimal(s) == ToNumber(s)
    ensures ToNumber("") == Fin(0.0) && ParseDecimal("") == NaN
  {
    assert ScanUnsigned("") == None;
    if ToNumber(s).Fin? && Trim(s) != [] {
      var u := TrimStart(s);
      var t := TrimEnd(u);
      var w := u[|t|..];
      assert u == t + w;
      assert w == [] || IsSpace(w[0]);
      ScanSignedAppend(t, w);
    }
  }
}

=== FILE: passwords.dfy ===
/**
 * Password handling: the change-password form (validation, request, and the
 * patch of the stored user), the reset-password form reached from the
 * recovery e-mail, and the dashboard alert that asks for a change.
 */
module Passwords {
  import opened Wrappers
  import opened Text
  import opened Numbers
  import opened Json
  import opened Storage
  import Auth

  /** The minimum length, in UTF-16 code units as `.length` counts them. */
  const MinLength: nat := 6

  /**
   * The shared client-side check: a mismatch is reported first, then a new
   * password shorter than six. `None` lets the request go out.
   */
  function Check(newPw: string, confirm: string, mismatch: string, tooShort: string): (e: Option<string>)
    ensures newPw != confirm ==> e == Some(mismatch)
    ensures newPw == confirm && Utf16Length(newPw) < MinLength ==> e == Some(tooShort)
    ensures e.None? <==> newPw == confirm && Utf16Length(newPw) >= MinLength
  {
    if newPw != confirm then Some(mismatch)
    else if Utf16Length(newPw) < MinLength then Some(tooShort)
    else None
  }

  /** A short password that also mismatches is reported as a mismatch. */
  lemma MismatchReportedFirst(newPw: string, confirm: string, mismatch: string, tooShort: string)
    requires newPw != confirm && Utf16Length(newPw) < MinLength
    ensures Check(newPw, confirm, mismatch, tooShort) == Some(mismatch)
  {
  }

  /** The form fields, by their `name` attribute. */
  datatype PwField = Current | New | Confirm

  datatype Passwords = Passwords(current: string, newPw: string, confirm: string)

  function Get(p: Passwords, n: PwField): string {
    match n
    case Current => p.current
    case New => p.newPw
    case Confirm => p.confirm
  }

  /** `{ ...formData, [name]: value }`. */
  function Put(p: Passwords, n: PwField, value: string): (q: Passwords)
    ensures Get(q, n) == value
    ensures forall m :: m != n ==> Get(q, m) == Get(p, m)
  {
    match n
    case Current => p.(current := value)
    case New => p.(newPw := value)
    case Confirm => p.(confirm := value)
  }

  // ---------------------------------------------------------------------------
  // Change password
  // ---------------------------------------------------------------------------

  const ChangeMismatch: string := "Las contraseñas nuevas no coinciden."
  const ChangeTooShort: string := "La nueva contraseña debe tener al menos 6 caracteres."
  const ChangeDone: string := "Contraseña actualizada correctamente."

  datatype ChangeForm = ChangeForm(fields: Passwords, error: string, success: string, loading: bool)

  /** `handleChange`: only the named field changes, and the error is cleared. */
  function EditChange(f: ChangeForm, n: PwField, value: string): (g: ChangeForm)
    ensures Get(g.fields, n) == value && g.error == ""
    ensures forall m :: m != n ==> Get(g.fields, m) == Get(f.fields, m)
    ensures g.success == f.success && g.loading == f.loading
  {
    f.(fields := Put(f.fields, n, value), error := "")
  }

  /** `{ ...user, flg_cam_psw: 1, fch_cam_psw: <now as ISO text> }`. */
  function Patch(user: JValue, nowIso: string): (u: JValue)
    ensures Prop(u, "flg_cam_psw") == Some(Int(1))
    ensures Prop(u, "fch_cam_psw") == Some(JStr(nowIso))
    ensures user.JObj? ==> forall k :: k != "flg_cam_psw" && k != "fch_cam_psw" ==> Prop(u, k) == Prop(user, k)
  {
    SetField(SetField(user, "flg_cam_psw", Int(1)), "fch_cam_psw", JStr(nowIso))
  }

  /** The form and the browser storage after a submit, and whether the request went out. */
  datatype ChangeOutcome = ChangeOutcome(form: ChangeForm, store: Store, requested: bool)

  /**
   * `handleSubmit` of the change-password page. `user` is the stored user as
   * parsed when the page rendered ('{}' when absent); a `null` user throws when
   * the request body reads its e-mail. Only a successful request writes the
   * patched user back; the error of a failure is the thrown message as is.
   */
  function SubmitChange(f: ChangeForm, user: JValue, st: Store, reply: Auth.Reply, engine: Auth.Engine,
                        nowIso: string, serialize: JValue -> string): (o: ChangeOutcome)
    ensures o.requested <==> Check(f.fields.newPw, f.fields.confirm, ChangeMismatch, ChangeTooShort).None? && user != JNull
    ensures !o.requested ==> o.store == st && o.form.loading == f.loading
    ensures Check(f.fields.newPw, f.fields.confirm, ChangeMismatch, ChangeTooShort).Some? ==>
              o.form.error == Check(f.fields.newPw, f.fields.confirm, ChangeMismatch, ChangeTooShort).value
    ensures o.requested && Auth.Call(reply, Auth.ChangeError, engine).Ok? ==>
              o.store == SetItem(st, "user", serialize(Patch(user, nowIso))) && o.form.success == ChangeDone
    ensures o.requested && Auth.Call(reply, Auth.ChangeError, engine).Err? ==>
              o.store == st && o.form.error == Auth.Call(reply, Auth.ChangeError, engine).message
    ensures o.requested ==> !o.form.loading
    ensures o.form.fields == f.fields
  {
    match Check(f.fields.newPw, f.fields.confirm, ChangeMismatch, ChangeTooShort)
    case Some(e) => ChangeOutcome(f.(error := e), st, false)
    case None =>
      if user == JNull then ChangeOutcome(f.(error := engine.nullRead), st, false)
      else
        match Auth.Call(reply, Auth.ChangeError, engine)
        case Ok(_) =>
          ChangeOutcome(f.(success := ChangeDone, loading := false), SetItem(st, "user", serialize(Patch(user, nowIso))), true)
        case Err(m) =>
          ChangeOutcome(f.(error := m, loading := false), st, true)
  }

  /** A refused form never touches storage, whatever the server would have answered. */
  lemma RefusedChangeKeepsStore(f: ChangeForm, user: JValue, st: Store, r1: Auth.Reply, r2: Auth.Reply, engine: Auth.Engine,
                                nowIso: string, serialize: JValue -> string)
    requires Check(f.fields.newPw, f.fields.confirm, ChangeMismatch, ChangeTooShort).Some?
    ensures SubmitChange(f, user, st, r1, engine, nowIso, serialize) == SubmitChange(f, user, st, r2, engine, nowIso, serialize)
    ensures SubmitChange(f, user, st, r1, engine, nowIso, serialize).store == st
  {
  }

  // ---------------------------------------------------------------------------
  // Reset password
  // ---------------------------------------------------------------------------

  const ResetMismatch: string := "Las contraseñas no coinciden."
  const ResetTooShort: string := "La contraseña debe tener al menos 6 caracteres."
  const ResetFailed: string := "Error al restablecer contraseña."

  /**
   * The reset form. `success` holds `response.message`, which may be missing
   * (shown as `null` here: both are falsy and render nothing).
   */
  datatype ResetForm = ResetForm(fields: Passwords, error: string, success: JValue, loading: bool)

  /** `handleChange` of the reset form. */
  function EditReset(f: ResetForm, n: PwField, value: string): (g: ResetForm)
    ensures Get(g.fields, n) == value && g.error == ""
    ensures forall m :: m != n ==> Get(g.fields, m) == Get(f.fields, m)
    ensures g.success == f.success && g.loading == f.loading
  {
    f.(fields := Put(f.fields, n, value), error := "")
  }

  /** `disabled={isLoading || success}`. */
  predicate ResetDisabled(f: ResetForm) {
    f.loading || Truthy(f.success)
  }

  /**
   * `handleSubmit` of the reset form: the check, then `resetPassword`. Success
   * stores the reply's `message`; a `null` reply throws on that read. A failure
   * shows its message, or the fixed fallback when the message is empty.
   */
  function SubmitReset(f: ResetForm, reply: Auth.Reply, engine: Auth.Engine): (r: (ResetForm, bool))
    ensures r.1 <==> Check(f.fields.newPw, f.fields.confirm, ResetMismatch, ResetTooShort).None?
    ensures !r.1 ==> r.0 == f.(error := Check(f.fields.newPw, f.fields.confirm, ResetMismatch, ResetTooShort).value)
    ensures r.1 ==> !r.0.loading && r.0.fields == f.fields
    ensures r.1 && Auth.Call(reply, Auth.ResetError, engine).Ok? && Auth.Call(reply, Auth.ResetError, engine).value != JNull ==>
              r.0.success == PropOrNull(Auth.Call(reply, Auth.ResetError, engine).value, "message") && r.0.error == f.error
    ensures r.1 && Auth.Call(reply, Auth.ResetError, engine).Err? ==>
              r.0.error == (var m := Auth.Call(reply, Auth.ResetError, engine).message; if m != "" then m else ResetFailed)
              && r.0.success == f.success
    ensures r.1 && Auth.Call(reply, Auth.ResetError, engine) == Ok(JNull) ==>
              r.0.error == (if engine.nullRead != "" then engine.nullRead else ResetFailed) && r.0.success == f.success
    ensures r.1 && r.0.error != f.error ==> r.0.error != ""
  {
    match Check(f.fields.newPw, f.fields.confirm, ResetMismatch, ResetTooShort)
    case Some(e) => (f.(error := e), false)
    case None =>
      var g := match Auth.Call(reply, Auth.ResetError, engine)
        case Ok(d) =>
          if d == JNull then f.(error := if engine.nullRead != "" then engine.nullRead else ResetFailed)
          else f.(success := PropOrNull(d, "message"))
        case Err(m) => f.(error := if m != "" then m else ResetFailed);
      (g.(loading := false), true)
  }

  /** Once a truthy success message is stored the button stays disabled, and editing does not re-enable it. */
  lemma SuccessKeepsResetDisabled(f: ResetForm, n: PwField, value: string)
    requires Truthy(f.success)
    ensures ResetDisabled(f) && ResetDisabled(EditReset(f, n, value))
  {
  }

  /** Whatever the form held before, a submitted reset that fails ends with a non-empty error. */
  lemma ResetFailureShowsError(f: ResetForm, reply: Auth.Reply, engine: Auth.Engine)
    requires Check(f.fields.newPw, f.fields.confirm, ResetMismatch, ResetTooShort).None?
    requires Auth.Call(reply, Auth.ResetError, engine).Err? || Auth.Call(reply, Auth.ResetError, engine) == Ok(JNull)
    ensures SubmitReset(f, reply, engine).0.error != ""
  {
  }

  /** A failure with an empty message shows the fixed fallback. */
  lemma ResetFailureFallback(f: ResetForm, engine: Auth.Engine)
    requires Check(f.fields.newPw, f.fields.confirm, ResetMismatch, ResetTooShort).None?
    ensures SubmitReset(f, Auth.Threw(""), engine).0.error == ResetFailed
  {
  }

  // ---------------------------------------------------------------------------
  // Password alert
  // ---------------------------------------------------------------------------

  /** Milliseconds in a day. */
  const DayMs: nat := 86400000
  /** Days after which a periodic change is requested. */
  const MaxAgeDays: nat := 60

  /** What the dashboard shows above the search. */
  datatype Alert = NoAlert | FirstChange | Periodic(days: nat)

  /** `Math.ceil(a / d)` for a non-negative integer `a`. */
  function CeilDiv(a: nat, d: nat): (q: nat)
    requires d > 0
    ensures q * d >= a && (q == 0 || (q - 1) * d < a)
  {
    (a + d - 1) / d
  }

  /** `Math.ceil(Math.abs(now - last) / DayMs)`, with both instants in milliseconds. */
  function AgeDays(now: int, last: int): nat {
    CeilDiv(if now >= last then now - last else last - now, DayMs)
  }

  /** More than sixty (rounded-up) days apart means strictly more than sixty whole days of milliseconds. */
  lemma AgeExceedsIff(now: int, last: int)
    ensures AgeDays(now, last) > MaxAgeDays <==> (if now >= last then now - last else last - now) > MaxAgeDays * DayMs
  {
    var a := if now >= last then now - last else last - now;
    var q := AgeDays(now, last);
    if q > MaxAgeDays {
      assert (q - 1) * DayMs < a;
      assert (q - 1) * DayMs >= MaxAgeDays * DayMs;
    }
    if a > MaxAgeDays * DayMs {
      assert q * DayMs >= a;
    }
  }

  /** `user.flg_cam_psw === 0`: only the number zero, not '0' and not a missing flag. */
  predicate NeedsFirstChange(user: JValue) {
    StrictEq(PropOrNull(user, "flg_cam_psw"), Int(0))
  }

  /**
   * The age of the last change when `fch_cam_psw` is truthy and a valid date;
   * `parseDate` is `new Date(...)` in milliseconds, `None` for an invalid date
   * (whose `NaN` age never exceeds sixty).
   */
  function LastChangeAge(user: JValue, parseDate: JValue -> Option<int>, now: int): (d: Option<nat>)
    ensures d.Some? <==> Truthy(PropOrNull(user, "fch_cam_psw")) && parseDate(PropOrNull(user, "fch_cam_psw")).Some?
    ensures d.Some? ==> d.value == AgeDays(now, parseDate(PropOrNull(user, "fch_cam_psw")).value)
  {
    var v := PropOrNull(user, "fch_cam_psw");
    if Truthy(v) && parseDate(v).Some? then Some(AgeDays(now, parseDate(v).value)) else None
  }

  /** `PasswordAlert`: nothing for a falsy user; the first-change notice wins over the periodic one. */
  function AlertFor(user: JValue, parseDate: JValue -> Option<int>, now: int): (a: Alert)
    ensures !Truthy(user) ==> a == NoAlert
    ensures Truthy(user) && NeedsFirstChange(user) ==> a == FirstChange
    ensures a.Periodic? ==> !NeedsFirstChange(user) && a.days > MaxAgeDays
                            && LastChangeAge(user, parseDate, now) == Some(a.days)
    ensures a == NoAlert <==> (!Truthy(user) ||
              (!NeedsFirstChange(user) && !(LastChangeAge(user, parseDate, now).Some? && LastChangeAge(user, parseDate, now).value > MaxAgeDays)))
  {
    if !Truthy(user) then NoAlert
    else if NeedsFirstChange(user) then FirstChange
    else
      var age := LastChangeAge(user, parseDate, now);
      if age.Some? && age.value > MaxAgeDays then Periodic(age.value) else NoAlert
  }

  /** The text '0' does not ask for a first change. */
  lemma TextZeroIsNotFirstChange()
    ensures !NeedsFirstChange(JObj([("flg_cam_psw", JStr("0"))]))
  {
    PropOfLiteral([("flg_cam_psw", JStr("0"))], 0);
  }

  /** A user without the flag gets no first-change notice. */
  lemma MissingFlagIsNotFirstChange()
    ensures !NeedsFirstChange(JObj([]))
  {
  }

  /** The number zero asks for a first change. */
  lemma NumberZeroIsFirstChange()
    ensures NeedsFirstChange(JObj([("flg_cam_psw", Int(0))]))
  {
    PropOfLiteral([("flg_cam_psw", Int(0))], 0);
    assert StrictEq(Int(0), Int(0)) by {
      IntRoundTrip(0);
    }
  }

  /** A last change in the future counts by its distance: the age is symmetric. */
  lemma AgeIsSymmetric(now: int, last: int)
    ensures AgeDays(now, last) == AgeDays(last, now)
  {
  }

  /** 1 and 0 are not strictly equal. */
  lemma OneIsNotZero()
    ensures !StrictEq(Int(1), Int(0))
  {
    IntRoundTrip(1);
    IntRoundTrip(0);
  }

  /** A patched user has the flag 1, so no first change is asked for. */
  lemma PatchedNeedsNoFirstChange(user: JValue, nowIso: string)
    ensures !NeedsFirstChange(Patch(user, nowIso))
  {
    assert PropOrNull(Patch(user, nowIso), "flg_cam_psw") == Int(1);
    OneIsNotZero();
  }

  /** A patched user's last change, read back as `now`, is zero days old. */
  lemma PatchedAgeIsZero(user: JValue, nowIso: string, now: int, parseDate: JValue -> Option<int>)
    requires parseDate(JStr(nowIso)) == Some(now)
    requires nowIso != ""
    ensures LastChangeAge(Patch(user, nowIso), parseDate, now) == Some(0)
  {
    assert PropOrNull(Patch(user, nowIso), "fch_cam_psw") == JStr(nowIso);
    assert AgeDays(now, now) == 0;
  }

  /**
   * After a successful change-password submit at instant `now` (whose ISO text
   * the date parser reads back as `now`), the stored user raises no alert.
   */
  lemma NoAlertAfterChange(user: JValue, nowIso: string, now: int, parseDate: JValue -> Option<int>)
    requires parseDate(JStr(nowIso)) == Some(now)
    requires nowIso != ""
    ensures AlertFor(Patch(user, nowIso), parseDate, now) == NoAlert
  {
    PatchedNeedsNoFirstChange(user, nowIso);
    PatchedAgeIsZero(user, nowIso, now, parseDate);
  }
}

=== FILE: pdf_viewer.dfy ===
/**
 * The PDF viewer modal: which signature it describes, when it resets its
 * spinner and signature panel, and what the panel prints for each field of
 * the signature, each read as a chain of `a || b || ... || 'placeholder'`.
 */
module PdfViewer {
  import opened Wrappers
  import opened Json
  import Catastro

  /** `signatureData`: falsy, not an array or empty gives `null`; otherwise its first element. */
  function SigInfo(signatureData: JValue): (r: JValue)
    ensures signatureData.JArr? && |signatureData.items| > 0 ==> r == signatureData.items[0]
    ensures !(signatureData.JArr? && |signatureData.items| > 0) ==> r == JNull
  {
    if !Truthy(signatureData) then JNull
    else match signatureData
      case JArr(items) => if |items| == 0 then JNull else items[0]
      case _ => JNull
  }

  /** The state the modal keeps across renders. */
  datatype ModalState = ModalState(loading: bool, showSigInfo: bool)

  const Initial: ModalState := ModalState(true, false)

  /** The effect run when `isOpen` or `pdfUrl` changes: an open modal with a URL shows the spinner and hides the panel. */
  function OnOpen(s: ModalState, isOpen: bool, pdfUrl: JValue): (t: ModalState)
    ensures isOpen && Truthy(pdfUrl) ==> t == Initial
    ensures !(isOpen && Truthy(pdfUrl)) ==> t == s
  {
    if isOpen && Truthy(pdfUrl) then ModalState(true, false) else s
  }

  /** The frame reports that the document loaded. */
  function OnLoad(s: ModalState): (t: ModalState)
    ensures !t.loading && t.showSigInfo == s.showSigInfo
  {
    s.(loading := false)
  }

  /** The 'Validar Firma' / 'Ocultar Info' button, which exists only when there is a signature. */
  function ToggleSigInfo(s: ModalState, signatureData: JValue): (t: ModalState)
    ensures Truthy(SigInfo(signatureData)) ==> t.showSigInfo == !s.showSigInfo
    ensures !Truthy(SigInfo(signatureData)) ==> t == s
    ensures t.loading == s.loading
  {
    if Truthy(SigInfo(signatureData)) then s.(showSigInfo := !s.showSigInfo) else s
  }

  /** Pressing the button twice brings the panel back to where it was. */
  lemma ToggleTwice(s: ModalState, signatureData: JValue)
    ensures ToggleSigInfo(ToggleSigInfo(s, signatureData), signatureData) == s
  {
  }

  /** Field `i` of `keys` is the first whose value in `v` is truthy. */
  predicate FirstTruthyAt(v: JValue, keys: seq<string>, i: int) {
    0 <= i < |keys| && Truthy(PropOrNull(v, keys[i]))
    && forall j :: 0 <= j < i ==> !Truthy(PropOrNull(v, keys[j]))
  }

  /** `v[k1] || v[k2] || ... || placeholder`. */
  function FirstTruthy(v: JValue, keys: seq<string>, placeholder: string): (r: JValue)
    ensures forall i :: FirstTruthyAt(v, keys, i) ==> r == PropOrNull(v, keys[i])
    ensures (forall i :: 0 <= i < |keys| ==> !Truthy(PropOrNull(v, keys[i]))) ==> r == JStr(placeholder)
    ensures placeholder != "" ==> Truthy(r)
    decreases |keys|
  {
    if keys == [] then JStr(placeholder)
    else
      var rest := FirstTruthy(v, keys[1..], placeholder);
      assert forall i :: 1 <= i < |keys| && FirstTruthyAt(v, keys, i) ==> FirstTruthyAt(v, keys[1..], i - 1) by {
        forall i | 1 <= i < |keys| && FirstTruthyAt(v, keys, i) ensures FirstTruthyAt(v, keys[1..], i - 1) {
          forall j | 0 <= j < i - 1 ensures !Truthy(PropOrNull(v, keys[1..][j])) {
            assert keys[1..][j] == keys[j + 1];
          }
        }
      }
      Or(PropOrNull(v, keys[0]), rest)
  }

  /** The signature panel, one line per field. */
  datatype Panel = Panel(signer: JValue, id: JValue, date: JValue, issuer: JValue, reason: JValue)

  const SignerKeys: seq<string> := ["Nombre_2", "Nom_fir", "Nom_com"]
  const DateKeys: seq<string> := ["Fch_hra", "Fec_fir"]
  const IssuerKeys: seq<string> := ["Nombre_1", "Emisor", "Nom_ent"]
  const ReasonKeys: seq<string> := ["Motivo", "Mot_fir"]

  function PanelOf(sig: JValue): (p: Panel)
    ensures Truthy(p.signer) && Truthy(p.id) && Truthy(p.date) && Truthy(p.issuer) && Truthy(p.reason)
    ensures (forall i :: 0 <= i < |SignerKeys| ==> !Truthy(PropOrNull(sig, SignerKeys[i]))) ==> p.signer == JStr("No especificado")
  {
    Panel(FirstTruthy(sig, SignerKeys, "No especificado"),
          FirstTruthy(sig, ["Ide_ide"], "Ver en Titular"),
          FirstTruthy(sig, DateKeys, "N/A"),
          FirstTruthy(sig, IssuerKeys, "N/A"),
          FirstTruthy(sig, ReasonKeys, "Autorización de documento"))
  }

  /** What the open modal shows. */
  datatype Screen = Screen(title: JValue, badge: bool, toggle: bool, spinner: bool, document: bool, panel: Option<Panel>)

  /** The modal's output: nothing when closed. */
  function Render(isOpen: bool, pdfUrl: JValue, title: JValue, signatureData: JValue, s: ModalState): (r: Option<Screen>)
    ensures r.Some? <==> isOpen
    ensures r.Some? ==> r.value.badge == r.value.toggle == Truthy(SigInfo(signatureData))
    ensures r.Some? ==> (r.value.panel.Some? <==> s.showSigInfo && Truthy(SigInfo(signatureData)))
    ensures r.Some? && r.value.panel.Some? ==> r.value.panel.value == PanelOf(SigInfo(signatureData))
    ensures r.Some? ==> r.value.document == Truthy(pdfUrl) && r.value.spinner == s.loading
    ensures r.Some? ==> Truthy(r.value.title)
  {
    if !isOpen then None
    else
      var sig := SigInfo(signatureData);
      Some(Screen(Or(title, JStr("Vista Previa del Documento")), Truthy(sig), Truthy(sig), s.loading, Truthy(pdfUrl),
                  if s.showSigInfo && Truthy(sig) then Some(PanelOf(sig)) else None))
  }

  /** Opening the modal on a document hides a panel left open for the previous one. */
  lemma ReopenHidesPanel(s: ModalState, pdfUrl: JValue, title: JValue, signatureData: JValue)
    requires Truthy(pdfUrl)
    ensures Render(true, pdfUrl, title, signatureData, OnOpen(s, true, pdfUrl)).value.panel.None?
    ensures Render(true, pdfUrl, title, signatureData, OnOpen(s, true, pdfUrl)).value.spinner
  {
  }

  /**
   * The signature the cadastral list extracts for a signed document is the one
   * the panel describes: the list wraps it in a one-element array.
   */
  lemma ExtractedSignatureIsDescribed(body: JValue)
    requires Truthy(PropOrNull(body, "signature"))
    ensures SigInfo(Catastro.SignatureOf(Catastro.ExtractReply(true, body))) == PropOrNull(body, "signature")
  {
  }

  /** A failed extraction leaves no signature to describe. */
  lemma FailedExtractionHasNoSignature(body: JValue)
    ensures SigInfo(Catastro.SignatureOf(Catastro.ExtractReply(false, body))) == JNull
    ensures SigInfo(Catastro.SignatureOf(Catastro.ExtractThrew)) == JNull
  {
  }

  /** The signer line falls through the alternatives in order. */
  lemma SignerFallsThrough(a: string, b: string)
    requires b != ""
    ensures PanelOf(JObj([("Nombre_2", JStr("")), ("Nom_fir", JStr(b)), ("Nom_com", JStr(a))])).signer == JStr(b)
  {
    var fs := [("Nombre_2", JStr("")), ("Nom_fir", JStr(b)), ("Nom_com", JStr(a))];
    PropOfLiteral(fs, 0);
    assert "Nombre_2" != "Nom_fir" by { assert "Nombre_2"[3] != "Nom_fir"[3]; }
    PropOfLiteral(fs, 1);
    assert FirstTruthyAt(JObj(fs), SignerKeys, 1);
  }
}

=== FILE: recibos.dfy ===
/**
 * The cash-receipt tree of the receipts modal: the response envelope is
 * unwrapped, receipts are filtered by receipt number and by memo words, each
 * receipt gets the total of its line items and each group the total of its
 * receipts, and groups left empty are hidden.
 *
 * Every place where the component would throw a `TypeError` (a `null` group or
 * receipt, a `recibos` or `detalle` that is not an array, a non-string field
 * that is lower-cased) yields `None`.
 */
module Recibos {
  import opened Wrappers
  import opened Text
  import opened Numbers
  import opened Json
  import opened Lists

  // ---------------------------------------------------------------------------
  // Response envelope
  // ---------------------------------------------------------------------------

  /**
   * The clean-up applied to the list response. `parse` is `JSON.parse`, `None`
   * when it throws (the failure is only logged).
   */
  function Unwrap(result: JValue, parse: string -> Option<JValue>): (r: JValue)
    ensures result.JArr? && |result.items| != 1 ==> r == result
    ensures result.JArr? && |result.items| == 1 && result.items[0].JArr? ==> r == result.items[0]
    ensures forall s :: result == JArr([JStr(s)]) ==> r == parse(s).GetOr(result)
    ensures forall s :: result == JStr(s) ==> r == parse(s).GetOr(result)
    ensures !result.JArr? && !result.JStr? ==> r == result
  {
    if result.JArr? && |result.items| == 1 then
      var inner := result.items[0];
      if inner.JArr? then inner
      else if inner.JStr? then parse(inner.s).GetOr(result)
      else result
    else if result.JStr? then parse(result.s).GetOr(result)
    else result
  }

  /** Exactly one level is removed: a doubly nested singleton stays nested once. */
  lemma UnwrapOneLevel(x: JValue, parse: string -> Option<JValue>)
    ensures Unwrap(JArr([JArr([x])]), parse) == JArr([x])
    ensures Unwrap(Unwrap(JArr([JArr([JArr([x])])]), parse), parse) == JArr([x])
  {
  }

  /** The value changes only by dropping one array level or by a successful parse. */
  lemma UnwrapChanges(result: JValue, parse: string -> Option<JValue>)
    requires Unwrap(result, parse) != result
    ensures (result.JArr? && |result.items| == 1 && Unwrap(result, parse) == result.items[0])
         || (result.JStr? && parse(result.s) == Some(Unwrap(result, parse)))
         || (result.JArr? && |result.items| == 1 && result.items[0].JStr?
             && parse(result.items[0].s) == Some(Unwrap(result, parse)))
  {
  }

  // ---------------------------------------------------------------------------
  // Filters
  // ---------------------------------------------------------------------------

  /** `r.nro_rec && r.nro_rec.toLowerCase().includes(lowerFilter)`. */
  function NumberMatches(lowerFilter: string, r: JValue): (m: Option<bool>)
    ensures m.None? <==> r.JNull? || (Truthy(PropOrNull(r, "nro_rec")) && !PropOrNull(r, "nro_rec").JStr?)
    ensures m == Some(true) <==> !r.JNull? && PropOrNull(r, "nro_rec").JStr?
                                 && Occurs(Lower(PropOrNull(r, "nro_rec").s), lowerFilter)
                                 && PropOrNull(r, "nro_rec").s != ""
  {
    if r.JNull? then None
    else
      var n := PropOrNull(r, "nro_rec");
      if !Truthy(n) then Some(false)
      else if n.JStr? then Some(Includes(Lower(n.s), lowerFilter))
      else None
  }

  /**
   * The memo test: `gls_rec` must be present and every search token must occur
   * in its lower-cased form.
   */
  function MemoMatches(tokens: seq<string>, r: JValue): (m: Option<bool>)
    ensures m.None? <==> r.JNull? || (Truthy(PropOrNull(r, "gls_rec")) && !PropOrNull(r, "gls_rec").JStr?)
    ensures m == Some(true) <==> !r.JNull? && PropOrNull(r, "gls_rec").JStr? && PropOrNull(r, "gls_rec").s != ""
                                 && forall j :: 0 <= j < |tokens| ==> Occurs(Lower(PropOrNull(r, "gls_rec").s), tokens[j])
  {
    if r.JNull? then None
    else
      var g := PropOrNull(r, "gls_rec");
      if !Truthy(g) then Some(false)
      else if g.JStr? then Some(forall j :: 0 <= j < |tokens| ==> Includes(Lower(g.s), tokens[j]))
      else None
  }

  /** The search words of a memo filter: lower-cased, split on whitespace runs, empties dropped. */
  function MemoTokens(filter: string): (ts: seq<string>)
    ensures forall j :: 0 <= j < |ts| ==> ts[j] != "" && NoSpace(ts[j])
  {
    Tokens(Lower(filter))
  }

  /** A whitespace-only memo filter keeps every receipt that has a non-empty string memo. */
  lemma BlankMemoFilterKeepsAllMemos(filter: string, r: JValue)
    requires AllSpace(Lower(filter))
    requires !r.JNull? && PropOrNull(r, "gls_rec").JStr? && PropOrNull(r, "gls_rec").s != ""
    ensures MemoMatches(MemoTokens(filter), r) == Some(true)
  {
    TokensEmptyIffAllSpace(Lower(filter));
  }

  /** Whether a receipt passes both active filters (an empty filter is inactive). */
  predicate Keep(receiptFilter: string, memoFilter: string, r: JValue) {
    (receiptFilter == "" || NumberMatches(Lower(receiptFilter), r) == Some(true))
    && (memoFilter == "" || MemoMatches(MemoTokens(memoFilter), r) == Some(true))
  }

  // ---------------------------------------------------------------------------
  // Receipt and group totals
  // ---------------------------------------------------------------------------

  /** A receipt row with its computed total and memo preview. */
  datatype Receipt = Receipt(row: JValue, total: Num, preview: string)

  /** A group row with its surviving receipts and their total. */
  datatype Group = Group(row: JValue, items: seq<Receipt>, total: Num)

  function ReceiptRow(r: Receipt): JValue { r.row }
  function ReceiptTotal(r: Receipt): Num { r.total }
  function GroupRow(g: Group): JValue { g.row }

  /** `parseFloat(det.val_tot || 0)`. */
  function LineAmount(det: JValue): Num {
    ParseFloat(Or(PropOrNull(det, "val_tot"), Int(0)))
  }

  /** A line item without an amount counts as zero. */
  lemma MissingAmountIsZero(det: JValue)
    requires !Truthy(PropOrNull(det, "val_tot"))
    ensures LineAmount(det) == Fin(0.0)
  {
    assert Or(PropOrNull(det, "val_tot"), Int(0)) == Int(0);
    assert JsToString(Int(0)) == IntToString(0);
    IntRoundTrip(0);
  }

  /** The text a line item contributes to the joined memo: `null`/missing joins as ''. */
  function ItemText(det: JValue): string {
    var d := PropOrNull(det, "des_itm");
    if d.JNull? then "" else JsToString(d)
  }

  /** `text.length > 100 ? text.substring(0, 100) + '...' : text`, lengths in UTF-16 code units. */
  function Shorten(text: string): (p: string)
    ensures Utf16Length(p) <= 103
    ensures Utf16Length(text) <= 100 ==> p == text
    ensures Utf16Length(text) > 100 ==>
              exists k :: 0 <= k < |text| && p == text[..k] + "..." && Utf16Length(text[..k]) <= 100
                          && Utf16Length(text[..k]) + Units(text[k]) > 100
  {
    if Utf16Length(text) > 100 then
      var cut := Utf16Take(text, 100);
      Utf16Append(cut, "...");
      assert Utf16Length("...") == 3 by {
        assert "..."[1..] == "..";
        assert ".."[1..] == ".";
        assert "."[1..] == "";
      }
      assert cut != text;
      assert text[..|cut|] == cut;
      cut + "..."
    else text
  }

  /** The memo preview: the items' texts joined with ' | ', shortened past 100 code units. */
  function Preview(details: seq<JValue>): (p: string) {
    Shorten(Join(Map(ItemText, details), " | "))
  }

  /** The line items of a receipt, `recibo.detalle || []`: a missing or falsy field reads as no items. */
  function Details(recibo: JValue): (d: JValue)
    ensures !Truthy(PropOrNull(recibo, "detalle")) ==> d == JArr([])
    ensures Truthy(PropOrNull(recibo, "detalle")) ==> Prop(recibo, "detalle") == Some(d)
  {
    Or(PropOrNull(recibo, "detalle"), JArr([]))
  }

  /** A receipt with `totalCalculado` and `glosaPreview`; `None` where the component throws. */
  function Enrich(recibo: JValue): (r: Option<Receipt>)
    ensures r.None? <==> recibo.JNull? || !Details(recibo).JArr?
                         || exists i :: 0 <= i < |Details(recibo).items| && Details(recibo).items[i].JNull?
    ensures r.Some? ==> r.value.row == recibo
    ensures r.Some? ==> r.value.total == SumNum(Map(LineAmount, Details(recibo).items))
  {
    if recibo.JNull? then None
    else
      var det := Details(recibo);
      if !det.JArr? then None
      else if exists i :: 0 <= i < |det.items| && det.items[i].JNull? then None
      else Some(Receipt(recibo, SumNum(Map(LineAmount, det.items)), Preview(det.items)))
  }

  /** A receipt total is `NaN` iff some line amount is, and otherwise the sum of the line amounts. */
  lemma ReceiptTotalSpec(recibo: JValue)
    requires Enrich(recibo).Some?
    ensures var amounts := Map(LineAmount, Details(recibo).items);
            (Enrich(recibo).value.total.NaN? <==> exists i :: 0 <= i < |amounts| && amounts[i].NaN?)
            && (Enrich(recibo).value.total.Fin? ==> Enrich(recibo).value.total.r == SumReal(Reals(amounts)))
  {
    SumNumSpec(Map(LineAmount, Details(recibo).items));
  }

  /** A receipt without line items totals zero. */
  lemma NoDetailsTotalsZero(recibo: JValue)
    requires !recibo.JNull? && !Truthy(PropOrNull(recibo, "detalle"))
    ensures Enrich(recibo) == Some(Receipt(recibo, Fin(0.0), ""))
  {
  }

  /** The receipts of a group, `group.recibos || []`: a missing or falsy field reads as no receipts. */
  function Receipts(group: JValue): (rs: JValue)
    ensures !Truthy(PropOrNull(group, "recibos")) ==> rs == JArr([])
    ensures Truthy(PropOrNull(group, "recibos")) ==> Prop(group, "recibos") == Some(rs)
  {
    Or(PropOrNull(group, "recibos"), JArr([]))
  }

  /** The active number filter throws on this receipt. */
  predicate NumberThrows(receiptFilter: string, x: JValue) {
    receiptFilter != "" && NumberMatches(Lower(receiptFilter), x).None?
  }

  /** The active memo filter throws on this receipt. */
  predicate MemoThrows(memoFilter: string, x: JValue) {
    memoFilter != "" && MemoMatches(MemoTokens(memoFilter), x).None?
  }

  /**
   * The receipt makes the group's processing throw at a stage it reaches: the
   * number filter, the memo filter once past the number filter, or the
   * enrichment once past both.
   */
  predicate ReceiptThrows(receiptFilter: string, memoFilter: string, x: JValue) {
    NumberThrows(receiptFilter, x)
    || ((receiptFilter == "" || NumberMatches(Lower(receiptFilter), x) == Some(true)) && MemoThrows(memoFilter, x))
    || (Keep(receiptFilter, memoFilter, x) && Enrich(x).None?)
  }

  /** The number filter, when active. */
  function ByNumber(receiptFilter: string, rs: seq<JValue>): (r: Option<seq<JValue>>)
    ensures receiptFilter == "" ==> r == Some(rs)
    ensures r.None? <==> exists i :: 0 <= i < |rs| && NumberThrows(receiptFilter, rs[i])
    ensures r.Some? ==> Subseq(r.value, rs)
    ensures r.Some? ==> forall x :: x in r.value <==> x in rs && (receiptFilter == "" || NumberMatches(Lower(receiptFilter), x) == Some(true))
    ensures r.Some? ==> forall x :: multiset(r.value)[x] ==
                          if receiptFilter == "" || NumberMatches(Lower(receiptFilter), x) == Some(true) then multiset(rs)[x] else 0
  {
    if receiptFilter == "" then SubseqRefl(rs); Some(rs)
    else
      var p := x => NumberMatches(Lower(receiptFilter), x);
      if FilterTry(p, rs).Some? then FilterTryCounts(p, rs); FilterTry(p, rs)
      else None
  }

  /** The memo filter, when active. */
  function ByMemo(memoFilter: string, rs: seq<JValue>): (r: Option<seq<JValue>>)
    ensures memoFilter == "" ==> r == Some(rs)
    ensures r.None? <==> exists i :: 0 <= i < |rs| && MemoThrows(memoFilter, rs[i])
    ensures r.Some? ==> Subseq(r.value, rs)
    ensures r.Some? ==> forall x :: x in r.value <==> x in rs && (memoFilter == "" || MemoMatches(MemoTokens(memoFilter), x) == Some(true))
    ensures r.Some? ==> forall x :: multiset(r.value)[x] ==
                          if memoFilter == "" || MemoMatches(MemoTokens(memoFilter), x) == Some(true) then multiset(rs)[x] else 0
  {
    if memoFilter == "" then SubseqRefl(rs); Some(rs)
    else
      var p := x => MemoMatches(MemoTokens(memoFilter), x);
      if FilterTry(p, rs).Some? then FilterTryCounts(p, rs); FilterTry(p, rs)
      else None
  }

  /** One element of `processedGroups` before empty groups are dropped. */
  function ProcessGroup(group: JValue, receiptFilter: string, memoFilter: string): (r: Option<Group>)
    ensures group.JNull? || !Receipts(group).JArr? ==> r.None?
    ensures !group.JNull? && Receipts(group).JArr? ==>
              (r.None? <==> exists i :: 0 <= i < |Receipts(group).items| && ReceiptThrows(receiptFilter, memoFilter, Receipts(group).items[i]))
    ensures r.Some? ==> !group.JNull? && Receipts(group).JArr?
    ensures r.Some? ==> r.value.row == group
    ensures r.Some? ==> Subseq(Map(ReceiptRow, r.value.items), Receipts(group).items)
    ensures r.Some? ==> forall x :: x in Map(ReceiptRow, r.value.items) <==>
                          x in Receipts(group).items && Keep(receiptFilter, memoFilter, x)
    ensures r.Some? ==> forall x :: multiset(Map(ReceiptRow, r.value.items))[x] ==
                          if Keep(receiptFilter, memoFilter, x) then multiset(Receipts(group).items)[x] else 0
    ensures r.Some? ==> forall i :: 0 <= i < |r.value.items| ==> Enrich(r.value.items[i].row) == Some(r.value.items[i])
    ensures r.Some? ==> r.value.total == SumNum(Map(ReceiptTotal, r.value.items))
  {
    if group.JNull? then None
    else
      var rec := Receipts(group);
      if !rec.JArr? then None
      else
        var rs := rec.items;
        match ByNumber(receiptFilter, rs)
        case None => NumberStageThrows(receiptFilter, memoFilter, rs); None
        case Some(xs) =>
          match ByMemo(memoFilter, xs)
          case None => MemoStageThrows(receiptFilter, memoFilter, rs); None
          case Some(ys) =>
            match MapTry(Enrich, ys)
            case None => EnrichStageThrows(receiptFilter, memoFilter, rs); None
            case Some(items) =>
              NoStageThrows(receiptFilter, memoFilter, rs);
              assert Map(ReceiptRow, items) == ys;
              SubseqTrans(ys, xs, rec.items);
              Some(Group(group, items, SumNum(Map(ReceiptTotal, items))))
  }

  lemma NumberStageThrows(receiptFilter: string, memoFilter: string, rs: seq<JValue>)
    requires ByNumber(receiptFilter, rs).None?
    ensures exists i :: 0 <= i < |rs| && ReceiptThrows(receiptFilter, memoFilter, rs[i])
  {
    var i :| 0 <= i < |rs| && NumberThrows(receiptFilter, rs[i]);
    assert ReceiptThrows(receiptFilter, memoFilter, rs[i]);
  }

  lemma MemoStageThrows(receiptFilter: string, memoFilter: string, rs: seq<JValue>)
    requires ByNumber(receiptFilter, rs).Some?
    requires ByMemo(memoFilter, ByNumber(receiptFilter, rs).value).None?
    ensures exists i :: 0 <= i < |rs| && ReceiptThrows(receiptFilter, memoFilter, rs[i])
  {
    var xs := ByNumber(receiptFilter, rs).value;
    var j :| 0 <= j < |xs| && MemoThrows(memoFilter, xs[j]);
    assert xs[j] in xs;
    var i :| 0 <= i < |rs| && rs[i] == xs[j];
    assert ReceiptThrows(receiptFilter, memoFilter, rs[i]);
  }

  lemma EnrichStageThrows(receiptFilter: string, memoFilter: string, rs: seq<JValue>)
    requires ByNumber(receiptFilter, rs).Some?
    requires ByMemo(memoFilter, ByNumber(receiptFilter, rs).value).Some?
    requires MapTry(Enrich, ByMemo(memoFilter, ByNumber(receiptFilter, rs).value).value).None?
    ensures exists i :: 0 <= i < |rs| && ReceiptThrows(receiptFilter, memoFilter, rs[i])
  {
    var xs := ByNumber(receiptFilter, rs).value;
    var ys := ByMemo(memoFilter, xs).value;
    var j :| 0 <= j < |ys| && Enrich(ys[j]).None?;
    assert ys[j] in ys && ys[j] in xs;
    var i :| 0 <= i < |rs| && rs[i] == ys[j];
    assert Keep(receiptFilter, memoFilter, rs[i]);
    assert ReceiptThrows(receiptFilter, memoFilter, rs[i]);
  }

  lemma NoStageThrows(receiptFilter: string, memoFilter: string, rs: seq<JValue>)
    requires ByNumber(receiptFilter, rs).Some?
    requires ByMemo(memoFilter, ByNumber(receiptFilter, rs).value).Some?
    requires MapTry(Enrich, ByMemo(memoFilter, ByNumber(receiptFilter, rs).value).value).Some?
    ensures forall i :: 0 <= i < |rs| ==> !ReceiptThrows(receiptFilter, memoFilter, rs[i])
  {
    var xs := ByNumber(receiptFilter, rs).value;
    var ys := ByMemo(memoFilter, xs).value;
    forall i | 0 <= i < |rs| ensures !ReceiptThrows(receiptFilter, memoFilter, rs[i]) {
      var x := rs[i];
      assert !NumberThrows(receiptFilter, x);
      if receiptFilter == "" || NumberMatches(Lower(receiptFilter), x) == Some(true) {
        assert x in xs;
        var j :| 0 <= j < |xs| && xs[j] == x;
        assert !MemoThrows(memoFilter, x);
        if Keep(receiptFilter, memoFilter, x) {
          assert x in ys;
          var k :| 0 <= k < |ys| && ys[k] == x;
          assert Enrich(x).Some?;
        }
      }
    }
  }

  /** A group that is processed without throwing and keeps at least one receipt. */
  predicate Shown(receiptFilter: string, memoFilter: string, group: JValue) {
    ProcessGroup(group, receiptFilter, memoFilter).Some? && |ProcessGroup(group, receiptFilter, memoFilter).value.items| > 0
  }

  predicate NonEmpty(g: Group) { |g.items| > 0 }

  /**
   * `processedGroups`: `None` when the computation throws. A stored value that is
   * not an array gives no groups.
   */
  function ProcessGroups(list: JValue, receiptFilter: string, memoFilter: string): (r: Option<seq<Group>>)
    ensures !list.JArr? ==> r == Some([])
    ensures list.JArr? ==> (r.None? <==> exists i :: 0 <= i < |list.items| && ProcessGroup(list.items[i], receiptFilter, memoFilter).None?)
    ensures r.Some? ==> forall g :: g in r.value ==> |g.items| > 0
    ensures r.Some? ==> forall g :: g in r.value ==> ProcessGroup(g.row, receiptFilter, memoFilter) == Some(g)
    ensures r.Some? && list.JArr? ==> Subseq(Map(GroupRow, r.value), list.items)
    ensures r.Some? && list.JArr? ==>
              forall i :: 0 <= i < |list.items| && ProcessGroup(list.items[i], receiptFilter, memoFilter).Some?
                          && |ProcessGroup(list.items[i], receiptFilter, memoFilter).value.items| > 0
                          ==> ProcessGroup(list.items[i], receiptFilter, memoFilter).value in r.value
    ensures r.Some? && list.JArr? ==>
              forall x :: multiset(Map(GroupRow, r.value))[x] ==
                            if Shown(receiptFilter, memoFilter, x) then multiset(list.items)[x] else 0
  {
    if !list.JArr? then Some([])
    else
      var f := g => ProcessGroup(g, receiptFilter, memoFilter);
      match MapTry(f, list.items)
      case None => None
      case Some(gs) =>
        var kept := Filter(NonEmpty, gs);
        assert Map(GroupRow, gs) == list.items;
        var shown := x => Shown(receiptFilter, memoFilter, x);
        MapFilter(GroupRow, NonEmpty, shown, gs);
        FilterCounts(shown, list.items);
        SubseqMap(GroupRow, kept, gs);
        assert forall i :: 0 <= i < |list.items| ==> f(list.items[i]) == Some(gs[i]);
        assert forall g :: g in gs ==> f(g.row) == Some(g);
        Some(kept)
  }

  /** Every receipt shown passes both active filters, and each group total is the sum of its receipts. */
  lemma ShownReceiptsMatch(list: JValue, receiptFilter: string, memoFilter: string, g: Group, x: Receipt)
    requires ProcessGroups(list, receiptFilter, memoFilter).Some?
    requires g in ProcessGroups(list, receiptFilter, memoFilter).value
    requires x in g.items
    ensures Keep(receiptFilter, memoFilter, x.row)
    ensures x.row in Receipts(g.row).items
    ensures g.total == SumNum(Map(ReceiptTotal, g.items))
  {
    var i :| 0 <= i < |g.items| && g.items[i] == x;
    assert Map(ReceiptRow, g.items)[i] == x.row;
  }

  /** Without filters every receipt of every non-empty group is shown. */
  lemma NoFilterKeepsAll(group: JValue)
    requires ProcessGroup(group, "", "").Some?
    ensures Map(ReceiptRow, ProcessGroup(group, "", "").value.items) == Receipts(group).items
  {
  }

  // ---------------------------------------------------------------------------
  // Modal state
  // ---------------------------------------------------------------------------

  const LoadError := "Error al cargar los Recibos de Caja"

  /** The receipts modal state. Expanded groups and receipts are lists of row keys. */
  datatype State = State(
    list: JValue, error: string, loading: bool, year: string,
    receiptFilter: string, memoFilter: string,
    expandedGroups: seq<JValue>, expandedReceipts: seq<JValue>)

  /** Opening the modal clears the list, the error, the year, both filters and all expansion. */
  function Open(s: State): (t: State)
    ensures t.list == JArr([]) && t.error == "" && t.year == ""
    ensures t.receiptFilter == "" && t.memoFilter == ""
    ensures t.expandedGroups == [] && t.expandedReceipts == []
    ensures t.loading == s.loading
  {
    State(JArr([]), "", s.loading, "", "", "", [], [])
  }

  /**
   * The request body. `data?.ide_cnt` and `data?.ide_bde` are exact-case reads,
   * and a field that is `undefined` is dropped when the body is serialised, so
   * each key is present exactly when `data` has the field; `pano_eje` is the
   * year as a string, or `null` for an empty year, and is always sent.
   */
  function Payload(data: JValue, year: string): (p: JValue)
    ensures Prop(p, "pano_eje") == Some(if year == "" then JNull else JStr(year))
    ensures Prop(p, "pide_cnt") == Prop(data, "ide_cnt")
    ensures Prop(p, "ide_bde") == Prop(data, "ide_bde")
    ensures forall k :: k != "pide_cnt" && k != "ide_bde" && k != "pano_eje" ==> Prop(p, k).None?
  {
    var p1 := match Prop(data, "ide_cnt")
              case Some(v) => SetField(JObj([]), "pide_cnt", v)
              case None => JObj([]);
    var p2 := match Prop(data, "ide_bde")
              case Some(v) => SetField(p1, "ide_bde", v)
              case None => p1;
    SetField(p2, "pano_eje", if year == "" then JNull else JStr(year))
  }

  /** Starting a search sets loading and clears the error. */
  function StartFetch(s: State): (t: State)
    ensures t.loading && t.error == ""
    ensures t.list == s.list && t.year == s.year
  {
    s.(loading := true, error := "")
  }

  /**
   * The end of a search. A response is unwrapped and stored; a failure keeps the
   * list and shows the thrown message, or the default when the message is empty.
   */
  function FinishFetch(s: State, outcome: Result<JValue>, parse: string -> Option<JValue>): (t: State)
    ensures !t.loading
    ensures outcome.Ok? ==> t.list == Unwrap(outcome.value, parse) && t.error == s.error
    ensures outcome.Err? ==> t.list == s.list
    ensures outcome.Err? ==> t.error == (if outcome.message != "" then outcome.message else LoadError)
    ensures outcome.Err? ==> t.error != ""
  {
    match outcome
    case Ok(v) => s.(list := Unwrap(v, parse), loading := false)
    case Err(m) => s.(error := if m != "" then m else LoadError, loading := false)
  }

  /** `group.ide_rcg || 'idx-' + idx` (and `recibo.ide_rec || 'rec-' + idx`): the row's expansion key. */
  function RowKey(id: JValue, prefix: string, idx: nat): (k: JValue)
    ensures Truthy(id) ==> k == id
    ensures !Truthy(id) ==> k == JStr(prefix + IntToString(idx))
  {
    Or(id, JStr(prefix + IntToString(idx)))
  }

  /** Clicking a group header toggles only that group's key. */
  function ToggleGroup(s: State, key: JValue): (t: State)
    ensures key in t.expandedGroups <==> key !in s.expandedGroups
    ensures forall k :: k != key ==> (k in t.expandedGroups <==> k in s.expandedGroups)
    ensures t.expandedReceipts == s.expandedReceipts && t.list == s.list
  {
    s.(expandedGroups := Toggle(s.expandedGroups, key))
  }

  /** Clicking a receipt toggles only that receipt's key. */
  function ToggleReceipt(s: State, key: JValue): (t: State)
    ensures key in t.expandedReceipts <==> key !in s.expandedReceipts
    ensures forall k :: k != key ==> (k in t.expandedReceipts <==> k in s.expandedReceipts)
    ensures t.expandedGroups == s.expandedGroups && t.list == s.list
  {
    s.(expandedReceipts := Toggle(s.expandedReceipts, key))
  }

  // ---------------------------------------------------------------------------
  // Dates
  // ---------------------------------------------------------------------------

  /** Matches `^\d{4}-\d{2}-\d{2}$`. */
  predicate IsIsoDate(s: string) {
    |s| == 10 && AllDigits(s[..4]) && s[4] == '-' && AllDigits(s[5..7]) && s[7] == '-' && AllDigits(s[8..])
  }

  /**
   * `formatDate`: '' for a falsy value; `d/m/y` for a `YYYY-MM-DD` string; any
   * other value goes through the locale formatter `localeDate`.
   */
  function FormatDate(v: JValue, localeDate: JValue -> string): (r: string)
    ensures !Truthy(v) ==> r == ""
    ensures Truthy(v) && v.JStr? && IsIsoDate(v.s) ==> r == v.s[8..] + "/" + v.s[5..7] + "/" + v.s[..4]
    ensures Truthy(v) && !(v.JStr? && IsIsoDate(v.s)) ==> r == localeDate(v)
  {
    if !Truthy(v) then ""
    else if v.JStr? && IsIsoDate(v.s) then
      var parts := Split(v.s, '-');
      DateParts(v.s);
      parts[2] + "/" + parts[1] + "/" + parts[0]
    else localeDate(v)
  }

  /** A `YYYY-MM-DD` string splits on '-' into its three fields. */
  lemma DateParts(s: string)
    requires IsIsoDate(s)
    ensures Split(s, '-') == [s[..4], s[5..7], s[8..]]
  {
    assert s == s[..4] + ['-'] + (s[5..7] + ['-'] + s[8..]);
    assert '-' !in s[..4] by { assert forall i :: 0 <= i < 4 ==> IsDigit(s[..4][i]); }
    assert '-' !in s[5..7] by { assert forall i :: 0 <= i < 2 ==> IsDigit(s[5..7][i]); }
    assert '-' !in s[8..] by { assert forall i :: 0 <= i < 2 ==> IsDigit(s[8..][i]); }
    SplitCons(s[..4], '-', s[5..7] + ['-'] + s[8..]);
    SplitCons(s[5..7], '-', s[8..]);
    SplitNone(s[8..], '-');
  }

  /** The display form of an ISO date splits on '/' back into day, month and year. */
  lemma FormatDateRoundTrip(s: string, localeDate: JValue -> string)
    requires IsIsoDate(s)
    ensures Split(FormatDate(JStr(s), localeDate), '/') == [s[8..], s[5..7], s[..4]]
  {
    DigitsHaveNoSlash(s[8..]);
    DigitsHaveNoSlash(s[5..7]);
    DigitsHaveNoSlash(s[..4]);
    SplitThree(s[8..], s[5..7], s[..4], '/');
  }

  lemma DigitsHaveNoSlash(t: string)
    requires AllDigits(t)
    ensures '/' !in t
  {
    assert forall i :: 0 <= i < |t| ==> IsDigit(t[i]);
  }
}

=== FILE: report.dfy ===
/**
 * The report services: the printable-report URL of the virtual-documents
 * server, the two row-to-report adapters (sworn declarations and alcabala), and
 * the error message the two list requests raise on a failed response.
 */
module Report {
  import opened Wrappers
  import opened Text
  import opened Json
  import opened Lookup
  import opened Storage

  const ReportBase: string := "https://documentosvirtuales.com"

  /** `cod_pro` when the caller passes none. */
  const DefaultProcess: string := "SIAM_DEC_CAB"
  const DdjjProcess: string := "SIAM_DEC_CAB"
  const AlcabalaProcess: string := "SIAM_ALC_CAB"

  /** The argument of `generateReportUrl`; `None` is a property left `undefined`. */
  datatype ReportRequest = ReportRequest(arrIdeDec: Option<JValue>, codPro: Option<JValue>, ideEje: Option<JValue>, ideBde: Option<JValue>)

  /** `{...o, [k]: v}` when `v` is defined; an `undefined` property is dropped by `JSON.stringify`. */
  function SetDefined(o: JValue, k: string, v: Option<JValue>): (r: JValue)
    requires o.JObj?
    ensures r.JObj?
    ensures Prop(r, k) == (if v.Some? then v else Prop(o, k))
    ensures forall k' :: k' != k ==> Prop(r, k') == Prop(o, k')
  {
    if v.Some? then SetField(o, k, v.value) else o
  }

  /**
   * `params = { arr_ide_dec, cod_pro, ide_eje }` as it is serialised: `cod_pro`
   * defaults to 'SIAM_DEC_CAB', an `undefined` id is left out, and `ide_bde`
   * is never part of it.
   */
  function Params(req: ReportRequest): (p: JValue)
    ensures p.JObj?
    ensures Prop(p, "arr_ide_dec") == req.arrIdeDec
    ensures Prop(p, "cod_pro") == Some(req.codPro.GetOr(JStr(DefaultProcess)))
    ensures Prop(p, "ide_eje") == req.ideEje
    ensures forall k :: k != "arr_ide_dec" && k != "cod_pro" && k != "ide_eje" ==> Prop(p, k).None?
  {
    var p1 := SetDefined(JObj([]), "arr_ide_dec", req.arrIdeDec);
    var p2 := SetField(p1, "cod_pro", req.codPro.GetOr(JStr(DefaultProcess)));
    SetDefined(p2, "ide_eje", req.ideEje)
  }

  /** With every id defined the parameters hold exactly three keys, in declaration order. */
  lemma ParamsKeyOrder(req: ReportRequest)
    requires req.arrIdeDec.Some? && req.ideEje.Some?
    ensures Keys(Params(req)) == ["arr_ide_dec", "cod_pro", "ide_eje"]
  {
    var a := req.arrIdeDec.value;
    var c := req.codPro.GetOr(JStr(DefaultProcess));
    var e := req.ideEje.value;
    ParamsFields(a, c, e);
    var ks := Keys(JObj([("arr_ide_dec", a), ("cod_pro", c), ("ide_eje", e)]));
    assert ks[0] == "arr_ide_dec" && ks[1] == "cod_pro" && ks[2] == "ide_eje";
  }

  /** The three `SetField` steps of `Params` append the fields one after the other. */
  lemma ParamsFields(a: JValue, c: JValue, e: JValue)
    ensures SetField(SetField(SetField(JObj([]), "arr_ide_dec", a), "cod_pro", c), "ide_eje", e)
         == JObj([("arr_ide_dec", a), ("cod_pro", c), ("ide_eje", e)])
  {
    FirstField(a);
    SecondField(a, c);
    ThirdField(a, c, e);
  }

  lemma FirstField(a: JValue)
    ensures SetField(JObj([]), "arr_ide_dec", a) == JObj([("arr_ide_dec", a)])
  {
    SetFieldAppends([], "arr_ide_dec", a);
    assert [] + [("arr_ide_dec", a)] == [("arr_ide_dec", a)];
  }

  lemma SecondField(a: JValue, c: JValue)
    ensures SetField(JObj([("arr_ide_dec", a)]), "cod_pro", c) == JObj([("arr_ide_dec", a), ("cod_pro", c)])
  {
    SetFieldAppends([("arr_ide_dec", a)], "cod_pro", c);
  }

  lemma ThirdField(a: JValue, c: JValue, e: JValue)
    ensures SetField(JObj([("arr_ide_dec", a), ("cod_pro", c)]), "ide_eje", e)
         == JObj([("arr_ide_dec", a), ("cod_pro", c), ("ide_eje", e)])
  {
    assert "arr_ide_dec" != "ide_eje" by { assert |"arr_ide_dec"| != |"ide_eje"|; }
    assert "cod_pro" != "ide_eje" by { assert "cod_pro"[0] != "ide_eje"[0]; }
    SetFieldAppends([("arr_ide_dec", a), ("cod_pro", c)], "ide_eje", e);
  }

  /** Everything before the serialised parameters. */
  const QueryHead: string := ReportBase + "/reportes?data="

  /**
   * `generateReportUrl`: the serialised parameters, the stored token and the
   * database id appended without URL encoding. A missing token only prints as
   * 'null'; the URL is produced all the same.
   */
  function ReportUrl(req: ReportRequest, serialize: JValue -> string, token: Option<string>): (u: string)
    ensures StartsWith(u, QueryHead)
    ensures StartsWith(u, QueryHead + serialize(Params(req)))
    ensures EndsWith(u, "&ide_bde=" + JsString(req.ideBde))
    ensures Includes(u, "&token=" + TokenText(token))
  {
    ConcatShape(QueryHead, serialize(Params(req)), "&token=" + TokenText(token), "&ide_bde=" + JsString(req.ideBde));
    QueryHead + serialize(Params(req)) + ("&token=" + TokenText(token)) + ("&ide_bde=" + JsString(req.ideBde))
  }

  /**
   * When none of the three pieces contains '&', splitting the URL on '&' gives
   * back the data part, the token and the database id: the query string reads
   * back as it was written.
   */
  lemma QueryParts(req: ReportRequest, serialize: JValue -> string, token: Option<string>)
    requires '&' !in serialize(Params(req)) && '&' !in TokenText(token) && '&' !in JsString(req.ideBde)
    ensures Split(ReportUrl(req, serialize, token), '&')
         == [QueryHead + serialize(Params(req)), "token=" + TokenText(token), "ide_bde=" + JsString(req.ideBde)]
  {
    var data := serialize(Params(req));
    var t := TokenText(token);
    var d := JsString(req.ideBde);
    QueryHeadHasNoAmpersand();
    Regroup(QueryHead, data, t, d);
    assert '&' !in "token=" + t;
    assert '&' !in "ide_bde=" + d;
    SplitThree(QueryHead + data, "token=" + t, "ide_bde=" + d, '&');
  }

  lemma QueryHeadHasNoAmpersand()
    ensures '&' !in QueryHead
  {
    assert forall i :: 0 <= i < |QueryHead| ==> QueryHead[i] != '&';
  }

  lemma Regroup(h: string, data: string, t: string, d: string)
    ensures h + data + ("&token=" + t) + ("&ide_bde=" + d) == (h + data) + ['&'] + ("token=" + t) + ['&'] + ("ide_bde=" + d)
  {
    assert "&token=" == ['&'] + "token=";
    assert "&ide_bde=" == ['&'] + "ide_bde=";
  }

  // ---------------------------------------------------------------------------
  // Row adapters
  // ---------------------------------------------------------------------------

  /** `getDDJJReportUrl`'s request: the declaration id as a singleton, the fixed process code, the year, the database id passed through. */
  function DdjjRequest(row: JValue, ideBde: Option<JValue>): (q: ReportRequest)
    ensures Prop(Params(q), "arr_ide_dec") == Some(JArr([GetPreferExact(row, "ide_dec")]))
    ensures Prop(Params(q), "cod_pro") == Some(JStr(DdjjProcess))
    ensures Prop(Params(q), "ide_eje") == Some(GetPreferExact(row, "ide_eje"))
    ensures Prop(Params(q), "ide_bde").None? && q.ideBde == ideBde
  {
    ReportRequest(Some(JArr([GetPreferExact(row, "ide_dec")])), Some(JStr(DdjjProcess)), Some(GetPreferExact(row, "ide_eje")), ideBde)
  }

  /** `getAlcabalaReportUrl`'s request: the id read from `ide_alc` and the year from `ano_eje`. */
  function AlcabalaRequest(row: JValue, ideBde: Option<JValue>): (q: ReportRequest)
    ensures Prop(Params(q), "arr_ide_dec") == Some(JArr([GetPreferExact(row, "ide_alc")]))
    ensures Prop(Params(q), "cod_pro") == Some(JStr(AlcabalaProcess))
    ensures Prop(Params(q), "ide_eje") == Some(GetPreferExact(row, "ano_eje"))
    ensures Prop(Params(q), "ide_bde").None? && q.ideBde == ideBde
  {
    ReportRequest(Some(JArr([GetPreferExact(row, "ide_alc")])), Some(JStr(AlcabalaProcess)), Some(GetPreferExact(row, "ano_eje")), ideBde)
  }

  /** `getDDJJReportUrl`: the report URL of a declaration row, carrying the given database id after the token. */
  function DdjjReportUrl(row: JValue, ideBde: Option<JValue>, serialize: JValue -> string, token: Option<string>): (u: string)
    ensures StartsWith(u, QueryHead + serialize(Params(DdjjRequest(row, ideBde))))
    ensures EndsWith(u, "&ide_bde=" + JsString(ideBde))
    ensures Includes(u, "&token=" + TokenText(token))
  {
    ReportUrl(DdjjRequest(row, ideBde), serialize, token)
  }

  /** `getAlcabalaReportUrl`: the report URL of an alcabala row, carrying the given database id after the token. */
  function AlcabalaReportUrl(row: JValue, ideBde: Option<JValue>, serialize: JValue -> string, token: Option<string>): (u: string)
    ensures StartsWith(u, QueryHead + serialize(Params(AlcabalaRequest(row, ideBde))))
    ensures EndsWith(u, "&ide_bde=" + JsString(ideBde))
    ensures Includes(u, "&token=" + TokenText(token))
  {
    ReportUrl(AlcabalaRequest(row, ideBde), serialize, token)
  }

  /** An alcabala row keyed only by `ide_dec` and `ide_eje` reports `[null]` and a `null` year. */
  lemma AlcabalaIgnoresDeclarationKeys(x: JValue, y: JValue)
    ensures Prop(Params(AlcabalaRequest(JObj([("ide_dec", x), ("ide_eje", y)]), None)), "arr_ide_dec") == Some(JArr([JNull]))
    ensures Prop(Params(AlcabalaRequest(JObj([("ide_dec", x), ("ide_eje", y)]), None)), "ide_eje") == Some(JNull)
  {
    var fs := [("ide_dec", x), ("ide_eje", y)];
    assert Lower("ide_dec") != Lower("ide_alc") by { assert Lower("ide_dec")[4] == 'd'; }
    assert Lower("ide_eje") != Lower("ide_alc") by { assert Lower("ide_eje")[4] == 'e'; }
    assert Lower("ide_dec") != Lower("ano_eje") by { assert Lower("ide_dec")[0] == 'i'; }
    assert Lower("ide_eje") != Lower("ano_eje") by { assert Lower("ide_eje")[0] == 'i'; }
    assert NoCIMatch(fs, "ide_alc");
    assert NoCIMatch(fs, "ano_eje");
    assert KeyIndex(fs, "ide_alc") == 2;
    assert KeyIndex(fs, "ano_eje") == 2;
  }

  // ---------------------------------------------------------------------------
  // List request errors
  // ---------------------------------------------------------------------------

  const DdjjListError: string := "Error al obtener DDJJ"
  const AlcabalaListError: string := "Error al obtener registros de Alcabala"

  /**
   * The message of the error a list request throws on a non-OK response:
   * the body's `message` (as `new Error` converts it) when truthy, else the
   * default. A body that is not JSON, or is `null`, falls into the silent
   * `catch` and keeps the default.
   */
  function ListErrorMessage(default: string, body: Option<JValue>): (m: string)
    ensures body.Some? && body.value != JNull && Truthy(PropOrNull(body.value, "message")) ==> m == JsToString(PropOrNull(body.value, "message"))
    ensures body.None? || body.value == JNull || !Truthy(PropOrNull(body.value, "message")) ==> m == default
  {
    if body.Some? && body.value != JNull && Truthy(PropOrNull(body.value, "message")) then JsToString(PropOrNull(body.value, "message"))
    else default
  }

  /** A body's string message is used verbatim. */
  lemma ListErrorUsesServerText(default: string, text: string)
    requires text != ""
    ensures ListErrorMessage(default, Some(JObj([("message", JStr(text))]))) == text
  {
    PropOfLiteral([("message", JStr(text))], 0);
  }
}

=== FILE: results_grid.dfy ===
/**
 * The search-results grid: the search response is normalised to a list of
 * rows, filtered by entity name, and the debt of the shown rows is totalled.
 */
module ResultsGrid {
  import opened Wrappers
  import opened Text
  import opened Numbers
  import opened Json
  import opened Lists
  import opened Lookup

  /**
   * `rawData`: an array as is; an object with an array `result` as that array;
   * any other object with at least one field as a one-row list; otherwise empty.
   */
  function Normalize(results: JValue): (rows: seq<JValue>)
    ensures results.JArr? ==> rows == results.items
    ensures results.JObj? && Prop(results, "result").Some? && Prop(results, "result").value.JArr? ==>
              rows == Prop(results, "result").value.items
    ensures results.JObj? && !(Prop(results, "result").Some? && Prop(results, "result").value.JArr?) ==>
              rows == (if results.fields == [] then [] else [results])
    ensures !results.JArr? && !results.JObj? ==> rows == []
  {
    if results.JArr? then results.items
    else if results.JObj? then
      match Prop(results, "result")
      case Some(JArr(items)) => items
      case _ => if |results.fields| > 0 then [results] else []
    else []
  }

  /** `null` and `{}` give no rows. */
  lemma NormalizeEmpty()
    ensures Normalize(JNull) == [] && Normalize(JObj([])) == []
  {
  }

  /**
   * The per-row test of `filteredData`: falsy rows never match; the row's
   * `nom_eje` (or '') is lower-cased and searched for the lower-cased filter.
   * `None` when that name is a non-string truthy value, whose `toLowerCase` throws.
   */
  function NameMatches(lowerFilter: string, item: JValue): (m: Option<bool>)
    ensures m.None? <==> Truthy(item) && Truthy(GetCI(item, "nom_eje")) && !GetCI(item, "nom_eje").JStr?
    ensures m == Some(true) <==> Truthy(item) && EntityName(item).JStr? && Occurs(Lower(EntityName(item).s), lowerFilter)
  {
    if !Truthy(item) then Some(false)
    else
      var n := EntityName(item);
      if n.JStr? then Some(Includes(Lower(n.s), lowerFilter)) else None
  }

  /** `getValue(item, 'nom_eje') || ''`. */
  function EntityName(item: JValue): JValue {
    Or(GetCI(item, "nom_eje"), JStr(""))
  }

  /**
   * `filteredData`: the rows unchanged for an empty filter; otherwise the rows
   * whose entity name contains the filter, ignoring case. Any throw inside the
   * filter is caught and gives no rows.
   */
  function FilterRows(rows: seq<JValue>, filter: string): (r: seq<JValue>)
    ensures filter == "" ==> r == rows
    ensures Subseq(r, rows)
    ensures filter != "" && (forall i :: 0 <= i < |rows| ==> NameMatches(Lower(filter), rows[i]).Some?) ==>
              forall x :: x in r <==> x in rows && NameMatches(Lower(filter), x) == Some(true)
    ensures filter != "" && (forall i :: 0 <= i < |rows| ==> NameMatches(Lower(filter), rows[i]).Some?) ==>
              forall x :: multiset(r)[x] == if NameMatches(Lower(filter), x) == Some(true) then multiset(rows)[x] else 0
    ensures filter != "" && (exists i :: 0 <= i < |rows| && NameMatches(Lower(filter), rows[i]).None?) ==> r == []
  {
    if filter == "" then SubseqRefl(rows); rows
    else
      var p := item => NameMatches(Lower(filter), item);
      match FilterTry(p, rows)
      case None => []
      case Some(xs) => FilterTryCounts(p, rows); xs
  }

  /** Filtering the shown rows again with the same text shows the same rows. */
  lemma FilterRowsIdempotent(rows: seq<JValue>, filter: string)
    ensures FilterRows(FilterRows(rows, filter), filter) == FilterRows(rows, filter)
  {
    if filter != "" {
      var p := item => NameMatches(Lower(filter), item);
      match FilterTry(p, rows)
      case None =>
      case Some(xs) =>
        assert forall i :: 0 <= i < |xs| ==> p(xs[i]) == Some(true) by {
          forall i | 0 <= i < |xs| ensures p(xs[i]) == Some(true) {
            assert xs[i] in xs;
          }
        }
        FilterTryAllTrue(p, xs);
    }
  }

  /** A row's debt: `parseFloat(getValue(item, 'imp_deu') || 0)`, with `NaN` counted as 0. */
  function Debt(item: JValue): real {
    OrZero(ParseFloat(Or(GetCI(item, "imp_deu"), Int(0))))
  }

  /** A row without a debt field, or with a non-numeric one, contributes 0. */
  lemma MissingOrNonNumericDebtIsZero(item: JValue)
    ensures GetCI(item, "imp_deu") == JNull ==> Debt(item) == 0.0
    ensures ParseFloat(Or(GetCI(item, "imp_deu"), Int(0))).NaN? ==> Debt(item) == 0.0
  {
    ParseFloatInt(0);
  }

  /** `totalDebt`: the debts of the shown rows, added left to right from 0. */
  function TotalDebt(rows: seq<JValue>): (t: real)
    ensures t == SumReal(Map(Debt, rows))
    decreases |rows|
  {
    if rows == [] then 0.0
    else
      var init := rows[..|rows| - 1];
      var ds := Map(Debt, rows);
      assert ds[..|ds| - 1] == Map(Debt, init);
      assert ds[|ds| - 1] == Debt(rows[|rows| - 1]);
      TotalDebt(init) + Debt(rows[|rows| - 1])
  }

  /** The total over two blocks of rows is the sum of the blocks' totals. */
  lemma TotalDebtAppend(xs: seq<JValue>, ys: seq<JValue>)
    ensures TotalDebt(xs + ys) == TotalDebt(xs) + TotalDebt(ys)
  {
    MapAppend(Debt, xs, ys);
    SumRealAppend(Map(Debt, xs), Map(Debt, ys));
  }

  /** What the grid shows: the empty state, or the filtered rows with their total. */
  datatype View = NoResults | Table(rows: seq<JValue>, total: real)

  function Render(results: JValue, filter: string): (v: View)
    ensures v.NoResults? <==> Normalize(results) == []
    ensures v.Table? ==> v.rows == FilterRows(Normalize(results), filter) && v.total == TotalDebt(v.rows)
  {
    var rows := Normalize(results);
    if |rows| == 0 then NoResults
    else
      var shown := FilterRows(rows, filter);
      Table(shown, TotalDebt(shown))
  }

  /** `formatCurrency`: 'S/ 0.00' when the amount does not parse; `locale` formats the rest. */
  function CurrencyText(amount: JValue, locale: real -> string): (t: string)
    ensures ParseFloat(Or(amount, Int(0))).NaN? ==> t == "S/ 0.00"
    ensures ParseFloat(Or(amount, Int(0))).Fin? ==> t == locale(ParseFloat(Or(amount, Int(0))).r)
  {
    var n := ParseFloat(Or(amount, Int(0)));
    if n.NaN? then "S/ 0.00" else locale(n.r)
  }
}

=== FILE: search.dfy ===
/**
 * The taxpayer search: the client call that turns an HTTP reply into data or
 * an error message, and the search form that validates the document number,
 * issues the call and hands the results to the dashboard.
 */
module Search {
  import opened Wrappers
  import opened Text
  import opened Json

  // ---------------------------------------------------------------------------
  // searchByDocument
  // ---------------------------------------------------------------------------

  const DefaultSearchError: string := "Error al buscar contribuyente"
  const SessionExpired: string := "Sesión expirada. Por favor inicie sesión nuevamente."

  /**
   * What `fetch` gave: it threw (with the engine's message), or a response
   * whose body is `None` when it is not JSON.
   */
  datatype Reply =
    | Threw(message: string)
    | Responded(ok: bool, status: int, statusText: string, body: Option<JValue>)

  /**
   * The message thrown on a non-OK response. 401 and 403 always give the
   * session-expired text. Otherwise a JSON body's truthy `message` wins, then
   * the default; a body that is not JSON (or is `null`, whose property read
   * throws into the same `catch`) gives the status text, then the default.
   */
  function FailureMessage(status: int, statusText: string, body: Option<JValue>): (m: string)
    ensures status == 401 || status == 403 ==> m == SessionExpired
    ensures status != 401 && status != 403 && body.Some? && body.value != JNull ==>
              m == (if Truthy(PropOrNull(body.value, "message")) then JsToString(PropOrNull(body.value, "message")) else DefaultSearchError)
    ensures status != 401 && status != 403 && (body.None? || body.value == JNull) ==>
              m == (if statusText != "" then statusText else DefaultSearchError)
  {
    if status == 401 || status == 403 then SessionExpired
    else if body.Some? && body.value != JNull then
      var msg := PropOrNull(body.value, "message");
      if Truthy(msg) then JsToString(msg) else DefaultSearchError
    else if statusText != "" then statusText
    else DefaultSearchError
  }

  /**
   * `searchByDocument`: the parsed body of an OK reply, unchanged; otherwise
   * the message of the error it throws. `syntaxMessage` is the engine's message
   * when an OK body is not JSON. The call reads the token but writes nothing.
   */
  function SearchByDocument(r: Reply, syntaxMessage: string): (res: Result<JValue>)
    ensures r.Responded? && r.ok && r.body.Some? ==> res == Ok(r.body.value)
    ensures r.Responded? && r.ok && r.body.None? ==> res == Err(syntaxMessage)
    ensures r.Responded? && !r.ok ==> res == Err(FailureMessage(r.status, r.statusText, r.body))
    ensures r.Threw? ==> res == Err(r.message)
  {
    match r
    case Threw(m) => Err(m)
    case Responded(ok, status, statusText, body) =>
      if !ok then Err(FailureMessage(status, statusText, body))
      else if body.Some? then Ok(body.value)
      else Err(syntaxMessage)
  }

  /** An expired session is reported the same whatever the server put in the body. */
  lemma AuthFailureIgnoresBody(status: int, t1: string, t2: string, b1: Option<JValue>, b2: Option<JValue>)
    requires status == 401 || status == 403
    ensures FailureMessage(status, t1, b1) == FailureMessage(status, t2, b2) == SessionExpired
  {
  }

  /** A failed reply always carries a message: the fallbacks are never empty. */
  lemma FailureMessageNonEmptyForText(status: int, statusText: string, body: Option<JValue>)
    requires body.None? || body.value == JNull || !Truthy(PropOrNull(body.value, "message")) || PropOrNull(body.value, "message").JStr?
    ensures FailureMessage(status, statusText, body) != ""
  {
  }

  // ---------------------------------------------------------------------------
  // The search form
  // ---------------------------------------------------------------------------

  const ShortDocument: string := "El número de documento debe tener al menos 8 dígitos."
  const NoInformation: string := "El DNI / RUC no tiene información en esta plataforma"
  const ConnectError: string := "Error al conectar con el servidor."
  const NamePending: string := "La búsqueda por nombre estará disponible prontamente."

  /** The form's inputs, by their `name` attribute. */
  datatype FieldName = DocumentNumber | PaternalLast | MaternalLast | FirstName

  datatype FormData = FormData(documentNumber: string, paternalLast: string, maternalLast: string, firstName: string)

  const BlankData: FormData := FormData("", "", "", "")

  /**
   * The form's state, with `shown` the results last handed to the dashboard
   * through `onSearchResults` (`null` hides them).
   */
  datatype Form = Form(searchType: string, data: FormData, error: string, loading: bool, shown: JValue)

  /** The backspace control character the pattern `[0-9\b]` also admits. */
  const Backspace: char := '\U{0008}'

  /** `value === '' || /^[0-9\b]+$/.test(value)`, then `value.length <= 11`. */
  predicate AcceptsDocument(value: string) {
    (value == "" || forall i :: 0 <= i < |value| ==> IsDigit(value[i]) || value[i] == Backspace)
    && |value| <= 11
  }

  /**
   * Deleting from the end never makes an accepted value unacceptable; eleven
   * digits are accepted, twelve or a letter are not.
   */
  lemma AcceptsDocumentForms(value: string, n: nat)
    ensures AcceptsDocument(value) && n <= |value| ==> AcceptsDocument(value[..n])
    ensures AcceptsDocument("") && AcceptsDocument("12345678901")
    ensures !AcceptsDocument("123456789012") && !AcceptsDocument("12a")
  {
    assert !IsDigit("12a"[2]) && "12a"[2] != Backspace;
  }

  /** The document field's value at rest: at most eleven digits or backspaces. */
  predicate ValidDocument(f: Form) {
    AcceptsDocument(f.data.documentNumber)
  }

  function Field(d: FormData, n: FieldName): string {
    match n
    case DocumentNumber => d.documentNumber
    case PaternalLast => d.paternalLast
    case MaternalLast => d.maternalLast
    case FirstName => d.firstName
  }

  /** `{ ...prev, [name]: value }`. */
  function Update(d: FormData, n: FieldName, value: string): (e: FormData)
    ensures Field(e, n) == value
    ensures forall m :: m != n ==> Field(e, m) == Field(d, m)
  {
    match n
    case DocumentNumber => d.(documentNumber := value)
    case PaternalLast => d.(paternalLast := value)
    case MaternalLast => d.(maternalLast := value)
    case FirstName => d.(firstName := value)
  }

  /**
   * `handleChange`: clears the dashboard's results and the error; a document
   * number is taken only when acceptable, any other field verbatim.
   */
  function HandleChange(f: Form, n: FieldName, value: string): (g: Form)
    ensures g.shown == JNull && g.error == ""
    ensures g.searchType == f.searchType && g.loading == f.loading
    ensures n != DocumentNumber ==> g.data == Update(f.data, n, value)
    ensures n == DocumentNumber ==> (g.data == Update(f.data, n, value) <==> AcceptsDocument(value) || f.data.documentNumber == value)
    ensures n == DocumentNumber && !AcceptsDocument(value) ==> g.data == f.data
  {
    var data := if n != DocumentNumber || AcceptsDocument(value) then Update(f.data, n, value) else f.data;
    f.(data := data, error := "", shown := JNull)
  }

  /** No edit can leave a document number the field would have refused. */
  lemma HandleChangeKeepsDocumentValid(f: Form, n: FieldName, value: string)
    requires ValidDocument(f)
    ensures ValidDocument(HandleChange(f, n, value))
  {
  }

  /** `handleTypeChange`: the new type, every field blank, no error, no results. */
  function HandleTypeChange(f: Form, t: string): (g: Form)
    ensures g.searchType == t && g.data == BlankData && g.error == "" && g.shown == JNull
    ensures ValidDocument(g)
  {
    Form(t, BlankData, "", f.loading, JNull)
  }

  /** The outcome of a submit: the form afterwards, and the document number sent, if any. */
  datatype Submitted = Submitted(form: Form, request: Option<string>)

  /**
   * `handleSubmit`, with `reply` what `searchByDocument` gives when it is called.
   * In document mode a number shorter than 8 is refused without a request; an
   * empty array is reported as "no information" and passed up as `[]`; any other
   * data is passed up unchanged; a failure shows its message (or the default)
   * and passes up `[]`. Any other mode only shows the pending-feature message.
   */
  function HandleSubmit(f: Form, reply: Result<JValue>): (s: Submitted)
    ensures s.request.Some? <==> f.searchType == "doc" && |f.data.documentNumber| >= 8
    ensures s.request.Some? ==> s.request.value == f.data.documentNumber
    ensures s.form.data == f.data && s.form.searchType == f.searchType
    ensures s.request.None? ==> s.form.shown == f.shown
    ensures f.searchType != "doc" ==> s.form.error == NamePending
    ensures f.searchType == "doc" && s.request.None? ==> s.form.error == ShortDocument
  {
    if f.searchType == "doc" then
      if |f.data.documentNumber| < 8 then Submitted(f.(error := ShortDocument), None)
      else
        var g := match reply
          case Ok(data) =>
            if data == JArr([]) then f.(error := NoInformation, shown := JArr([]))
            else f.(error := "", shown := data)
          case Err(m) => f.(error := if m != "" then m else ConnectError, shown := JArr([]));
        Submitted(g.(loading := false), Some(f.data.documentNumber))
    else Submitted(f.(error := NamePending), None)
  }

  /** After a request the dashboard holds the data when it is non-empty, and `[]` with an error otherwise. */
  lemma SubmitOutcomes(f: Form, reply: Result<JValue>)
    requires f.searchType == "doc" && |f.data.documentNumber| >= 8
    ensures !HandleSubmit(f, reply).form.loading
    ensures reply.Ok? && reply.value != JArr([]) ==> HandleSubmit(f, reply).form.shown == reply.value && HandleSubmit(f, reply).form.error == ""
    ensures reply.Ok? && reply.value == JArr([]) ==> HandleSubmit(f, reply).form.shown == JArr([]) && HandleSubmit(f, reply).form.error == NoInformation
    ensures reply.Err? ==> HandleSubmit(f, reply).form.shown == JArr([]) && HandleSubmit(f, reply).form.error != ""
  {
  }

  /** A short number is refused whatever the server would have said. */
  lemma ShortDocumentNeverAsks(f: Form, r1: Result<JValue>, r2: Result<JValue>)
    requires f.searchType == "doc" && |f.data.documentNumber| < 8
    ensures HandleSubmit(f, r1) == HandleSubmit(f, r2)
    ensures HandleSubmit(f, r1).request.None?
  {
  }

  /** An expired session seen by the client ends in the session-expired message and an empty result list. */
  lemma ExpiredSessionShownInForm(f: Form, statusText: string, body: Option<JValue>, syntaxMessage: string)
    requires f.searchType == "doc" && |f.data.documentNumber| >= 8
    ensures HandleSubmit(f, SearchByDocument(Responded(false, 401, statusText, body), syntaxMessage)).form.error == SessionExpired
    ensures HandleSubmit(f, SearchByDocument(Responded(false, 401, statusText, body), syntaxMessage)).form.shown == JArr([])
  {
  }
}

=== FILE: session.dfy ===
/**
 * The session kept in browser storage: the login form that writes it, the
 * route guard and route table that read it, the layout that shows it and
 * clears it on logout, and the dashboard's tolerant reading of it.
 */
module Session {
  import opened Wrappers
  import opened Text
  import opened Json
  import opened Storage
  import opened Numbers
  import Auth
  import Passwords
  import Search

  const UserKey: string := "user"
  const TokenKey: string := "token"

  // ---------------------------------------------------------------------------
  // Login form
  // ---------------------------------------------------------------------------

  const NeedEmail: string := "Por favor ingrese su correo electrónico para recuperar la clave."

  datatype LoginField = Email | Password

  /** The login form; `success` is what the success banner shows (falsy: nothing). */
  datatype LoginForm = LoginForm(email: string, password: string, error: string, success: JValue, loading: bool, recovering: bool)

  /** `handleChange`: only the named field changes, and the error is cleared. */
  function EditLogin(f: LoginForm, n: LoginField, value: string): (g: LoginForm)
    ensures n == Email ==> g.email == value && g.password == f.password
    ensures n == Password ==> g.password == value && g.email == f.email
    ensures g.error == "" && g.success == f.success && g.loading == f.loading
  {
    match n
    case Email => f.(email := value, error := "")
    case Password => f.(password := value, error := "")
  }

  /** `handleCancel`: blank credentials, no error, no success message. */
  function Cancel(f: LoginForm): (g: LoginForm)
    ensures g.email == "" && g.password == "" && g.error == "" && !Truthy(g.success)
  {
    f.(email := "", password := "", error := "", success := JStr(""))
  }

  /** The form and the storage after a login attempt, and where the page then navigates. */
  datatype LoginOutcome = LoginOutcome(form: LoginForm, store: Store, navigate: Option<string>)

  /** `localStorage.setItem('user', JSON.stringify(data.user))`: an `undefined` user is stored as the text 'undefined'. */
  function StoredUser(user: Option<JValue>, serialize: JValue -> string): (t: string)
    ensures user.Some? ==> t == serialize(user.value)
    ensures user.None? ==> t == "undefined"
  {
    if user.Some? then serialize(user.value) else "undefined"
  }

  /**
   * `handleLogin`. On a successful reply the user and the token are written
   * first; the welcome text then reads `data.user.nom_com`, which throws when the
   * reply has no user, leaving the writes in place and the error set. A reply
   * of `null` throws before any write. A failure leaves storage untouched.
   */
  function HandleLogin(f: LoginForm, st: Store, reply: Auth.Reply, engine: Auth.Engine, serialize: JValue -> string): (o: LoginOutcome)
    ensures !o.form.loading
    ensures Auth.Call(reply, Auth.LoginError, engine).Err? ==>
              o.store == st && o.navigate.None? && o.form.error != "" &&
              (Auth.Call(reply, Auth.LoginError, engine).message != "" ==> o.form.error == Auth.Call(reply, Auth.LoginError, engine).message)
    ensures Auth.Call(reply, Auth.LoginError, engine).Ok? && Auth.Call(reply, Auth.LoginError, engine).value != JNull ==>
              GetItem(o.store, UserKey) == Some(StoredUser(Prop(Auth.Call(reply, Auth.LoginError, engine).value, "user"), serialize))
              && GetItem(o.store, TokenKey) == Some(JsString(Prop(Auth.Call(reply, Auth.LoginError, engine).value, "token")))
              && forall k :: k != UserKey && k != TokenKey ==> GetItem(o.store, k) == GetItem(st, k)
    ensures o.navigate.Some? ==> o.navigate.value == "/dashboard" && o.form.error == ""
  {
    var f0 := f.(error := "");
    match Auth.Call(reply, Auth.LoginError, engine)
    case Err(m) => LoginOutcome(f0.(error := if m != "" then m else Auth.LoginError, loading := false), st, None)
    case Ok(data) =>
      if data == JNull then
        LoginOutcome(f0.(error := if engine.nullRead != "" then engine.nullRead else Auth.LoginError, loading := false), st, None)
      else
        var user := Prop(data, "user");
        var st1 := SetItem(SetItem(st, UserKey, StoredUser(user, serialize)), TokenKey, JsString(Prop(data, "token")));
        if user.None? || user.value == JNull then
          LoginOutcome(f0.(error := if engine.nullRead != "" then engine.nullRead else Auth.LoginError, loading := false), st1, None)
        else
          var welcome := "¡Bienvenido, " + JsString(Prop(user.value, "nom_com")) + "! Redirigiendo...";
          LoginOutcome(f0.(success := JStr(welcome), loading := false), st1, Some("/dashboard"))
  }

  /** A reply without a user still writes both keys, yet reports an error and stays on the login page. */
  lemma ReplyWithoutUserStillWrites(f: LoginForm, st: Store, token: string, engine: Auth.Engine, serialize: JValue -> string)
    ensures HandleLogin(f, st, Auth.Responded(true, Some(JObj([("token", JStr(token))]))), engine, serialize).navigate.None?
    ensures GetItem(HandleLogin(f, st, Auth.Responded(true, Some(JObj([("token", JStr(token))]))), engine, serialize).store, UserKey) == Some("undefined")
    ensures HandleLogin(f, st, Auth.Responded(true, Some(JObj([("token", JStr(token))]))), engine, serialize).form.error != ""
  {
    PropOfLiteral([("token", JStr(token))], 0);
    assert KeyIndex([("token", JStr(token))], "user") == 1;
  }

  /**
   * A login moves on to the dashboard exactly when the reply carries a user that
   * is not `null`; a stored user that serialises to non-empty text then lets
   * the guard through to the dashboard.
   */
  lemma LoginOpensDashboard(f: LoginForm, st: Store, reply: Auth.Reply, engine: Auth.Engine, serialize: JValue -> string)
    ensures var c := Auth.Call(reply, Auth.LoginError, engine);
            HandleLogin(f, st, reply, engine, serialize).navigate.Some? <==>
              c.Ok? && c.value != JNull && Prop(c.value, "user").Some? && Prop(c.value, "user").value != JNull
    ensures var c := Auth.Call(reply, Auth.LoginError, engine);
            var o := HandleLogin(f, st, reply, engine, serialize);
            o.navigate.Some? && serialize(Prop(c.value, "user").value) != "" ==>
              Route("/dashboard", o.store) == Show(DashboardPage)
  {
    LowerNoCapitals("/dashboard");
  }

  /**
   * `handleRecovery`: an empty e-mail is refused without a request; otherwise
   * the reply's `message` is shown and the error cleared, or the failure's own
   * message is shown (no fallback); reading `message` of a `null` reply throws
   * the engine's own message.
   */
  function HandleRecovery(f: LoginForm, reply: Auth.Reply, engine: Auth.Engine): (r: (LoginForm, bool))
    ensures r.1 <==> f.email != ""
    ensures !r.1 ==> r.0 == f.(error := NeedEmail)
    ensures r.1 ==> !r.0.recovering && r.0.email == f.email && r.0.password == f.password
    ensures r.1 && Auth.Call(reply, Auth.RecoverError, engine).Err? ==> r.0.error == Auth.Call(reply, Auth.RecoverError, engine).message
    ensures var c := Auth.Call(reply, Auth.RecoverError, engine);
            r.1 && c.Ok? && c.value != JNull ==> r.0.success == PropOrNull(c.value, "message") && r.0.error == ""
    ensures var c := Auth.Call(reply, Auth.RecoverError, engine);
            r.1 && c.Ok? && c.value == JNull ==> r.0.error == engine.nullRead && r.0.success == f.success
    ensures r.1 && !(Auth.Call(reply, Auth.RecoverError, engine).Ok? && Auth.Call(reply, Auth.RecoverError, engine).value != JNull) ==>
              r.0.success == f.success
  {
    if f.email == "" then (f.(error := NeedEmail), false)
    else
      var g := match Auth.Call(reply, Auth.RecoverError, engine)
        case Ok(res) =>
          if res == JNull then f.(error := engine.nullRead)
          else f.(success := PropOrNull(res, "message"), error := "")
        case Err(m) => f.(error := m);
      (g.(recovering := false), true)
  }

  // ---------------------------------------------------------------------------
  // Guard and routes
  // ---------------------------------------------------------------------------

  /** `ProtectedRoute`: a stored `user` that is a non-empty string lets the page through; nothing is parsed and the token is not read. */
  predicate GuardPasses(st: Store) {
    GetItem(st, UserKey).Some? && GetItem(st, UserKey).value != ""
  }

  /**
   * Any non-empty stored text lets the guard through, "undefined" and "null"
   * included; a missing or empty user does not.
   */
  lemma GuardAcceptsAnyText(st: Store, text: string)
    ensures text != "" ==> GuardPasses(SetItem(st, UserKey, text))
    ensures GuardPasses(SetItem(st, UserKey, "undefined")) && GuardPasses(SetItem(st, UserKey, "null"))
    ensures !GuardPasses(SetItem(st, UserKey, "")) && !GuardPasses(RemoveItem(st, UserKey))
  {
  }

  /** The guard's decision depends on the stored user text alone. */
  lemma GuardIgnoresToken(st: Store, t: string)
    ensures GuardPasses(SetItem(st, TokenKey, t)) == GuardPasses(st)
    ensures GuardPasses(RemoveItem(st, TokenKey)) == GuardPasses(st)
  {
  }

  /** The pages of the application. */
  datatype Page = LoginPage | ResetPage(token: string) | DashboardPage | ChangePasswordPage | AdminUsersPage

  /** What the router renders: a page, or a redirect. */
  datatype View = Show(page: Page) | Redirect(to: string)

  /** The path without its trailing slashes, which the router ignores. */
  function StripSlashes(p: string): (q: string)
    ensures |q| <= |p| && q == p[..|q|]
    ensures q == "" || q[|q| - 1] != '/'
    decreases |p|
  {
    if p != [] && p[|p| - 1] == '/' then StripSlashes(p[..|p| - 1]) else p
  }

  const ResetPrefix: string := "/reset-password/"

  /** The page a guarded path names, if any (compared without case, as the router does by default). */
  function GuardedPage(lp: string): (r: Option<Page>)
    ensures r.Some? ==> r.value in {DashboardPage, ChangePasswordPage, AdminUsersPage}
  {
    if lp == "/dashboard" then Some(DashboardPage)
    else if lp == "/change-password" then Some(ChangePasswordPage)
    else if lp == "/admin/users" then Some(AdminUsersPage)
    else None
  }

  /** `/reset-password/:token` (prefix without case): a non-empty token with no further '/'. */
  predicate IsResetPath(p: string) {
    |p| > |ResetPrefix| && Lower(p[..|ResetPrefix|]) == ResetPrefix && '/' !in p[|ResetPrefix|..]
  }

  /**
   * The route table of `App`: the login page at '/', the reset page at
   * '/reset-password/:token', three pages behind the guard, and every other path
   * redirected to '/'. Paths are matched without case and trailing slashes are
   * ignored, as the router does by default.
   */
  function Route(path: string, st: Store): (v: View)
    ensures v.Show? && v.page.ResetPage? ==> v.page.token != "" && '/' !in v.page.token
    ensures v.Show? && GuardedPage(Lower(StripSlashes(path))).Some? ==> GuardPasses(st)
    ensures v.Redirect? ==> v.to == "/"
    ensures GuardedPage(Lower(StripSlashes(path))).Some? ==>
              v == (if GuardPasses(st) then Show(GuardedPage(Lower(StripSlashes(path))).value) else Redirect("/"))
    ensures StripSlashes(path) == "" ==> v == Show(LoginPage)
    ensures IsResetPath(StripSlashes(path)) ==> v == Show(ResetPage(StripSlashes(path)[|ResetPrefix|..]))
    ensures v.Show? ==> StripSlashes(path) == "" || GuardedPage(Lower(StripSlashes(path))).Some? || IsResetPath(StripSlashes(path))
  {
    var p := StripSlashes(path);
    var lp := Lower(p);
    if lp == "" then Show(LoginPage)
    else if GuardedPage(lp).Some? then
      assert |lp| <= |"/change-password"|;
      if GuardPasses(st) then Show(GuardedPage(lp).value) else Redirect("/")
    else if IsResetPath(p) then
      Show(ResetPage(p[|ResetPrefix|..]))
    else Redirect("/")
  }

  /** '/' and a reset link are reachable without a session. */
  lemma PublicRoutes(token: string)
    requires token != "" && '/' !in token
    ensures Route("/", map[]) == Show(LoginPage)
    ensures Route(ResetPrefix + token, map[]) == Show(ResetPage(token))
  {
    assert StripSlashes("/") == "" by {
      assert "/"[..0] == "";
    }
    var p := ResetPrefix + token;
    assert p[|p| - 1] == token[|token| - 1];
    assert StripSlashes(p) == p;
    assert |Lower(p)| > |"/change-password"|;
    assert p[..|ResetPrefix|] == ResetPrefix && p[|ResetPrefix|..] == token;
    LowerNoCapitals(ResetPrefix);
  }

  /** The user administration page needs only a session, not the administrator flag. */
  lemma AdminNeedsOnlySession(st: Store)
    requires GuardPasses(st)
    ensures Route("/admin/users", st) == Show(AdminUsersPage)
  {
    LowerNoCapitals("/admin/users");
  }

  /** Without a session every guarded page redirects to the login page. */
  lemma NoSessionRedirects(path: string, st: Store)
    requires !GuardPasses(st) && GuardedPage(Lower(StripSlashes(path))).Some?
    ensures Route(path, st) == Redirect("/")
  {
  }

  // ---------------------------------------------------------------------------
  // Layout
  // ---------------------------------------------------------------------------

  /**
   * The layout's user: `JSON.parse(localStorage.getItem('user') || '{}')` with no
   * guard, so text that does not parse makes the page throw (`None`).
   */
  function LayoutUser(st: Store, parse: string -> Option<JValue>): (u: Option<JValue>)
    ensures u == parse(if GetItem(st, UserKey).Some? && GetItem(st, UserKey).value != "" then GetItem(st, UserKey).value else "{}")
  {
    var raw := GetItem(st, UserKey);
    parse(if raw.Some? && raw.value != "" then raw.value else "{}")
  }

  /** `user.nom_com || 'Usuario'`. */
  function DisplayName(user: JValue): (n: JValue)
    ensures Truthy(PropOrNull(user, "nom_com")) ==> n == PropOrNull(user, "nom_com")
    ensures !Truthy(PropOrNull(user, "nom_com")) ==> n == JStr("Usuario")
    ensures Truthy(n)
  {
    Or(PropOrNull(user, "nom_com"), JStr("Usuario"))
  }

  /**
   * `(user.nom_com || 'U').charAt(0).toUpperCase()`: the first character of the
   * name, upper-cased; a truthy name that is not a string has no `charAt` and
   * throws (`None`).
   */
  function Initial(user: JValue): (r: Option<string>)
    ensures !Truthy(PropOrNull(user, "nom_com")) ==> r == Some("U")
    ensures PropOrNull(user, "nom_com").JStr? && PropOrNull(user, "nom_com").s != "" ==>
              r == Some(UpperChar(PropOrNull(user, "nom_com").s[0]))
    ensures r.None? <==> Truthy(PropOrNull(user, "nom_com")) && !PropOrNull(user, "nom_com").JStr?
  {
    match Or(PropOrNull(user, "nom_com"), JStr("U"))
    case JStr(s) => if s == "" then Some("U") else Some(UpperChar(s[0]))
    case _ => None
  }

  /** `user.des_dis ? `${user.des_dis}, ${user.des_pro}` : 'Sin ubicación'`. */
  function Location(user: JValue): (t: string)
    ensures Truthy(PropOrNull(user, "des_dis")) ==> t == JsToString(PropOrNull(user, "des_dis")) + ", " + JsString(Prop(user, "des_pro"))
    ensures !Truthy(PropOrNull(user, "des_dis")) ==> t == "Sin ubicación"
  {
    if Truthy(PropOrNull(user, "des_dis")) then JsToString(PropOrNull(user, "des_dis")) + ", " + JsString(Prop(user, "des_pro"))
    else "Sin ubicación"
  }

  /** A district without a province prints the province as 'undefined'. */
  lemma DistrictWithoutProvince(d: string)
    requires d != ""
    ensures Location(JObj([("des_dis", JStr(d))])) == d + ", undefined"
  {
    PropOfLiteral([("des_dis", JStr(d))], 0);
    assert KeyIndex([("des_dis", JStr(d))], "des_pro") == 1;
  }

  /** `user.dir_not || placeholder`; the header and the mobile menu use different placeholders. */
  function Address(user: JValue, placeholder: string): (a: JValue)
    ensures Truthy(PropOrNull(user, "dir_not")) ==> a == PropOrNull(user, "dir_not")
    ensures !Truthy(PropOrNull(user, "dir_not")) ==> a == JStr(placeholder)
  {
    Or(PropOrNull(user, "dir_not"), JStr(placeholder))
  }

  const HeaderNoAddress: string := "Dirección no registrada"
  const MenuNoAddress: string := "Sin dirección"

  /** The administration link is shown only for `flg_adm === 1`. */
  predicate ShowsAdminLink(user: JValue) {
    IsOne(PropOrNull(user, "flg_adm"))
  }

  /** The link shows exactly when the user's `flg_adm` is present and is the number 1. */
  lemma AdminLinkIff(user: JValue)
    ensures ShowsAdminLink(user) <==>
              Prop(user, "flg_adm").Some? && Prop(user, "flg_adm").value.JNum? && ToNumber(Prop(user, "flg_adm").value.text) == Fin(1.0)
  {
    IsOneMeans(PropOrNull(user, "flg_adm"));
  }

  /** The text '1' does not show the link, although it loosely equals 1. */
  lemma AdminFlagIsStrict()
    ensures !ShowsAdminLink(JObj([("flg_adm", JStr("1"))]))
    ensures LooseEqOne(JStr("1"))
  {
    PropOfLiteral([("flg_adm", JStr("1"))], 0);
    IntRoundTrip(1);
    assert JsToString(JStr("1")) == IntToString(1);
  }

  /** `handleLogout`: both keys removed, then the login page. */
  function Logout(st: Store): (r: (Store, string))
    ensures GetItem(r.0, UserKey).None? && GetItem(r.0, TokenKey).None?
    ensures forall k :: k != UserKey && k != TokenKey ==> GetItem(r.0, k) == GetItem(st, k)
    ensures r.1 == "/"
  {
    (RemoveItem(RemoveItem(st, UserKey), TokenKey), "/")
  }

  /** After logout every guarded page redirects. */
  lemma LogoutLocksGuardedPages(st: Store, path: string)
    requires GuardedPage(Lower(StripSlashes(path))).Some?
    ensures Route(path, Logout(st).0) == Redirect("/")
  {
  }

  /** Login then logout leaves a store that had no session without one again. */
  lemma LoginThenLogout(st: Store, u: string, t: string)
    requires UserKey !in st && TokenKey !in st
    ensures Logout(SetItem(SetItem(st, UserKey, u), TokenKey, t)).0 == st
  {
    assert Logout(SetItem(SetItem(st, UserKey, u), TokenKey, t)).0.Keys == st.Keys;
  }

  // ---------------------------------------------------------------------------
  // Dashboard
  // ---------------------------------------------------------------------------

  /** The dashboard's user: like the layout's, but text that does not parse gives `{}` instead of throwing. */
  function DashboardUser(st: Store, parse: string -> Option<JValue>): (u: JValue)
    ensures LayoutUser(st, parse).Some? ==> u == LayoutUser(st, parse).value
    ensures LayoutUser(st, parse).None? ==> u == JObj([])
  {
    LayoutUser(st, parse).GetOr(JObj([]))
  }

  /** Unreadable stored text gives the dashboard an empty user, which raises no password alert. */
  lemma UnreadableUserRaisesNoAlert(st: Store, parse: string -> Option<JValue>, parseDate: JValue -> Option<int>, now: int)
    requires LayoutUser(st, parse).None?
    ensures Passwords.AlertFor(DashboardUser(st, parse), parseDate, now) == Passwords.NoAlert
  {
    assert KeyIndex([], "flg_cam_psw") == 0;
  }

  /** The results section is rendered iff the results are truthy: `null` hides it, `[]` shows it. */
  predicate ShowsResults(results: JValue) {
    Truthy(results)
  }

  /** Any edit of the search form hides the results section; a failed search shows an empty one. */
  lemma SearchEditsHideResults(f: Search.Form, n: Search.FieldName, value: string, t: string)
    ensures !ShowsResults(Search.HandleChange(f, n, value).shown)
    ensures !ShowsResults(Search.HandleTypeChange(f, t).shown)
    ensures ShowsResults(JArr([]))
  {
  }
}

=== FILE: storage.dfy ===
/**
 * Browser `localStorage` as a map from key to string, and the way a stored
 * value prints inside a template literal.
 */
module Storage {
  import opened Wrappers

  type Store = map<string, string>

  /** `localStorage.getItem(k)`: `null` (here `None`) when the key is absent. */
  function GetItem(st: Store, k: string): (r: Option<string>)
    ensures r.Some? <==> k in st
    ensures r.Some? ==> r.value == st[k]
  {
    if k in st then Some(st[k]) else None
  }

  /** `localStorage.setItem(k, v)`. */
  function SetItem(st: Store, k: string, v: string): (t: Store)
    ensures GetItem(t, k) == Some(v)
    ensures forall k' :: k' != k ==> GetItem(t, k') == GetItem(st, k')
  {
    st[k := v]
  }

  /** `localStorage.removeItem(k)`. */
  function RemoveItem(st: Store, k: string): (t: Store)
    ensures GetItem(t, k).None?
    ensures forall k' :: k' != k ==> GetItem(t, k') == GetItem(st, k')
  {
    st - {k}
  }

  /** Writing a key and removing it again leaves a store that was without the key as it was. */
  lemma SetThenRemove(st: Store, k: string, v: string)
    requires k !in st
    ensures RemoveItem(SetItem(st, k, v), k) == st
  {
    assert RemoveItem(SetItem(st, k, v), k).Keys == st.Keys;
  }

  /** `${token}` in a template literal: a missing item prints as 'null'. */
  function TokenText(token: Option<string>): (t: string)
    ensures token.Some? ==> t == token.value
    ensures token.None? ==> t == "null"
  {
    token.GetOr("null")
  }
}

=== FILE: text.dfy ===
/**
 * String primitives of the JavaScript runtime that the dashboard relies on:
 * `toLowerCase`/`toUpperCase` (Latin-1 range), the `\s` whitespace class,
 * `String.prototype.includes`, `split` on one character, `trim`, and the
 * `split(/\s+/).filter(t => t.length > 0)` tokenisation.
 */
module Text {

  // ---------------------------------------------------------------------------
  // Case mapping
  // ---------------------------------------------------------------------------

  /** Upper-case letters of the ASCII and Latin-1 ranges whose lower-case form is 32 code points above. */
  predicate IsUpperLatin1(c: char) {
    ('A' <= c <= 'Z') || ('À' <= c <= 'Þ' && c != '×')
  }

  /** Lower-case letters of the ASCII and Latin-1 ranges whose upper-case form is 32 code points below. */
  predicate IsLowerLatin1(c: char) {
    ('a' <= c <= 'z') || ('à' <= c <= 'þ' && c != '÷')
  }

  function LowerChar(c: char): (r: char)
    ensures IsUpperLatin1(c) ==> IsLowerLatin1(r) && r as int == c as int + 32
    ensures !IsUpperLatin1(c) ==> r == c
  {
    if IsUpperLatin1(c) then (c as int + 32) as char else c
  }

  /** `toLowerCase`, restricted to the ASCII and Latin-1 letters (enough for Spanish text). */
  function Lower(s: string): (r: string)
    ensures |r| == |s|
    ensures forall i :: 0 <= i < |s| ==> r[i] == LowerChar(s[i])
    ensures forall i :: 0 <= i < |r| ==> !IsUpperLatin1(r[i])
    ensures forall i :: 0 <= i < |s| && !IsUpperLatin1(s[i]) ==> r[i] == s[i]
  {
    seq(|s|, i requires 0 <= i < |s| => LowerChar(s[i]))
  }

  lemma LowerIdempotent(s: string)
    ensures Lower(Lower(s)) == Lower(s)
  {
    assert forall i :: 0 <= i < |s| ==> !IsUpperLatin1(Lower(s)[i]);
  }

  /** Text without capitals is its own lower-case form. */
  lemma LowerNoCapitals(s: string)
    requires forall i :: 0 <= i < |s| ==> !IsUpperLatin1(s[i])
    ensures Lower(s) == s
  {
  }

  lemma LowerAppend(a: string, b: string)
    ensures Lower(a + b) == Lower(a) + Lower(b)
  {
  }

  /**
   * `toUpperCase` of one character, as a string because JavaScript maps
   * 'ß' to "SS". Latin-1 lower-case letters map 32 code points down, 'ÿ' maps to 'Ÿ'.
   */
  function UpperChar(c: char): (r: string)
    ensures |r| >= 1
  {
    if c == 'ß' then "SS"
    else if c == 'ÿ' then "Ÿ"
    else if IsLowerLatin1(c) then [(c as int - 32) as char]
    else [c]
  }

  // ---------------------------------------------------------------------------
  // Whitespace (the `\s` class of ECMAScript regular expressions, also used by `trim`)
  // ---------------------------------------------------------------------------

  predicate IsSpace(c: char) {
    c == ' ' || c == '\t' || c == '\n' || c == '\r' || c == '\U{000B}' || c == '\U{000C}'
    || c == '\U{00A0}' || c == '\U{1680}' || ('\U{2000}' <= c <= '\U{200A}')
    || c == '\U{2028}' || c == '\U{2029}' || c == '\U{202F}' || c == '\U{205F}'
    || c == '\U{3000}' || c == '\U{FEFF}'
  }

  predicate AllSpace(s: string) {
    forall i :: 0 <= i < |s| ==> IsSpace(s[i])
  }

  predicate NoSpace(s: string) {
    forall i :: 0 <= i < |s| ==> !IsSpace(s[i])
  }

  /** `trimStart`: drop leading whitespace. */
  function TrimStart(s: string): (r: string)
    ensures |r| <= |s| && r == s[|s| - |r|..]
    ensures r == [] || !IsSpace(r[0])
    ensures AllSpace(s[..|s| - |r|])
    decreases |s|
  {
    if s != [] && IsSpace(s[0]) then TrimStart(s[1..]) else s
  }

  /** `trimEnd`: drop trailing whitespace. */
  function TrimEnd(s: string): (r: string)
    ensures |r| <= |s| && r == s[..|r|]
    ensures r == [] || !IsSpace(r[|r| - 1])
    ensures AllSpace(s[|r|..])
    decreases |s|
  {
    if s != [] && IsSpace(s[|s| - 1]) then
      var init := s[..|s| - 1];
      var r := TrimEnd(init);
      assert init[..|r|] == s[..|r|];
      assert forall i :: |r| <= i < |init| ==> s[i] == init[i];
      r
    else s
  }

  /** `r` is `s` with the whitespace before index `i` and after `i + |r|` removed. */
  predicate TrimmedAt(s: string, r: string, i: int) {
    0 <= i && i + |r| <= |s| && s[i..i + |r|] == r && AllSpace(s[..i]) && AllSpace(s[i + |r|..])
  }

  /** `trim`. */
  function Trim(s: string): string {
    TrimEnd(TrimStart(s))
  }

  /**
   * `trim` keeps a run of `s` that neither starts nor ends with whitespace and
   * removes only whitespace around it.
   */
  lemma TrimShape(s: string)
    ensures var r := Trim(s); r == [] || (!IsSpace(r[0]) && !IsSpace(r[|r| - 1]))
    ensures exists i :: TrimmedAt(s, Trim(s), i)
  {
    var u := TrimStart(s);
    var r := TrimEnd(u);
    var i := |s| - |u|;
    assert s[i..i + |r|] == r;
    assert s[i + |r|..] == u[|r|..];
    if r != [] {
      assert r[0] == u[0];
    }
    assert TrimmedAt(s, r, i);
  }

  lemma {:induction false} TrimEmptyIffAllSpace(s: string)
    ensures Trim(s) == [] <==> AllSpace(s)
  {
    var t := TrimStart(s);
    assert t != [] ==> t[0] == s[|s| - |t|];
    assert t == [] ==> s[..|s| - |t|] == s;
    assert TrimEnd(t) == [] ==> t[|TrimEnd(t)|..] == t;
  }

  // ---------------------------------------------------------------------------
  // Substring search (`String.prototype.includes`)
  // ---------------------------------------------------------------------------

  predicate At(hay: string, needle: string, i: int) {
    0 <= i && i + |needle| <= |hay| && hay[i..i + |needle|] == needle
  }

  /** The reference meaning of `hay.includes(needle)`: `needle` occurs at some index of `hay`. */
  ghost predicate Occurs(hay: string, needle: string) {
    exists i :: At(hay, needle, i)
  }

  lemma OccursShift(hay: string, needle: string)
    requires |hay| > 0
    ensures Occurs(hay, needle) <==> At(hay, needle, 0) || Occurs(hay[1..], needle)
  {
    if Occurs(hay, needle) && !At(hay, needle, 0) {
      var i :| At(hay, needle, i);
      assert hay[1..][i - 1..i - 1 + |needle|] == hay[i..i + |needle|];
      assert At(hay[1..], needle, i - 1);
    }
    if Occurs(hay[1..], needle) {
      var i :| At(hay[1..], needle, i);
      assert hay[1..][i..i + |needle|] == hay[i + 1..i + 1 + |needle|];
      assert At(hay, needle, i + 1);
    }
  }

  /** Executable `hay.includes(needle)`, scanning left to right. */
  function Includes(hay: string, needle: string): (r: bool)
    ensures r <==> Occurs(hay, needle)
    decreases |hay|
  {
    if |needle| > |hay| then
      assert forall i :: !At(hay, needle, i);
      false
    else if hay[..|needle|] == needle then
      assert At(hay, needle, 0);
      true
    else
      OccursShift(hay, needle);
      Includes(hay[1..], needle)
  }

  lemma IncludesEmpty(hay: string)
    ensures Includes(hay, "")
  {
    assert At(hay, "", 0);
  }

  lemma IncludesSelf(s: string)
    ensures Includes(s, s)
  {
    assert At(s, s, 0);
  }

  /** `s.startsWith(p)`. */
  predicate StartsWith(s: string, p: string) {
    |p| <= |s| && s[..|p|] == p
  }

  /** `s.endsWith(p)`. */
  predicate EndsWith(s: string, p: string) {
    |p| <= |s| && s[|s| - |p|..] == p
  }

  lemma ConcatEnds(a: string, b: string)
    ensures StartsWith(a + b, a) && EndsWith(a + b, b)
  {
    assert (a + b)[..|a|] == a;
    assert (a + b)[|a|..] == b;
  }

  /** A string assembled from four pieces starts with the first two, ends with the last and contains the third. */
  lemma ConcatShape(a: string, b: string, c: string, d: string)
    ensures StartsWith(a + b + c + d, a)
    ensures StartsWith(a + b + c + d, a + b)
    ensures EndsWith(a + b + c + d, d)
    ensures Includes(a + b + c + d, c)
  {
    ConcatEnds(a + b + c, d);
    ConcatEnds(a + b, c);
    ConcatEnds(a, b);
    StartsWithTrans(a + b + c + d, a + b + c, a + b);
    StartsWithTrans(a + b + c + d, a + b, a);
    IncludesInConcat(a + b, c, d);
  }

  /** A prefix of a prefix is a prefix. */
  lemma StartsWithTrans(s: string, p: string, q: string)
    requires StartsWith(s, p) && StartsWith(p, q)
    ensures StartsWith(s, q)
  {
    assert s[..|q|] == s[..|p|][..|q|];
  }

  lemma IncludesInConcat(a: string, b: string, c: string)
    ensures Includes(a + b + c, b)
  {
    assert (a + b + c)[|a|..|a| + |b|] == b;
    assert At(a + b + c, b, |a|);
  }

  // ---------------------------------------------------------------------------
  // Tokenisation: `s.split(/\s+/).filter(t => t.length > 0)`
  // ---------------------------------------------------------------------------

  /** The longest whitespace-free prefix of `s`. */
  function Word(s: string): (w: string)
    ensures |w| <= |s| && w == s[..|w|]
    ensures NoSpace(w)
    ensures |w| < |s| ==> IsSpace(s[|w|])
    decreases |s|
  {
    if s == [] || IsSpace(s[0]) then [] else [s[0]] + Word(s[1..])
  }

  /** The non-empty maximal runs of non-whitespace characters, in order. */
  function Tokens(s: string): (ts: seq<string>)
    ensures forall j :: 0 <= j < |ts| ==> |ts[j]| > 0 && NoSpace(ts[j])
    decreases |s|
  {
    if s == [] then []
    else if IsSpace(s[0]) then Tokens(s[1..])
    else
      var w := Word(s);
      [w] + Tokens(s[|w|..])
  }

  lemma {:induction false} TokensEmptyIffAllSpace(s: string)
    ensures Tokens(s) == [] <==> AllSpace(s)
    decreases |s|
  {
    if s != [] {
      if IsSpace(s[0]) {
        TokensEmptyIffAllSpace(s[1..]);
        assert AllSpace(s) <==> AllSpace(s[1..]) by {
          if AllSpace(s[1..]) {
            forall i | 0 <= i < |s| ensures IsSpace(s[i]) {
              if i > 0 { assert s[i] == s[1..][i - 1]; }
            }
          }
        }
      }
    }
  }

  /** Every token is an infix of the tokenised string. */
  lemma {:induction false} TokensOccur(s: string)
    ensures forall j :: 0 <= j < |Tokens(s)| ==> Occurs(s, Tokens(s)[j])
    decreases |s|
  {
    if s != [] {
      if IsSpace(s[0]) {
        TokensOccur(s[1..]);
        forall j | 0 <= j < |Tokens(s)| ensures Occurs(s, Tokens(s)[j]) {
          var i :| At(s[1..], Tokens(s)[j], i);
          assert s[1..][i..i + |Tokens(s)[j]|] == s[i + 1..i + 1 + |Tokens(s)[j]|];
          assert At(s, Tokens(s)[j], i + 1);
        }
      } else {
        var w := Word(s);
        var rest := s[|w|..];
        TokensOccur(rest);
        forall j | 0 <= j < |Tokens(s)| ensures Occurs(s, Tokens(s)[j]) {
          if j == 0 {
            assert At(s, w, 0);
          } else {
            assert Tokens(s)[j] == Tokens(rest)[j - 1];
            var i :| At(rest, Tokens(rest)[j - 1], i);
            var t := Tokens(rest)[j - 1];
            assert rest[i..i + |t|] == s[|w| + i..|w| + i + |t|];
            assert At(s, t, |w| + i);
          }
        }
      }
    }
  }

  // ---------------------------------------------------------------------------
  // `s.split(sep)` for a one-character separator, and its inverse `join`
  // ---------------------------------------------------------------------------

  /** Index of the first occurrence of `c` in `s`, or `|s|` when there is none. */
  function IndexOf(s: string, c: char): (k: nat)
    ensures k <= |s|
    ensures forall i :: 0 <= i < k ==> s[i] != c
    ensures k < |s| ==> s[k] == c
    decreases |s|
  {
    if s == [] then 0 else if s[0] == c then 0 else 1 + IndexOf(s[1..], c)
  }

  /** `s.split(sep)`: none of the parts holds the separator. */
  function Split(s: string, sep: char): (parts: seq<string>)
    ensures |parts| >= 1
    ensures forall j :: 0 <= j < |parts| ==> sep !in parts[j]
    decreases |s|
  {
    var k := IndexOf(s, sep);
    if k == |s| then [s] else [s[..k]] + Split(s[k + 1..], sep)
  }

  /** `split` yields one more part than there are separators. */
  lemma {:induction false} SplitCount(s: string, sep: char)
    ensures |Split(s, sep)| == multiset(s)[sep] + 1
    decreases |s|
  {
    var k := IndexOf(s, sep);
    assert sep !in s[..k];
    assert multiset(s[..k])[sep] == 0;
    if k == |s| {
      assert s[..k] == s;
    } else {
      assert s == s[..k] + [sep] + s[k + 1..];
      SplitCount(s[k + 1..], sep);
    }
  }

  /** `parts.join(sep)`. */
  function Join(parts: seq<string>, sep: string): string
    decreases |parts|
  {
    if |parts| == 0 then ""
    else if |parts| == 1 then parts[0]
    else parts[0] + sep + Join(parts[1..], sep)
  }

  /** Splitting and re-joining on the same separator gives back the string. */
  lemma {:induction false} JoinSplit(s: string, sep: char)
    ensures Join(Split(s, sep), [sep]) == s
    decreases |s|
  {
    var k := IndexOf(s, sep);
    if k < |s| {
      JoinSplit(s[k + 1..], sep);
      var rest := Split(s[k + 1..], sep);
      assert Split(s, sep) == [s[..k]] + rest;
      assert ([s[..k]] + rest)[1..] == rest;
      assert s == s[..k] + [sep] + s[k + 1..];
    }
  }

  /** A prefix free of the separator comes out as the first part. */
  lemma SplitCons(a: string, sep: char, b: string)
    requires sep !in a
    ensures Split(a + [sep] + b, sep) == [a] + Split(b, sep)
  {
    var s := a + [sep] + b;
    var k := IndexOf(s, sep);
    assert forall i :: 0 <= i < |a| ==> s[i] == a[i];
    assert s[|a|] == sep;
    assert k == |a|;
    assert s[..k] == a;
    assert s[k + 1..] == b;
  }

  lemma SplitNone(s: string, sep: char)
    requires sep !in s
    ensures Split(s, sep) == [s]
  {
    var k := IndexOf(s, sep);
    assert forall i :: 0 <= i < |s| ==> s[i] != sep;
  }

  /** Three pieces free of the separator, joined by it, split back into the three pieces. */
  lemma SplitThree(a: string, b: string, c: string, sep: char)
    requires sep !in a && sep !in b && sep !in c
    ensures Split(a + [sep] + b + [sep] + c, sep) == [a, b, c]
  {
    var bc := b + [sep] + c;
    assert a + [sep] + b + [sep] + c == a + [sep] + bc;
    assert Split(a + [sep] + bc, sep) == [a] + [b, c] by {
      SplitCons(a, sep, bc);
      SplitTwo(b, c, sep);
    }
    assert [a] + [b, c] == [a, b, c];
  }

  lemma SplitTwo(b: string, c: string, sep: char)
    requires sep !in b && sep !in c
    ensures Split(b + [sep] + c, sep) == [b, c]
  {
    SplitCons(b, sep, c);
    SplitNone(c, sep);
  }

  /** The UTF-16 code units of one character: two outside the Basic Multilingual Plane. */
  function Units(c: char): nat {
    if c < '\U{10000}' then 1 else 2
  }

  /** `s.length`: characters outside the Basic Multilingual Plane count twice in UTF-16. */
  function Utf16Length(s: string): (n: nat)
    ensures n >= |s|
    ensures (forall i :: 0 <= i < |s| ==> s[i] < '\U{10000}') ==> n == |s|
    decreases |s|
  {
    if s == [] then 0 else Units(s[0]) + Utf16Length(s[1..])
  }

  /** The UTF-16 length of a concatenation is the sum of the lengths. */
  lemma {:induction false} Utf16Append(a: string, b: string)
    ensures Utf16Length(a + b) == Utf16Length(a) + Utf16Length(b)
    decreases |a|
  {
    if a == [] {
      assert a + b == b;
    } else {
      assert (a + b)[1..] == a[1..] + b;
      Utf16Append(a[1..], b);
    }
  }

  /**
   * `s.substring(0, n)` counted in UTF-16 code units: the longest run of whole
   * characters from the start that fits in `n` units.
   */
  function Utf16Take(s: string, n: nat): (r: string)
    ensures |r| <= |s| && r == s[..|r|]
    ensures Utf16Length(r) <= n
    ensures |r| < |s| ==> Utf16Length(r) + Units(s[|r|]) > n
    ensures Utf16Length(s) <= n ==> r == s
    decreases |s|
  {
    if s == [] || Units(s[0]) > n then []
    else
      var rest := Utf16Take(s[1..], n - Units(s[0]));
      var r := [s[0]] + rest;
      assert r[1..] == rest && r[0] == s[0];
      assert Utf16Length(r) == Units(s[0]) + Utf16Length(rest);
      assert |r| < |s| ==> s[|r|] == s[1..][|rest|];
      r
  }

  /** On text inside the Basic Multilingual Plane the UTF-16 cut is the plain cut. */
  lemma Utf16TakeBmp(s: string, n: nat)
    requires forall i :: 0 <= i < |s| ==> s[i] < '\U{10000}'
    ensures Utf16Take(s, n) == Take(s, n)
  {
    var r := Utf16Take(s, n);
    assert forall i :: 0 <= i < |r| ==> r[i] == s[i];
    assert Utf16Length(r) == |r|;
    assert |r| < |s| ==> Units(s[|r|]) == 1;
  }

  /** Digits within the unit budget are kept whole by the UTF-16 cut. */
  lemma DigitsFitUtf16(t: string, n: nat)
    requires AllDigits(t) && |t| <= n
    ensures Utf16Take(t, n) == t
  {
    assert forall i :: 0 <= i < |t| ==> t[i] < '\U{10000}';
  }

  /** `str.slice(0, n)`. */
  function Take(s: string, n: nat): (r: string)
    ensures |r| == if |s| < n then |s| else n
    ensures r == s[..|r|]
  {
    if |s| <= n then s else s[..n]
  }

  predicate IsDigit(c: char) {
    '0' <= c <= '9'
  }

  predicate AllDigits(s: string) {
    forall i :: 0 <= i < |s| ==> IsDigit(s[i])
  }
}

=== FILE: users.dfy ===
/**
 * The user-administration page: users are grouped by their notary entity
 * (`ide_not_sol_ser`), one user's active flag can be toggled, and entity groups
 * expand and collapse.
 */
module Users {
  import opened Wrappers
  import opened Numbers
  import opened Json
  import opened Lists

  // ---------------------------------------------------------------------------
  // Grouping
  // ---------------------------------------------------------------------------

  /**
   * The property name a user is grouped under, `String(user.ide_not_sol_ser)`
   * (a missing field groups under "undefined"); `None` for a `null` user, on
   * which the property access throws.
   */
  function GroupKey(u: JValue): (k: Option<string>)
    ensures k.None? <==> u.JNull?
    ensures !u.JNull? && Prop(u, "ide_not_sol_ser").None? ==> k == Some("undefined")
    ensures !u.JNull? && Prop(u, "ide_not_sol_ser").Some? ==> k == Some(JsToString(Prop(u, "ide_not_sol_ser").value))
  {
    if u.JNull? then None
    else match Prop(u, "ide_not_sol_ser")
      case None => Some("undefined")
      case Some(v) => Some(JsToString(v))
  }

  /** A group's display name: `user.nom_usu || 'Entidad Sin Nombre'`. */
  function GroupName(u: JValue): (n: JValue)
    ensures Truthy(n)
  {
    Or(PropOrNull(u, "nom_usu"), JStr("Entidad Sin Nombre"))
  }

  datatype UserGroup = UserGroup(name: JValue, members: seq<JValue>)

  /** The users grouped under `k`, in input order. */
  function Members(us: seq<JValue>, k: string): (ms: seq<JValue>)
    ensures forall u :: u in ms <==> u in us && GroupKey(u) == Some(k)
    ensures Subseq(ms, us)
  {
    Filter(u => GroupKey(u) == Some(k), us)
  }

  lemma MembersAppend(us: seq<JValue>, u: JValue, k: string)
    ensures Members(us + [u], k) == Members(us, k) + (if GroupKey(u) == Some(k) then [u] else [])
  {
    FilterAppendOne(u => GroupKey(u) == Some(k), us, u);
  }

  /**
   * `groupedUsers`: the `reduce` that creates a group the first time its key is
   * seen, named after that user, and appends every user to its group. `None`
   * when a `null` user makes the reduce throw.
   */
  function GroupUsers(us: seq<JValue>): (r: Option<map<string, UserGroup>>)
    ensures r.None? <==> exists i :: 0 <= i < |us| && us[i].JNull?
    decreases |us|
  {
    if us == [] then Some(map[])
    else
      var init := us[..|us| - 1];
      var u := us[|us| - 1];
      assert forall i :: 0 <= i < |init| ==> init[i] == us[i];
      match GroupUsers(init)
      case None => None
      case Some(m) =>
        match GroupKey(u)
        case None => None
        case Some(k) =>
          if k in m then Some(m[k := m[k].(members := m[k].members + [u])])
          else Some(m[k := UserGroup(GroupName(u), [u])])
  }

  /**
   * Every user lands in the group of its key and nowhere else; each group holds
   * exactly the users with its key, in input order, and is named after the first.
   */
  lemma {:induction false} GroupUsersSpec(us: seq<JValue>)
    requires GroupUsers(us).Some?
    ensures var m := GroupUsers(us).value;
            forall k :: (k in m <==> Members(us, k) != [])
                        && (k in m ==> m[k].members == Members(us, k) && m[k].name == GroupName(Members(us, k)[0]))
    decreases |us|
  {
    if us != [] {
      var init := us[..|us| - 1];
      var u := us[|us| - 1];
      assert us == init + [u];
      assert forall i :: 0 <= i < |init| ==> init[i] == us[i];
      GroupUsersSpec(init);
      var m0 := GroupUsers(init).value;
      var m := GroupUsers(us).value;
      var ku := GroupKey(u).value;
      assert m == if ku in m0 then m0[ku := m0[ku].(members := m0[ku].members + [u])]
                  else m0[ku := UserGroup(GroupName(u), [u])];
      forall k
        ensures (k in m <==> Members(us, k) != [])
        ensures k in m ==> m[k].members == Members(us, k) && m[k].name == GroupName(Members(us, k)[0])
      {
        MembersAppend(init, u, k);
        if k == ku {
          if ku in m0 {
            assert Members(us, k) == Members(init, k) + [u];
            assert Members(us, k)[0] == Members(init, k)[0];
          } else {
            assert Members(init, k) == [];
            assert Members(us, k) == [u];
          }
        } else {
          assert Members(us, k) == Members(init, k);
        }
      }
    }
  }

  /** `Σ |Members(us, k)|` over a list of keys. */
  function SizeSum(us: seq<JValue>, ks: seq<string>): nat
    decreases |ks|
  {
    if ks == [] then 0 else |Members(us, ks[0])| + SizeSum(us, ks[1..])
  }

  predicate NoDuplicates(ks: seq<string>) {
    forall i, j :: 0 <= i < j < |ks| ==> ks[i] != ks[j]
  }

  lemma {:induction false} SizeSumStep(us: seq<JValue>, u: JValue, ks: seq<string>)
    requires GroupKey(u).Some? && NoDuplicates(ks)
    ensures SizeSum(us + [u], ks) == SizeSum(us, ks) + (if GroupKey(u).value in ks then 1 else 0)
    decreases |ks|
  {
    if ks != [] {
      MembersAppend(us, u, ks[0]);
      SizeSumStep(us, u, ks[1..]);
      assert GroupKey(u).value in ks <==> GroupKey(u).value == ks[0] || GroupKey(u).value in ks[1..];
      if GroupKey(u).value == ks[0] {
        assert GroupKey(u).value !in ks[1..];
      }
    }
  }

  /** When the keys cover every user once, the group sizes add up to the number of users. */
  lemma {:induction false} SizeSumCountsEveryone(us: seq<JValue>, ks: seq<string>)
    requires NoDuplicates(ks)
    requires forall i :: 0 <= i < |us| ==> GroupKey(us[i]).Some? && GroupKey(us[i]).value in ks
    ensures SizeSum(us, ks) == |us|
    decreases |us|
  {
    if us == [] {
      SizeSumEmpty(ks);
    } else {
      var init := us[..|us| - 1];
      assert us == init + [us[|us| - 1]];
      SizeSumCountsEveryone(init, ks);
      SizeSumStep(init, us[|us| - 1], ks);
    }
  }

  lemma {:induction false} SizeSumEmpty(ks: seq<string>)
    ensures SizeSum([], ks) == 0
    decreases |ks|
  {
    if ks != [] {
      SizeSumEmpty(ks[1..]);
    }
  }

  /** `Σ |m[k].members|` over a list of group keys. */
  function MemberCount(m: map<string, UserGroup>, ks: seq<string>): nat
    requires forall i :: 0 <= i < |ks| ==> ks[i] in m
    decreases |ks|
  {
    if ks == [] then 0 else |m[ks[0]].members| + MemberCount(m, ks[1..])
  }

  /** Summed over all groups, the member counts equal the number of users. */
  lemma {:induction false} GroupsPartitionUsers(us: seq<JValue>, ks: seq<string>)
    requires GroupUsers(us).Some?
    requires NoDuplicates(ks)
    requires forall k :: k in GroupUsers(us).value <==> k in ks
    ensures forall i :: 0 <= i < |ks| ==> ks[i] in GroupUsers(us).value
    ensures MemberCount(GroupUsers(us).value, ks) == |us|
  {
    var m := GroupUsers(us).value;
    GroupUsersSpec(us);
    forall i | 0 <= i < |us| ensures GroupKey(us[i]).Some? && GroupKey(us[i]).value in ks {
      var k := GroupKey(us[i]).value;
      assert us[i] in Members(us, k);
    }
    SizeSumCountsEveryone(us, ks);
    MemberCountIsSizeSum(us, m, ks);
  }

  lemma {:induction false} MemberCountIsSizeSum(us: seq<JValue>, m: map<string, UserGroup>, ks: seq<string>)
    requires forall i :: 0 <= i < |ks| ==> ks[i] in m && m[ks[i]].members == Members(us, ks[i])
    ensures MemberCount(m, ks) == SizeSum(us, ks)
    decreases |ks|
  {
    if ks != [] {
      MemberCountIsSizeSum(us, m, ks[1..]);
    }
  }

  // ---------------------------------------------------------------------------
  // Page state
  // ---------------------------------------------------------------------------

  const ConnectError := "Error al conectar con el servidor."
  const UpdateError := "Error al actualizar el estado."
  const ToggleNetworkError := "Error de conexión."

  /** Expanded groups: an object from group key to flag; a missing key reads as collapsed. */
  predicate Expanded(m: map<string, bool>, k: string) {
    k in m && m[k]
  }

  /** The users page state. `error` holds whatever value was stored (`data.message` may be anything). */
  datatype State = State(users: JValue, expanded: map<string, bool>, error: JValue, loading: bool)

  /** A settled request: a decoded body with the response's `ok` flag, or a thrown request. */
  datatype Response = Body(ok: bool, data: JValue) | Thrown

  /**
   * The end of `fetchUsers`. On success the body is stored and, when its
   * `length` is positive, only the group of `data[0]` is expanded. Reading
   * `data.length` of a `null` body, or the key of an `undefined` or `null` first
   * element, throws after the body was stored, and the catch reports the
   * connection error.
   */
  function FetchUsers(s: State, resp: Response): (t: State)
    ensures !t.loading
    ensures resp.Thrown? ==> t.users == s.users && t.error == JStr(ConnectError)
    ensures resp.Body? && resp.ok ==> t.users == resp.data
    ensures resp.Body? && resp.ok && resp.data.JNull? ==> t.error == JStr(ConnectError) && t.expanded == s.expanded
    ensures resp.Body? && resp.ok && !resp.data.JNull? && !HasFirst(resp.data) ==>
              t.expanded == s.expanded && t.error == JStr("")
    ensures resp.Body? && resp.ok && !resp.data.JNull? && HasFirst(resp.data) ==>
              if First(resp.data).None? || First(resp.data).value.JNull? then t.error == JStr(ConnectError) && t.expanded == s.expanded
              else t.expanded == map[GroupKey(First(resp.data).value).value := true] && t.error == JStr("")
    ensures resp.Body? && resp.ok && resp.data.JArr? && |resp.data.items| > 0 && !resp.data.items[0].JNull? ==>
              t.expanded == map[GroupKey(resp.data.items[0]).value := true] && t.error == JStr("")
    ensures resp.Body? && resp.ok && resp.data.JArr? && |resp.data.items| > 0 && resp.data.items[0].JNull? ==>
              t.error == JStr(ConnectError)
    ensures resp.Body? && resp.ok && resp.data.JStr? && resp.data.s != "" ==> t.expanded == map["undefined" := true]
    ensures resp.Body? && resp.ok && resp.data.JArr? && |resp.data.items| == 0 ==> t.expanded == s.expanded
    ensures resp.Body? && !resp.ok && !resp.data.JNull? ==> t.users == s.users && t.error == PropOrNull(resp.data, "message")
    ensures resp.Body? && !resp.ok && resp.data.JNull? ==> t.users == s.users && t.error == JStr(ConnectError)
  {
    var s0 := s.(error := JStr(""));
    match resp
    case Thrown => s0.(error := JStr(ConnectError), loading := false)
    case Body(ok, data) =>
      if ok then
        var s1 := s0.(users := data, loading := false);
        if data.JNull? then s1.(error := JStr(ConnectError))
        else if HasFirst(data) then
          match First(data)
          case None => s1.(error := JStr(ConnectError))
          case Some(u) =>
            match GroupKey(u)
            case None => s1.(error := JStr(ConnectError))
            case Some(k) => s1.(expanded := map[k := true])
        else s1
      else if data.JNull? then s0.(error := JStr(ConnectError), loading := false)
      else s0.(error := PropOrNull(data, "message"), loading := false)
  }

  /** The group expanded after a successful non-empty fetch is one of the displayed groups. */
  lemma FirstGroupIsShown(s: State, data: seq<JValue>)
    requires |data| > 0 && GroupUsers(data).Some?
    ensures var t := FetchUsers(s, Body(true, JArr(data)));
            forall k :: Expanded(t.expanded, k) <==> k in GroupUsers(data).value && k == GroupKey(data[0]).value
  {
    GroupUsersSpec(data);
    var k0 := GroupKey(data[0]).value;
    assert data[0] in Members(data, k0);
  }

  /** `toggleGroup`: `{...prev, [k]: !prev[k]}`. */
  function ToggleGroup(m: map<string, bool>, k: string): (r: map<string, bool>)
    ensures Expanded(r, k) <==> !Expanded(m, k)
    ensures forall k' :: k' != k ==> (k' in r <==> k' in m) && (k' in m ==> r[k'] == m[k'])
  {
    m[k := !Expanded(m, k)]
  }

  lemma ToggleGroupTwice(m: map<string, bool>, k: string)
    ensures forall k' :: Expanded(ToggleGroup(ToggleGroup(m, k), k), k') <==> Expanded(m, k')
  {
  }

  /** The status sent by the switch: 0 when the current status is `=== 1`, otherwise 1. */
  function NewStatus(current: JValue): (r: JValue)
    ensures r == Int(0) <==> IsOne(current)
    ensures r == Int(1) <==> !IsOne(current)
  {
    IntRoundTrip(0);
    IntRoundTrip(1);
    if IsOne(current) then Int(0) else Int(1)
  }

  /** Flipping the switch twice from a 0/1 status gives the status back. */
  lemma NewStatusInvolutive(b: bool)
    ensures NewStatus(NewStatus(Int(if b then 1 else 0))) == Int(if b then 1 else 0)
  {
    IntRoundTrip(0);
    IntRoundTrip(1);
    IsOneMeans(Int(0));
    IsOneMeans(Int(1));
  }

  /**
   * `u.id === userId`, where either side may be `undefined` (`None`). Ids are
   * taken to be scalars: an array or object id matches nothing here.
   */
  predicate SameId(id: Option<JValue>, userId: Option<JValue>) {
    match (id, userId)
    case (None, None) => true
    case (Some(a), Some(b)) => StrictEq(a, b)
    case _ => false
  }

  /** `{ ...u, act_ina: newStatus }` for the matching user, `u` itself otherwise. */
  function UpdateUser(u: JValue, userId: Option<JValue>, status: JValue): JValue
    requires !u.JNull?
  {
    if SameId(Prop(u, "id"), userId) then SetField(u, "act_ina", status) else u
  }

  /**
   * `handleToggleStatus`. A successful update replaces `act_ina` of the users
   * with the given id and nothing else; the `map` itself throws when `users` is
   * not an array or holds a `null` user, and the surrounding `catch` then keeps
   * the users and reports a connection error.
   */
  function ToggleStatus(s: State, userId: Option<JValue>, current: JValue, resp: Response): (t: State)
    ensures t.expanded == s.expanded
    ensures !(resp.Body? && resp.ok) ==> t.users == s.users
    ensures resp.Body? && !resp.ok ==> t.error == JStr(UpdateError)
    ensures resp.Thrown? ==> t.error == JStr(ToggleNetworkError)
    ensures resp.Body? && resp.ok && !(s.users.JArr? && forall i :: 0 <= i < |s.users.items| ==> !s.users.items[i].JNull?) ==>
              t.users == s.users && t.error == JStr(ToggleNetworkError)
    ensures resp.Body? && resp.ok && s.users.JArr? && (forall i :: 0 <= i < |s.users.items| ==> !s.users.items[i].JNull?) ==>
              t.error == s.error && t.users.JArr? && |t.users.items| == |s.users.items|
              && forall i :: 0 <= i < |s.users.items| ==>
                   var u := s.users.items[i];
                   (SameId(Prop(u, "id"), userId) ==>
                      (Prop(t.users.items[i], "act_ina") == Some(NewStatus(current))
                       && forall k :: k != "act_ina" ==> Prop(t.users.items[i], k) == Prop(u, k)))
                   && (!SameId(Prop(u, "id"), userId) ==> t.users.items[i] == u)
  {
    var status := NewStatus(current);
    match resp
    case Thrown => s.(error := JStr(ToggleNetworkError))
    case Body(ok, _) =>
      if !ok then s.(error := JStr(UpdateError))
      else if s.users.JArr? && forall i :: 0 <= i < |s.users.items| ==> !s.users.items[i].JNull? then
        var us := s.users.items;
        s.(users := JArr(seq(|us|, i requires 0 <= i < |us| => UpdateUser(us[i], userId, status))))
      else s.(error := JStr(ToggleNetworkError))
  }

  /**
   * A toggle is all or nothing: either the reply is OK and the list could be
   * mapped, and the error is left as it was, or the users are kept and one of
   * the two error messages is shown.
   */
  lemma ToggleAllOrNothing(s: State, userId: Option<JValue>, current: JValue, resp: Response)
    ensures var t := ToggleStatus(s, userId, current, resp);
            (resp.Body? && resp.ok && s.users.JArr? && (forall i :: 0 <= i < |s.users.items| ==> !s.users.items[i].JNull?)
             && t.error == s.error)
            || (t.users == s.users && (t.error == JStr(UpdateError) || t.error == JStr(ToggleNetworkError)))
  {
  }

  /** The status switch is disabled exactly for administrators (`flg_adm === 1`). */
  predicate SwitchDisabled(u: JValue) {
    IsOne(PropOrNull(u, "flg_adm"))
  }

  /** Toggling never changes which users are administrators, so their switches stay disabled. */
  lemma ToggleKeepsAdmins(s: State, userId: Option<JValue>, current: JValue, resp: Response, i: nat)
    requires resp.Body? && resp.ok && s.users.JArr?
    requires forall j :: 0 <= j < |s.users.items| ==> !s.users.items[j].JNull?
    requires i < |s.users.items|
    ensures SwitchDisabled(ToggleStatus(s, userId, current, resp).users.items[i]) <==> SwitchDisabled(s.users.items[i])
  {
    var t := ToggleStatus(s, userId, current, resp);
    assert PropOrNull(t.users.items[i], "flg_adm") == PropOrNull(s.users.items[i], "flg_adm");
  }
}

=== FILE: vehicular.dfy ===
/**
 * The vehicle-tax modal: the list request, the array coercion of its result,
 * the four column totals and the zero branch of the currency formatter.
 */
module Vehicular {
  import opened Wrappers
  import opened Text
  import opened Numbers
  import opened Json
  import opened Lists
  import opened Lookup

  /** `parseFloat(getValue(item, key)) || 0`: a missing, '-' or non-numeric value counts as 0. */
  function Amount(item: JValue, key: string): (n: real)
    ensures ParseFloat(GetOrDash(item, key)).NaN? ==> n == 0.0
    ensures n != 0.0 ==> ParseFloat(GetOrDash(item, key)) == Fin(n)
  {
    OrZero(ParseFloat(GetOrDash(item, key)))
  }

  /** Rows whose field is missing (so it reads as '-') contribute 0. */
  lemma DashAmountIsZero(item: JValue, key: string)
    requires GetOrDash(item, key) == JStr("-")
    ensures Amount(item, key) == 0.0
  {
    NonNumericPlaceholders();
  }

  datatype Totals = Totals(impuesto: real, deuda: real, pago: real, saldo: real)

  /** The sum of one column over the rows, added left to right. */
  function ColumnSum(items: seq<JValue>, key: string): real {
    SumOf(Column(key), items)
  }

  /** The amount a row contributes to column `key`. */
  function Column(key: string): JValue -> real {
    item => Amount(item, key)
  }

  /**
   * `totals`: the single `reduce` that accumulates all four columns. A list that
   * is not an array gives all-zero totals.
   */
  function SumTotals(list: JValue): (t: Totals)
    ensures !list.JArr? ==> t == Totals(0.0, 0.0, 0.0, 0.0)
    ensures list.JArr? ==>
              t == Totals(ColumnSum(list.items, "imp_imp"), ColumnSum(list.items, "imp_deu"),
                          ColumnSum(list.items, "imp_pag"), ColumnSum(list.items, "imp_sld"))
  {
    if !list.JArr? then Totals(0.0, 0.0, 0.0, 0.0) else Fold(list.items, Column("imp_imp"), Column("imp_deu"), Column("imp_pag"), Column("imp_sld"))
  }

  /**
   * The accumulator after the first `|items|` rows, for the four column
   * amounts `fi`, `fd`, `fp` and `fs` (impuesto, deuda, pago, saldo).
   */
  function Fold(items: seq<JValue>, fi: JValue -> real, fd: JValue -> real, fp: JValue -> real, fs: JValue -> real): (t: Totals)
    ensures t == Totals(SumOf(fi, items), SumOf(fd, items), SumOf(fp, items), SumOf(fs, items))
    decreases |items|
  {
    if items == [] then Totals(0.0, 0.0, 0.0, 0.0)
    else
      var acc := Fold(items[..|items| - 1], fi, fd, fp, fs);
      var item := items[|items| - 1];
      Totals(acc.impuesto + fi(item), acc.deuda + fd(item), acc.pago + fp(item), acc.saldo + fs(item))
  }

  /** A column total over two blocks of rows is the sum of the blocks' totals. */
  lemma ColumnSumAppend(xs: seq<JValue>, ys: seq<JValue>, key: string)
    ensures ColumnSum(xs + ys, key) == ColumnSum(xs, key) + ColumnSum(ys, key)
  {
    SumOfAppend(Column(key), xs, ys);
  }

  /**
   * `formatCurrency`: 'S/ 0.00' for '-', `undefined` (`None`), `null` or a value
   * that does not parse; `locale` formats the rest.
   */
  function CurrencyText(amount: Option<JValue>, locale: real -> string): (t: string)
    ensures amount == None || amount == Some(JNull) || amount == Some(JStr("-")) ==> t == "S/ 0.00"
    ensures amount.Some? && ParseFloat(amount.value).NaN? ==> t == "S/ 0.00"
    ensures amount.Some? && amount.value != JStr("-") && ParseFloat(amount.value).Fin? ==> t == locale(ParseFloat(amount.value).r)
  {
    if amount.None? || amount.value == JStr("-") || amount.value == JNull then
      assert amount.Some? ==> ParseFloat(amount.value).NaN? by { NonNumericPlaceholders(); }
      "S/ 0.00"
    else if ParseFloat(amount.value).NaN? then "S/ 0.00"
    else locale(ParseFloat(amount.value).r)
  }

  /** '-' and `null` do not parse as numbers. */
  lemma NonNumericPlaceholders()
    ensures ParseFloat(JStr("-")).NaN? && ParseFloat(JNull).NaN?
  {
    assert JsToString(JStr("-")) == "-";
    ParseDecimalLoneSign('-');
    assert JsToString(JNull) == "null";
    ParseDecimalNoStart("null");
  }

  // ---------------------------------------------------------------------------
  // Modal state
  // ---------------------------------------------------------------------------

  const LoadError := "Error al cargar los registros de Impuesto Vehicular"

  datatype State = State(list: JValue, error: string, loading: bool)

  /**
   * The object `{ pide_cnt: ide_cnt, ide_bde }` the component builds from the
   * connection; a property it copies from a missing field is left out here.
   */
  function Payload(conn: JValue): (p: JValue)
    ensures Prop(p, "pide_cnt") == Prop(conn, "ide_cnt")
    ensures Prop(p, "ide_bde") == Prop(conn, "ide_bde")
    ensures forall k :: k != "pide_cnt" && k != "ide_bde" ==> Prop(p, k).None?
  {
    var p1 := match Prop(conn, "ide_cnt")
              case Some(v) => SetField(JObj([]), "pide_cnt", v)
              case None => JObj([]);
    match Prop(conn, "ide_bde")
    case Some(v) => SetField(p1, "ide_bde", v)
    case None => p1
  }

  /**
   * Whether logging the raw result throws: reading `result[0]` of `null`, or,
   * once `result.length > 0`, `Object.keys` of a first element `result[0]`
   * that is `undefined` or `null` (an object whose `length` field is positive
   * but which has no usable field "0").
   */
  predicate LoggingThrows(result: JValue) {
    result.JNull? || (HasFirst(result) && (First(result).None? || First(result).value.JNull?))
  }

  /**
   * The end of `fetchImpuestoVehicular`. The result is stored only when it is an
   * array; anything else leaves an empty list. `engineMessage` is the message of
   * a `TypeError` thrown by the destructuring or the logging.
   */
  function Fetch(s: State, conn: JValue, call: JValue -> Result<JValue>, engineMessage: string): (t: State)
    ensures !t.loading
    ensures !conn.JNull? && call(Payload(conn)).Ok? && !LoggingThrows(call(Payload(conn)).value) ==>
              t.error == "" && t.list == (if call(Payload(conn)).value.JArr? then call(Payload(conn)).value else JArr([]))
    ensures !conn.JNull? && call(Payload(conn)).Ok? && LoggingThrows(call(Payload(conn)).value) ==>
              t.list == s.list && t.error == (if engineMessage != "" then engineMessage else LoadError)
    ensures !conn.JNull? && call(Payload(conn)).Err? ==>
              t.list == s.list && t.error == (var m := call(Payload(conn)).message; if m != "" then m else LoadError)
    ensures conn.JNull? ==> t.list == s.list && t.error != ""
  {
    var s0 := s.(loading := true, error := "");
    var failed := (m: string) => s0.(error := if m != "" then m else LoadError, loading := false);
    if conn.JNull? then failed(engineMessage)
    else match call(Payload(conn))
      case Err(m) => failed(m)
      case Ok(result) =>
        if LoggingThrows(result) then failed(engineMessage)
        else s0.(list := if result.JArr? then result else JArr([]), loading := false)
  }

  /** The stored list is always an array, so the totals never take the non-array branch after a fetch. */
  lemma FetchStoresArray(s: State, conn: JValue, call: JValue -> Result<JValue>, engineMessage: string)
    requires s.list.JArr?
    ensures Fetch(s, conn, call, engineMessage).list.JArr?
  {
  }

  /** Opening the modal clears the list and the error, then fetches. */
  function Open(s: State, conn: JValue, call: JValue -> Result<JValue>, engineMessage: string): (t: State)
    ensures t.list.JArr?
    ensures !conn.JNull? && call(Payload(conn)).Err? ==> t.list == JArr([])
  {
    Fetch(State(JArr([]), "", s.loading), conn, call, engineMessage)
  }
}

=== FILE: wrappers.dfy ===
/** Failure-compatible wrappers shared by every module of the model. */
module Wrappers {

  /** A value that may be absent: JavaScript's `undefined`, a parse that failed, a key not found. */
  datatype Option<+T> = None | Some(value: T) {

    /** The wrapped value, or `default` when absent. */
    function GetOr(default: T): T {
      match this
      case Some(v) => v
      case None => default
    }
  }

  /** The outcome of a network round-trip: the decoded body, or the message of the thrown `Error`. */
  datatype Result<+R> = Ok(value: R) | Err(message: string)
}
